=== FILE: README.md ===
# Fitness-bet challenge engine, modelled in Dafny

This project models the core of a Telegram bot that runs group fitness bets. A group creates
a challenge with a duration, a stake, a discipline threshold and a skip allowance. Members
join, go through a private onboarding (start measurements, photos, a goal, two or three
habits), elect a bank holder, pay their stake and get it confirmed. The challenge then
activates and the bot generates check-in windows. A scheduler opens the windows, reminds
those who have not checked in, closes the windows and charges a skip to every active
participant who missed one. A participant past the skip allowance is disqualified. When the
challenge ends, the bot scores everyone, announces a ranking and splits the losers' stakes
among the winners.

The database is an immutable value, `Schema.Db`, holding the tables the core uses:
challenges, participants, check-in windows, check-ins, payments, goals, commitments,
bank-holder elections and votes. Its `sent` field logs the messages the bot sends with
the messaging API's send call: notices to a group and direct messages to a user. Answers
given in the chat an update came from, and alerts shown on a button press, are not logged.
Every command handler and scheduler sweep is a pure function from a store (and its inputs) to
a new store, or to a refusal that names the guard that stopped it. The table constraints the
schema declares are collected in `Schema.Valid`, and the operations that insert rows are
proved to keep them.

Modules, following the program's structure:

- `Common`: option/result types and sequence helpers (find, filter, stable sort,
  de-duplication, decimal rendering).
- `Schema`: rows, statuses, the store, the declared unique constraints, lookups.
- `ChallengeCreation`: `/create` and the creation conversation.
- `Participation`: joining, the check-in button and the check-in conversation.
- `Replies`: reading numbers typed in reply to a question.
- `Onboarding`: the onboarding conversation, goal validation and habit selection.
- `Election`, `ElectionCommands`: bank-holder election finalisation, `/bankholder` and voting.
- `Payments`: marking and confirming payments, and activating the challenge.
- `CheckinWindows`: generating a challenge's check-in windows.
- `WindowClosing`: closing one window and charging skips.
- `Sweeps`: the scheduler's sweeps (open, remind, close, onboarding timeouts, overdue elections).
- `Settlement`, `Finale`: scoring, winners, payouts, and finalising ended challenges.
- `Scheduler`: the tick that runs the sweeps in order.
- `Habits`: the daily habits message.
- `Duration`, `WindowLabels`, `StatusLabels`, `TelegramMarkdown`, `DbClient`: the pure
  formatting and configuration helpers the core calls.

Time is milliseconds as `int`. Calendar dates are day numbers. Money, weights and scores are
`real`. Everything that talks to the outside world is a parameter:

- the clock (`now`, or a `clock` per sweep);
- the language model's verdict on a goal;
- the user's replies, as a sequence of already-parsed answers;
- month arithmetic for challenges measured in months;
- a failing sweep in the scheduler, as a fault index.

## Model

| member | source | states |
|---|---|---|
| `Schema.CheckinPeriodMs` | src/bot/createBot.ts:877-880 | windows are spaced by the configured minutes when that setting is positive, else by the configured days; the spacing is positive under a valid configuration |
| `Schema.LiveChallengeOf` | src/bot/createBot.ts:271-275 | the chat's live challenge (draft, collecting payments or active) if it has one; none means no challenge of the chat is live |
| `Schema.FindMember` | src/bot/createBot.ts:341-345 | the user's row in a challenge if there is one; none means the user never joined it |
| `Schema.MembersWithStatus` | src/scheduler/tasks.ts:490-494 | exactly the participants of the challenge that have the given status |
| `Schema.NewParticipant` | src/bot/createBot.ts:385-395 | a new joiner starts in onboarding at the join time, with zero counters and no measurements |
| `Schema.ParseParticipantStatus` | src/db/schema.ts:65 | a stored participant status string parses only to the status of that name |
| `Schema.ParseChallengeStatus` | src/db/schema.ts:26 | a stored challenge status string parses only to the status of that name |
| `Schema.StatusNamesRoundTrip` | src/db/schema.ts:26-65 | writing a status and reading it back gives the same status, for both enumerations |
| `Schema.EmptyIsValid` | src/db/schema.ts:70-73 | the empty database satisfies every declared unique constraint and counter invariant |
| `ChallengeCreation.DurationOf` | src/bot/conversations/createChallengeConversation.ts:40-45 | the duration buttons give 6 or 12 units |
| `ChallengeCreation.ThresholdOf` | src/bot/conversations/createChallengeConversation.ts:60-64 | the threshold buttons give 0.7, 0.8 or 0.9 |
| `ChallengeCreation.MaxSkipsOf` | src/bot/conversations/createChallengeConversation.ts:72-76 | the skip buttons give an allowance from 1 to 3 |
| `ChallengeCreation.ReadStake` | src/bot/conversations/createChallengeConversation.ts:104-116 | the stake is the first reply that reads as a positive number: it is a reply, positive, and no earlier reply is positive; there is none exactly when no reply is |
| `ChallengeCreation.NewChallenge` | src/bot/conversations/createChallengeConversation.ts:78-94 | a challenge exists exactly when every answer is given; it is a draft with no bank holder and no dates, and its parameters lie in the offered ranges |
| `ChallengeCreation.Converse` | src/bot/conversations/createChallengeConversation.ts:20-102 | the conversation appends exactly the described draft under the next id and keeps the database valid |
| `ChallengeCreation.AppendChallengeValid` | src/bot/conversations/createChallengeConversation.ts:80-94 | inserting a challenge under the fresh id keeps every constraint |
| `ChallengeCreation.Create` | src/bot/createBot.ts:266-295 | `/create` is refused outside a group or when the chat has a live challenge; otherwise the new draft becomes the chat's live challenge |
| `ChallengeCreation.NewDraftIsLive` | src/bot/createBot.ts:271-275 | in a chat without a live challenge, the new draft is the one the live-challenge query finds |
| `ChallengeCreation.CreateOnce` | src/bot/createBot.ts:271-292 | once a challenge is created, a second `/create` in the chat is refused and names it |
| `ChallengeCreation.ConverseTwiceMakesTwoDrafts` | src/bot/conversations/createChallengeConversation.ts:78-94 | the conversation does not recheck the chat, so two overlapping conversations store two live drafts |
| `Participation.Engagement` | src/bot/createBot.ts:317-332 | finds a live participation of the user in a live challenge if one exists, and none exactly when there is none |
| `Participation.Rejoin` | src/bot/createBot.ts:361-383 | rejoining resets only the user's row and deletes that participant's goal, commitments and payment, keeping everyone else's |
| `Participation.Admit` | src/bot/createBot.ts:384-396 | a first join appends a fresh participant under the next id |
| `Participation.JoinWith` | src/bot/createBot.ts:297-421 | a join is refused exactly when a guard fails, naming that guard; a user whose onboarding has already started is refused but sent a private reminder to continue it, and any other refusal changes nothing; otherwise an existing row is reset or a new one admitted, and the user is told to start onboarding |
| `Participation.JoinAsWritten` | src/bot/createBot.ts:361-377 | the join as the source writes it: a rejoining participant's row is reset but keeps its old join time |
| `Participation.Join` | src/bot/createBot.ts:297-421 | a refused press leaves every table as it was and logs only the continue-onboarding reminder to a user already onboarding; after a join the user's row is in onboarding with the join time set to now; the per-user uniqueness of participants is kept |
| `Participation.RejoinFacts` | src/bot/createBot.ts:361-383 | a reset row stays the user's row, in onboarding, and keeps participants unique per user and challenge |
| `Participation.AdmitFacts` | src/db/schema.ts:70-73 | an admitted user's row is the fresh participant, and participants stay unique per user and challenge |
| `Participation.JoinRequiresNoEngagement` | src/bot/createBot.ts:317-339 | a join that passes the guards comes from a user with no live participation in a live challenge |
| `Participation.SameKeySameRow` | src/db/schema.ts:70-73 | under the unique constraint, the user and challenge determine the row |
| `Participation.RejoinedDroppedAgain` | src/scheduler/tasks.ts:283-292 | with the source's join, a participant dropped for an onboarding timeout who rejoins is dropped again by the next sweep |
| `Participation.RejoinedKeepsFullTimeout` | src/scheduler/tasks.ts:283-288 | with the join time reset, a rejoined participant is not stale for the full onboarding timeout |
| `Participation.CheckinButton` | src/bot/createBot.ts:423-462 | the button works only for an active participant of an open window in its own chat, and then marks only that participant's pending window |
| `Participation.Complete` | src/bot/conversations/checkinConversation.ts:102-114 | a check-in adds one to the completed and total counters and clears the pending window |
| `Participation.ClearPendingOf` | src/bot/conversations/checkinConversation.ts:56-66 | only the participant's pending window and request time are cleared |
| `Participation.Record` | src/bot/conversations/checkinConversation.ts:86-115 | the check-in row is appended, the counters agree afterwards, and check-ins stay unique per participant and window |
| `Participation.Submit` | src/bot/conversations/checkinConversation.ts:24-162 | a check-in is refused by the entry guards, reported as already submitted, refused for an inactive participant, or recorded with the first acceptable weight and waist once all four photos have arrived, and waits otherwise |
| `Participation.RecordedUnique` | src/db/schema.ts:147-150 | appending a check-in for a new participant and window pair keeps check-ins unique |
| `Participation.SubmitTwice` | src/bot/conversations/checkinConversation.ts:56-66 | a second check-in for the same window is reported as already submitted |
| `Participation.RecordedNotCharged` | src/scheduler/tasks.ts:496-513 | a participant who checked in is not charged a skip when the window closes |
| `Replies.ReadNumber` | src/bot/conversations/checkinConversation.ts:120-134 | the answer is the first reply in range, with its position; none exactly when no reply is acceptable |
| `Replies.ReadNumberSkipsRejected` | src/bot/conversations/checkinConversation.ts:127-133 | replies that are out of range or not numbers are skipped and do not change the answer |
| `Replies.WeightBoundsInclusive` | src/bot/conversations/checkinConversation.ts:72-76 | both ends of the weight range are accepted, and a reply just below it is rejected |
| `Onboarding.ReadNumberPrefilled` | src/bot/conversations/onboardingConversation.ts:325-344 | a number typed at the resume prompt is used when acceptable; otherwise the first acceptable reply |
| `Onboarding.GoalStep` | src/bot/conversations/onboardingConversation.ts:559-600 | a goal choice is kept only when it moves in the track's direction; a typed value must be in range |
| `Onboarding.AskGoalNumber` | src/bot/conversations/onboardingConversation.ts:541-601 | the goal is the first choice that is accepted, after only retried steps |
| `Onboarding.AskGoal` | src/bot/conversations/onboardingConversation.ts:395-443 | the weight and waist goals both move in the track's direction and are in range or the recommendation |
| `Onboarding.ValidateFrom` | src/bot/conversations/onboardingConversation.ts:462-538 | any goal the validation loop settles on fits the start measurements |
| `Onboarding.ValidateGoal` | src/bot/conversations/onboardingConversation.ts:445-539 | without a model the goal is stored as realistic; when the model is unavailable it is stored unvalidated |
| `Onboarding.ValidationSettles` | src/bot/conversations/onboardingConversation.ts:508-517 | validation reads at most the revision limit of rounds |
| `Onboarding.DisputedGoalRevised` | src/bot/conversations/onboardingConversation.ts:519-537 | a goal judged unrealistic and not kept sends the user to another round, counting one revision |
| `Onboarding.DisputedGoalAtLimit` | src/bot/conversations/onboardingConversation.ts:508-516 | at the revision limit a disputed goal is accepted with the model's verdict |
| `Onboarding.ThirdDisputedGoalAccepted` | src/bot/conversations/onboardingConversation.ts:462-517 | the third disputed goal in a row is stored as it is |
| `Onboarding.Integers` | src/bot/conversations/onboardingConversation.ts:629-632 | keeps exactly the tokens that read as integers |
| `Onboarding.IntegersAppend` | src/bot/conversations/onboardingConversation.ts:629-632 | the integers of two runs of tokens are those of the first followed by those of the second, so order and repeats are kept |
| `Onboarding.IntegersOfOne` | src/bot/conversations/onboardingConversation.ts:629-632 | one token gives its integer, or nothing when it does not read as one |
| `Onboarding.SelectCommitments` | src/bot/conversations/onboardingConversation.ts:626-641 | a selection is accepted exactly when two or three distinct numbers name listed habits; it yields distinct template ids |
| `Onboarding.SelectionFollowsFirstMention` | src/bot/conversations/onboardingConversation.ts:633-640 | the chosen habits follow the order in which their numbers first appear |
| `Onboarding.DistinctSelection` | src/bot/conversations/onboardingConversation.ts:633-640 | with no repeats, the chosen habits are the numbered ones in the order typed |
| `Onboarding.RepeatedNumberCountsOnce` | src/bot/conversations/onboardingConversation.ts:629-640 | "1 3 1" selects the first and third habits |
| `Onboarding.OneNumberTwiceRefused` | src/bot/conversations/onboardingConversation.ts:633-638 | "2 2" is one habit and is refused |
| `Onboarding.AskCommitments` | src/bot/conversations/onboardingConversation.ts:603-642 | the habits are the first acceptable selection among the replies |
| `Onboarding.RestartProfile` | src/bot/conversations/onboardingConversation.ts:99-130 | "start over" empties the profile and deletes goal, commitments and payment of this participant only |
| `Onboarding.Ask` | src/bot/conversations/onboardingConversation.ts:139-149 | a question already answered is not asked again |
| `Onboarding.Profile` | src/bot/conversations/onboardingConversation.ts:138-219 | the questions change only the profile columns |
| `Onboarding.ProfileAnswers` | src/bot/conversations/onboardingConversation.ts:138-219 | stored answers are kept; new answers are in range and follow the question order |
| `Onboarding.StoreProfile` | src/bot/conversations/onboardingConversation.ts:143-176 | the profile is written to the participant's own row only |
| `Onboarding.TouchesKeepsValid` | src/db/schema.ts:186-189 | changes confined to one participant that keep commitments unique keep the database valid |
| `Onboarding.CommitmentRows` | src/bot/conversations/onboardingConversation.ts:249-252 | one commitment row per chosen habit, in order |
| `Onboarding.Complete` | src/bot/conversations/onboardingConversation.ts:244-270 | completion replaces the participant's commitments, creates a pending payment and moves the participant to pending payment |
| `Onboarding.ReplaceCommitments` | src/bot/conversations/onboardingConversation.ts:244-252 | the participant's commitments become exactly the chosen ones; the others' are untouched |
| `Onboarding.ReplaceCommitmentsUnique` | src/db/schema.ts:186-189 | replacing with distinct habits keeps commitments unique |
| `Onboarding.Finish` | src/bot/conversations/onboardingConversation.ts:221-270 | a finished onboarding leaves the participant onboarded, changing only that participant's rows |
| `Onboarding.Proceed` | src/bot/conversations/onboardingConversation.ts:56-270 | an unfinished conversation stores the answers so far; a finished one onboards the participant |
| `Onboarding.Onboard` | src/bot/conversations/onboardingConversation.ts:28-270 | refused exactly when an entry guard fails; otherwise the participant is onboarded or still onboarding, and the database stays valid |
| `Onboarding.OnboardingRunsOnce` | src/bot/conversations/onboardingConversation.ts:51-54 | a finished onboarding cannot be entered again |
| `Onboarding.FinishedCanPay` | src/bot/createBot.ts:473-487 | after onboarding, the participant's own "paid" button passes every guard |
| `Election.VotesOf` | src/services/bankholderElection.ts:45-49 | exactly the votes of the election |
| `Election.Tally` | src/services/bankholderElection.ts:56-57 | a candidate has no votes exactly when no vote names them |
| `Election.Eligible` | src/services/bankholderElection.ts:33-42 | exactly the participants of the challenge who are past onboarding and not out |
| `Election.LeaderUnique` | src/services/bankholderElection.ts:65-76 | there is at most one leader: most votes, lowest user id on ties |
| `Election.ScanLeads` | src/services/bankholderElection.ts:65-76 | the scan over candidates in ascending order ends on the leader |
| `Election.ChooseWinner` | src/services/bankholderElection.ts:59-76 | the winner is eligible; with no votes it is the creator if eligible, else the lowest id; otherwise the leader |
| `Election.WinnerIsTheLeader` | src/services/bankholderElection.ts:65-76 | whenever there are votes, the chosen winner is the leader |
| `Election.IneligibleVotesIgnored` | src/scheduler/extraTasks.test.ts:116-120 | votes only for ineligible users leave the lowest eligible id as the winner |
| `Election.AutoConfirmIds` | src/services/bankholderElection.ts:119-123 | the winner's own marked payment, and no other, is confirmed on the spot |
| `Election.PayRequests` | src/services/bankholderElection.ts:106-116 | pay requests go to every eligible participant pending payment, and to nobody else |
| `Election.MarkedNotices` | src/services/bankholderElection.ts:119-158 | a notice is sent for each payment marked before the election, and for nothing else: a confirmation to the holder's own row, a request to the holder for anyone else's |
| `Election.CloseTables` | src/services/bankholderElection.ts:78-158 | the winner becomes bank holder, the challenge collects payments, the election completes, and only the winner's marked payment is confirmed; nothing is sent |
| `Election.Close` | src/services/bankholderElection.ts:78-158 | the tables change as closing requires, and the only messages are, in order, the holder announcement to the group, the note to the holder, the pay requests and the notices about marked payments |
| `Election.Finalize` | src/services/bankholderElection.ts:9-161 | the election is closed exactly when it is in progress, its challenge exists with someone eligible, and it is old enough (timeout) or has as many distinct voters as eligible participants (all votes); otherwise nothing changes; the winner is eligible |
| `Election.FinalizeKeepsOthers` | src/services/bankholderElection.ts:78-158 | finalising touches no other election row, completes its own only when it closes, and leaves every challenge that could be settled still settleable |
| `Election.FinalizeWinner` | src/services/bankholderElection.ts:56-76 | finalisation picks the winner of the election's own votes |
| `Election.FinalizeEffects` | src/services/bankholderElection.ts:78-158 | finalisation changes only the challenge, the election, and the winner's marked row and payment |
| `Election.AutoConfirmIdsExact` | src/services/bankholderElection.ts:119-138 | a row is confirmed on the spot exactly when it is the winner's marked row in this challenge |
| `Election.CloseCompletes` | src/services/bankholderElection.ts:89-93 | the closed election is completed |
| `Election.FinalizeIdempotent` | src/services/bankholderElection.ts:19-24 | a finalised election is never finalised again |
| `ElectionCommands.StartElection` | src/bot/createBot.ts:603-693 | refused exactly when a guard fails; otherwise one election is added for the live challenge and every eligible participant gets a ballot |
| `ElectionCommands.AppendElectionUnique` | src/db/schema.ts:227-229 | a challenge's first election keeps elections unique per challenge |
| `ElectionCommands.StartElectionOnce` | src/bot/createBot.ts:652-660 | a second `/bankholder` is refused while the election runs |
| `ElectionCommands.CastVote` | src/bot/createBot.ts:695-761 | refused exactly when a guard fails; otherwise the vote is appended, the election is closed if everyone voted, and votes stay unique per voter |
| `ElectionCommands.VoteClosesWhenClosable` | src/bot/createBot.ts:733-760 | a vote after which as many distinct voters have voted as are eligible completes the election; any other vote only appends itself |
| `ElectionCommands.AppendVoteUnique` | src/db/schema.ts:246-249 | a voter's first vote keeps votes unique |
| `ElectionCommands.SecondVoteRefused` | src/bot/createBot.ts:731-745 | a voter cannot vote twice in an election |
| `Payments.EndsAtAfterStart` | src/bot/createBot.ts:863-869 | a challenge measured in hours or days ends after it starts, a whole number of hours later |
| `Payments.Blocking` | src/bot/createBot.ts:850-859 | exactly the participants still onboarding or owing payment |
| `Payments.Activate` | src/bot/createBot.ts:863-891 | activation starts the challenge, replaces its windows with the generated plan, leaves other challenges' windows alone and tells the group |
| `Payments.MaybeActivate` | src/bot/createBot.ts:840-892 | a challenge activates only when it is ready; nothing else changes |
| `Payments.MaybeActivateIdempotent` | src/bot/createBot.ts:846-848 | activating twice is activating once |
| `Payments.SixHourChallengeEnds` | src/bot/payments.test.ts:127-130 | a six-hour challenge ends six hours after it starts |
| `Payments.MarkedRow` | src/bot/createBot.ts:514-521 | marking keeps any confirmation fields already present |
| `Payments.ConfirmedRow` | src/bot/createBot.ts:570-582 | confirming keeps the marking time and records the holder and the time |
| `Payments.MarkPaid` | src/bot/createBot.ts:464-539 | refused exactly when a guard fails; the bank holder's own payment is confirmed, anyone else's is marked, and no other row changes |
| `Payments.Confirm` | src/bot/createBot.ts:541-601 | only the bank holder confirms a marked payment; the participant becomes active and no other payment changes |
| `Payments.MarkThenConfirm` | src/bot/createBot.ts:514-583 | marking then confirming records both times and the holder |
| `CheckinWindows.WindowDurationMs` | src/services/checkinWindows.ts:17-18 | a window is no longer than the configured window or than the period |
| `CheckinWindows.WindowCount` | src/services/checkinWindows.ts:30-41 | the k-th window exists exactly when it opens before the end |
| `CheckinWindows.CountCharacterization` | src/services/checkinWindows.ts:30-41 | the closed-form window count matches the loop's stopping rule |
| `CheckinWindows.Plan` | src/services/checkinWindows.ts:17-44 | the generator has no result (it would not terminate) exactly when the period is not positive and the first step still lies before the end |
| `CheckinWindows.GenerateSlots` | src/services/checkinWindows.ts:20-44 | the loop computes the closed-form plan |
| `CheckinWindows.PlanShape` | src/services/checkinWindows.ts:20-41 | windows are numbered from 1, open one period apart before the end, close by the end and do not overlap |
| `CheckinWindows.Regenerate` | src/services/checkinWindows.ts:15-44 | regeneration touches only the windows table and the id counter |
| `CheckinWindows.RegenerateResult` | src/services/checkinWindows.ts:15-44 | the challenge's windows become exactly the plan, all scheduled; other challenges' windows are kept |
| `CheckinWindows.RegenerateIdempotent` | src/services/checkinWindows.ts:15 | regenerating twice gives the same windows as once |
| `CheckinWindows.RegenerateKeepsValid` | src/db/schema.ts:118-121 | regeneration keeps every constraint, including unique window numbers |
| `WindowClosing.Skip` | src/scheduler/tasks.ts:515-527 | a skip adds one skipped and one total check-in and disqualifies exactly when the skips exceed the allowance |
| `WindowClosing.FirstSkipDisqualifiesWithoutAllowance` | src/scheduler/tasks.ts:515-524 | with no allowance the first skip disqualifies |
| `WindowClosing.ClosedAt` | src/scheduler/tasks.ts:479-480 | a forced close moves the closing time earlier, never later |
| `WindowClosing.CloseWindow` | src/scheduler/tasks.ts:474-538 | the window is closed and exactly the active participants without a check-in are charged a skip; counters keep agreeing |
| `WindowClosing.CloseWindowStatuses` | src/scheduler/tasks.ts:481-485 | closing never reschedules a window or reopens a closed one |
| `WindowClosing.ZeroAllowanceScenario` | src/scheduler/tasks.test.ts:76-79 | with no allowance, a missed window closes with one skip and disqualification |
| `WindowLabels.RoundDiv` | src/scheduler/tasks.ts:541-546 | rounding to the nearest integer, halves up |
| `WindowLabels.WindowSpan` | src/scheduler/tasks.ts:540-547 | minutes below an hour, hours up to two days, days after that |
| `WindowLabels.WindowSpanAccuracy` | src/scheduler/tasks.ts:541-542 | the minute count is within half a minute of the length, and at least one minute |
| `WindowLabels.WindowSpanCoarseAccuracy` | src/scheduler/tasks.ts:540-547 | an hour count is within half an hour and half a minute of the length, a day count within half a day, half an hour and half a minute |
| `WindowLabels.FormatWindowDuration` | src/scheduler/tasks.ts:540-547 | the label is the count followed by its unit |
| `WindowLabels.FormatWindowDurationReadsBack` | src/scheduler/tasks.ts:542-546 | the label's number reads back as the count |
| `WindowLabels.WindowSpanExamples` | src/scheduler/tasks.ts:543-546 | ten minutes, one day and one week are shown as 10 minutes, 24 hours and 7 days |
| `Sweeps.CloseEach` | src/scheduler/tasks.ts:276-278 | each listed window is closed and no other window changes |
| `Sweeps.DueToOpen` | src/scheduler/tasks.ts:30-35 | exactly the scheduled windows whose opening time has come, in opening order |
| `Sweeps.NextWindow` | src/scheduler/tasks.ts:38-43 | the challenge's earliest window opening after this one |
| `Sweeps.ClampedCloses` | src/scheduler/tasks.ts:44-51 | an opening window closes no later than the next window opens |
| `Sweeps.EarlierOpen` | src/scheduler/tasks.ts:53-63 | exactly the challenge's windows still open from earlier |
| `Sweeps.Clamp` | src/scheduler/tasks.ts:44-51 | only the opening window's closing time is cut back, and only when it overlaps |
| `Sweeps.SetOpen` | src/scheduler/tasks.ts:68 | only the given window becomes open |
| `Sweeps.MarkOpen` | src/scheduler/tasks.ts:44-68 | the window is open and no window is rescheduled |
| `Sweeps.Announce` | src/scheduler/tasks.ts:69-139 | the group and every active participant are told the window opened, unless the challenge is missing |
| `Sweeps.OpenOne` | src/scheduler/tasks.ts:37-141 | opening a window keeps the challenges and only adds messages |
| `Sweeps.OpenOneWindows` | src/scheduler/tasks.ts:44-68 | the window opens with its clamped close, earlier open windows are force-closed before it opens, and nothing else changes |
| `Sweeps.OpenEach` | src/scheduler/tasks.ts:37-141 | every listed window leaves the scheduled state |
| `Sweeps.OpenSweep` | src/scheduler/tasks.ts:28-142 | every due window leaves the scheduled state; none is rescheduled; counters keep agreeing |
| `Sweeps.ReminderDue` | src/scheduler/tasks.ts:146-157 | exactly the open, unreminded windows closing within the lead time |
| `Sweeps.Missing` | src/scheduler/tasks.ts:173-189 | exactly the active participants of the window without a check-in |
| `Sweeps.RemindOne` | src/scheduler/tasks.ts:159-221 | a short window is only marked; a window whose challenge is gone or has no active participant is passed over unmarked; otherwise a reminder goes to the group and to the missing participants, and then the window is marked |
| `Sweeps.RemindedNotDueAgain` | src/scheduler/tasks.ts:147-157 | a reminded window is not reminded again |
| `Sweeps.RemindEach` | src/scheduler/tasks.ts:159-221 | a window gets the sweep's time as its reminder time exactly when a window of the list with its id was not passed over; every other window is unchanged |
| `Sweeps.Reminders` | src/scheduler/tasks.ts:144-222 | every due window that is not passed over is marked reminded now, every other window is unchanged, and no status, closing time or participant changes |
| `Sweeps.DueToClose` | src/scheduler/tasks.ts:270-274 | exactly the open windows whose closing time has come |
| `Sweeps.CloseSweep` | src/scheduler/tasks.ts:268-279 | every due window is closed and the rest are untouched |
| `Sweeps.CloseSweepTouchesOnlyDue` | src/scheduler/tasks.ts:270-278 | a window that is not due is not changed |
| `Sweeps.StaleOnboarding` | src/scheduler/tasks.ts:283-289 | exactly the participants still onboarding past the timeout |
| `Sweeps.DropNotices` | src/scheduler/tasks.ts:293-308 | notices only about dropped participants, at most two each; every dropped participant whose challenge exists is announced to that challenge's group and told privately |
| `Sweeps.OnboardingTimeouts` | src/scheduler/tasks.ts:281-310 | stale participants are dropped and every other row is kept; the messages sent are exactly the drop notices for the stale participants, appended to the log |
| `Sweeps.OnboardingTimeoutsNotifyAll` | src/scheduler/tasks.ts:291-308 | each participant the sweep drops whose challenge exists gets a group notice and a private notice |
| `Sweeps.OnboardingTimeoutsSpareOthers` | src/scheduler/tasks.ts:285-292 | a participant who is not stale is untouched |
| `Sweeps.OnboardingBoundary` | src/scheduler/tasks.ts:283-288 | a participant exactly at the timeout is dropped; one a moment younger is not |
| `Sweeps.OverdueElections` | src/scheduler/tasks.ts:316-323 | exactly the running elections older than the timeout |
| `Sweeps.FinalizeEach` | src/scheduler/tasks.ts:325-334 | finalising elections keeps windows and check-ins |
| `Sweeps.FinalizeEachSettles` | src/scheduler/tasks.ts:325-334 | finalising in turn closes every listed election that is in progress, past the timeout and settleable, and reopens none |
| `Sweeps.ElectionSweep` | src/scheduler/tasks.ts:312-335 | every overdue election whose challenge exists with someone eligible is closed, none is reopened, and nothing changes when no election is overdue |
| `Sweeps.OverdueIsPastTimeout` | src/scheduler/tasks.ts:317-322 | an overdue election passes the finaliser's own timeout check |
| `Settlement.Clamp0` | src/scheduler/tasks.ts:558 | negative progress counts as none |
| `Settlement.Progress` | src/scheduler/tasks.ts:560-567 | reaching the target gives at least 100; no target gives 0 |
| `Settlement.GoalAchievement` | src/scheduler/tasks.ts:549-569 | bulking scores at least 30; a goal met on every measure scores at least 100 |
| `Settlement.GoalAchievementMonotone` | src/scheduler/tasks.ts:559-568 | moving further toward the goal never lowers the score |
| `Settlement.Discipline` | src/scheduler/tasks.ts:392-393 | 100 with no windows, otherwise a percentage that is 100 exactly when no window was skipped |
| `Settlement.Winners` | src/scheduler/tasks.ts:425 | there are no more winners than standings |
| `Settlement.PayoutFor` | src/scheduler/tasks.ts:428-436 | everyone gets the stake back when all won or all lost; otherwise losers get nothing and winners at least the stake |
| `Settlement.Payouts` | src/scheduler/tasks.ts:432-436 | each participant's payout follows the rule for their outcome |
| `Settlement.PayoutConservation` | src/scheduler/tasks.ts:425-436 | the payouts add up to exactly the stakes collected |
| `Settlement.CutTargetMetExample` | src/scheduler/tasks.ts:409-412 | a cut participant who met both targets with full discipline wins |
| `Finale.EndedChallenges` | src/scheduler/tasks.ts:339-343 | exactly the active challenges whose end has come |
| `Finale.OpenWindowsOf` | src/scheduler/tasks.ts:346-350 | exactly the challenge's open windows |
| `Finale.Paid` | src/scheduler/tasks.ts:355-373 | exactly the participants with a confirmed payment |
| `Finale.LatestCheckin` | src/scheduler/tasks.ts:382-387 | the participant's most recent check-in, if any; on a tie in submission time the model's choice is one of the tied check-ins |
| `Finale.StandingOf` | src/scheduler/tasks.ts:380-423 | the standing carries the discipline, the goal score and the total; the participant wins exactly under the winner rule |
| `Finale.InsertRanked` | src/scheduler/tasks.ts:438 | inserting into a ranking keeps it ranked and keeps its elements |
| `Finale.InsertRankedStable` | src/scheduler/tasks.ts:438 | an inserted standing goes ahead of those with the same total, whose order is kept |
| `Finale.RankByScore` | src/scheduler/tasks.ts:438 | the ranking is ordered by total score and is a permutation of the standings |
| `Finale.RankByScoreStable` | src/scheduler/tasks.ts:438 | the ranking keeps the order of standings with equal totals (a stable sort) |
| `Finale.ResultMessages` | src/scheduler/tasks.ts:451-463 | one result per participant, with their outcome and payout |
| `Finale.PaidOutResults` | src/scheduler/tasks.ts:451-457 | the payouts announced are the payouts computed |
| `Finale.Announcements` | src/scheduler/tasks.ts:438-463 | the group gets the ranking and every paid participant their result |
| `Finale.AnnouncedPayoutsMatchStakes` | src/scheduler/tasks.ts:425-463 | the announced payouts add up to the stakes collected |
| `Finale.Settle` | src/scheduler/tasks.ts:375-470 | the challenge completes, its active participants complete, and the results are announced |
| `Finale.FinishOne` | src/scheduler/tasks.ts:345-471 | an ended challenge's open windows are closed and the challenge completes |
| `Finale.Conclude` | src/scheduler/tasks.ts:375-471 | without a paying participant only the challenge's status changes and nothing is sent; otherwise the results are announced and its active participants complete |
| `Finale.FinishOneEffects` | src/scheduler/tasks.ts:345-471 | after the windows close, no payer means no participant change and no message; otherwise exactly the result announcements are sent and the active participants complete |
| `Finale.FinishEach` | src/scheduler/tasks.ts:337-472 | exactly the listed challenges complete |
| `Finale.FinalizeEnded` | src/scheduler/tasks.ts:337-472 | every ended challenge completes; with unique challenge ids, every other challenge is unchanged |
| `Scheduler.RunSweep` | src/scheduler/scheduler.ts:27-33 | every sweep keeps the counters agreeing |
| `Scheduler.RunFrom` | src/scheduler/scheduler.ts:25-38 | the sweeps run in order up to the first failure |
| `Scheduler.Tick` | src/scheduler/scheduler.ts:25-38 | a tick runs the sweeps in the fixed order and stops at the first failing one |
| `Scheduler.RunFromStep` | src/scheduler/scheduler.ts:26-33 | running from step k is running sweep k and then the rest |
| `Scheduler.TickComposesSweeps` | src/scheduler/scheduler.ts:24-33 | a tick without failure is the composition of the seven sweeps |
| `Scheduler.FirstSweepFailureChangesNothing` | src/scheduler/scheduler.ts:26-37 | when the first sweep fails, the tick changes nothing |
| `Scheduler.CronExpression` | src/scheduler/scheduler.ts:40-42 | every minute when a period under an hour is set, hourly otherwise |
| `Habits.Weekday` | src/services/habits.ts:49 | a weekday is one of seven |
| `Habits.WeekStart` | src/services/habits.ts:47-53 | the Monday of the day's week |
| `Habits.SameWeekdayApart` | src/services/habits.ts:49-50 | days with the same weekday are a whole number of weeks apart |
| `Habits.MondayUnique` | src/services/habits.ts:47-53 | the week start is the only Monday within six days before the day |
| `Habits.WeekStartIdempotent` | src/services/habits.ts:47-53 | a Monday is its own week start |
| `Habits.WeekStartMonotone` | src/services/habits.ts:47-53 | later days never have earlier week starts |
| `Habits.InWeekIffWeekStart` | src/services/habits.ts:139-151 | a day lies between Monday and Sunday of this week exactly when it shares the week start |
| `Habits.AddDays` | src/services/habits.ts:55-59 | adding n days moves by exactly n |
| `Habits.CurrentWeek` | src/services/habits.ts:139-140 | the week runs from a Monday to a Sunday and contains today |
| `Habits.DayRangeSize` | src/services/habits.ts:61-67 | a range of days has as many days as its length, inclusive |
| `Habits.DaysBetween` | src/services/habits.ts:61-67 | the days counted are the days from start to end inclusive |
| `Habits.WeeksBetween` | src/services/habits.ts:69-77 | the number of weeks the range touches; zero exactly when the end's week is before the start's |
| `Habits.WeeksTouchedSize` | src/services/habits.ts:69-77 | a range touches one week more than its week starts are apart in weeks |
| `Habits.TodayStatus` | src/services/habits.ts:130-137 | the status of the last of today's logs for the habit, if any |
| `Habits.DoneDays` | src/services/habits.ts:167-178 | the done days of the habit within the range: each backed by a done log, and every done log in range contributes its day |
| `Habits.DoneDaysIsQuery` | src/services/habits.ts:167-178 | the done days are the days of exactly the habit's done logs in range, in log order and with repetitions |
| `Habits.WeekCountIsWeek` | src/services/habits.ts:139-156 | the week's count is the number of done logs in this week |
| `Habits.DailyTotalBounded` | src/services/habits.ts:220-222 | a daily habit is never done on more days than have passed |
| `Habits.PerWeek` | src/services/habits.ts:190-196 | each touched week maps to its number of done logs |
| `Habits.DoneWeeks` | src/services/habits.ts:212-214 | no more weeks done than weeks logged |
| `Habits.WeeklyTotalBounded` | src/services/habits.ts:206-217 | a weekly habit is never done in more weeks than have passed |
| `Habits.WeekDoneIff` | src/services/habits.ts:212-214 | a week counts as done exactly when it reaches the target |
| `Habits.MarkOf` | src/services/habits.ts:203-204 | no mark exactly when there is no log today |
| `Habits.HabitLine` | src/services/habits.ts:200-223 | each line shows today's mark, the week's count against the target, and as total the done days since the start (daily) or the weeks reaching the target (weekly), never more than the elapsed days or weeks |
| `Habits.ButtonName` | src/services/habits.ts:227 | names longer than 32 characters are cut to 29 and an ellipsis |
| `Habits.ButtonRow` | src/services/habits.ts:225-232 | each habit gets a done button and a skip button for today |
| `Habits.BuildMessage` | src/services/habits.ts:79-243 | not found without the participant, no habits without templates, else one line and one button row per habit |
| `Habits.ThreeWorkoutsWeek` | src/services/habits.test.ts:64-80 | three workouts in the current week meet a weekly target of three |
| `Duration.PluralFormOf` | src/bot/duration.ts:19-39 | Russian plural form chosen from the last two digits of the absolute value |
| `Duration.FormatChallengeDurationUnit` | src/bot/duration.ts:7-17 | the genitive plural of each unit |
| `Duration.FormatRussianDurationUnit` | src/bot/duration.ts:19-39 | the unit word agrees with the count and is the genitive plural exactly for that form |
| `Duration.FormatChallengeDuration` | src/bot/duration.ts:3-5 | the count, a space and the agreeing unit word |
| `Duration.FormattedDurationReadsBack` | src/bot/duration.ts:3-5 | the number in the text reads back as the count |
| `Duration.PluralFormIgnoresSign` | src/bot/duration.ts:20 | negative counts take the form of their absolute value |
| `Duration.PluralFormPeriodic` | src/bot/duration.ts:21-22 | the form repeats every hundred |
| `Duration.PluralFormExamples` | src/bot/duration.ts:35-38 | 1 month, 6 hours, 12 months, 22 days, 111 days, -21 hours take the expected forms |
| `Duration.SixHoursExample` | src/bot/duration.ts:3-5 | six hours reads "6 часов" |
| `StatusLabels.Fallback` | src/bot/statusLabels.ts:21 | an unknown value is shown with every underscore as a space and every other character kept |
| `StatusLabels.Label` | src/bot/statusLabels.ts:19-27 | a missing value shows a dash, a known one its label, and any other its fallback |
| `StatusLabels.ParticipantStatusLabel` | src/bot/statusLabels.ts:19-22 | a missing participant status shows a dash and an unknown one its fallback |
| `StatusLabels.ChallengeStatusLabel` | src/bot/statusLabels.ts:24-27 | a missing challenge status shows a dash and an unknown one its fallback |
| `StatusLabels.ParticipantLabelsFixed` | src/bot/statusLabels.ts:1-9 | every participant status has its own label |
| `StatusLabels.ChallengeLabelsFixed` | src/bot/statusLabels.ts:11-17 | every challenge status has its own label |
| `StatusLabels.LabelKeysAreStatuses` | src/bot/statusLabels.ts:1-17 | the labels are keyed by exactly the stored statuses |
| `StatusLabels.UnknownStatusSpaced` | src/bot/statusLabels.ts:21 | "on_hold" is shown as "on hold" |
| `TelegramMarkdown.ChainIsEscape` | src/bot/telegramMarkdown.ts:3-8 | the six replacements in sequence equal one character-by-character escape |
| `TelegramMarkdown.EscapeChainChar` | src/bot/telegramMarkdown.ts:3-8 | on one character the chain adds one backslash exactly for markup characters |
| `TelegramMarkdown.UnescapeEscape` | src/bot/telegramMarkdown.ts:1-9 | removing the added backslashes gives the original text |
| `TelegramMarkdown.EscapeLength` | src/bot/telegramMarkdown.ts:1-9 | one backslash is added per markup character |
| `TelegramMarkdown.PlainTextUnchanged` | src/bot/telegramMarkdown.ts:3-8 | text without markup characters is unchanged |
| `TelegramMarkdown.EscapeAppend` | src/bot/telegramMarkdown.ts:1-9 | escaping distributes over concatenation |
| `TelegramMarkdown.EscapeTelegramMarkdown` | src/bot/telegramMarkdown.ts:1-9 | the escaper reads back to its input and adds one character per markup character |
| `DbClient.SqliteFilename` | src/db/client.ts:30-41 | an empty URL gives the default file, both in-memory spellings give memory, a `file:` URL gives its path, anything else is used as is |
| `DbClient.FileUrlRoundTrip` | src/db/client.ts:35-38 | a file configured by its `file:` URL is that file |
| `DbClient.PlainNameKept` | src/db/client.ts:40 | a plain file name is kept |
| `DbClient.FilenameIdempotent` | src/db/client.ts:30-41 | resolving a resolved name gives it again |
| `Common.DedupOrder` | src/bot/conversations/onboardingConversation.ts:633 | de-duplication keeps the first occurrences in their order |

## Left out

- Telegram itself: message texts, keyboards and callback-data strings are abstract `Note`
  values in an outbox. The wording of Russian messages is not modelled, apart from the
  duration, window-length and status labels.
- `Finale.LatestCheckin`: on a tie in submission time the program's query may return any
  of the tied check-ins. The model picks the earliest stored, and its contract promises only
  that the result is a most recent one.
- Same-chat answers and button alerts. The store's `sent` log holds only messages sent with
  the API's send call. Replies in the chat an update came from are not logged: the
  challenge card with its join button after creation (so `ChallengeCreation.Create` logs
  nothing), the start-of-election announcement in the group, the "payment confirmed"
  answer to a bank holder who confirms their own payment, the "done" answer after
  confirming someone else's, and every question and error
  answer of the conversations. Neither are the alerts answering a button press, such as
  the refusals of `Participation.Join`.
- The conversation framework. Each conversation is a function of all the replies it will
  receive. The waiting state is "not enough replies yet".
- Photo downloads and file handling (`askPhoto`, `askStartPhoto`): a photo answer is an
  opaque file id, `None` while it is still awaited. A message without a usable photo is
  asked again, so it shows up only as a photo still missing.
- The language model's goal review: its verdict is an input, or unavailable.
  Recommendation texts and validation timestamps are not stored.
- Time zones and `getDateKey`: calendar days are day numbers, with day 0 a Thursday as in
  the Unix epoch.
- Month arithmetic (`addMonthsMs`): it is a parameter.
- Floating point: weights, waists, stakes and scores are reals, so rounding in the source
  is not modelled.
- Habits.ButtonName: lengths count characters, not UTF-16 code units as JavaScript does.
- Label lookups on JavaScript object prototypes (a status named like an `Object`
  property) are not modelled.
- Habit logs: they are an input. The habit_logs table, its writes and its uniqueness are
  a hypothesis (`UniqueLogs`) rather than part of the store.
- A challenge started at time 0: the source treats `startedAt` 0 as "not started" for the
  habits totals. The model treats any present start as started.
- Track choice from free text, the round-1 recommendations and the goal feedback text.
- sendHabitReminders (src/scheduler/tasks.ts:224-266): its table and message are not
  modelled, so the tick treats that sweep as leaving the store unchanged.
- Deleting and replacing earlier group notifications (the checkinGroupNotifications
  table).
- `/start`, `/status`, `/help` and the database-clearing command: they only read or reset
  and are outside the lifecycle.
- Users' display names, used only in texts.
- The rest of the database client: connection, migrations, pragmas.
- Exceptions inside a sweep: modelled only as a fault index in `Scheduler.Tick`, and the
  failing sweep's partial writes are not kept.
- Concurrency: two handlers never interleave. Each handler's reads and writes happen
  atomically. This includes the check-in conversation's existence check and insert.
  In the program they do not: the window-open guard (checkinConversation.ts:52) and the
  insert with its counter update (checkinConversation.ts:86-114) are separated by the
  weight, waist and four photo questions. If the close sweep closes the window in between
  (tasks.ts:496-527), the participant is charged a skip for the window, and the check-in is
  still recorded afterwards and credited as a completion. The same window then counts once
  as skipped and once as completed, and `totalCheckins` grows by two. The model does not
  show this, and `Participation.RecordedNotCharged` holds only under the atomic reading.
  Whether the program means to allow it is an open question.
- Election.Finalize: it does not call the activation check after confirming the winner's
  own payment. The source does not either, so a challenge whose last payment is confirmed
  that way waits for another confirmation to activate.
- Onboarding.Finish: it does not recheck the participant's status before completing. The
  source does not either.
- Settlement.Winners: it states only the bound. The count itself is the filter of the
  source.
- Sweeps.ElectionSweep, Sweeps.Reminders and Finale.FinalizeEnded: the promise about each row is stated for
  tables whose ids are distinct, as their primary keys make them; the model's store does
  not itself enforce primary keys.
- Onboarding.Integers: the reply is taken as already split on spaces and commas, with
  JavaScript's `Number` applied to each token; that reading is an input (`None` when the
  result is not an integer). `Number` reads an empty token, as left by a trailing comma,
  as 0, and reads "2.0" or "1e1" as integers; the model takes those readings as given and
  does not itself parse text.

## Findings

| source | as written | input that shows it | evidently intended | confidence | as-written member | corrected member |
|---|---|---|---|---|---|---|
| src/bot/createBot.ts:361-377 | a dropped participant who rejoins has the row reset but keeps the old `joinedAt` | a participant dropped by the onboarding-timeout sweep (src/scheduler/tasks.ts:283-292) presses join again | the join time is reset on rejoin, so the rejoined participant gets the full onboarding timeout | not executed | `Participation.RejoinedDroppedAgain` | `Participation.RejoinedKeepsFullTimeout` |

With the old join time, the next sweep finds the rejoined participant stale at once and drops
them again. `Participation.JoinAsWritten` models the join as written.
`Participation.Join` is the corrected join, which resets the join time; no other module
calls either join.

=== FILE: close_window.dfy ===
/** Closing one check-in window: the window becomes `closed`, and every active participant of
    the challenge without a check-in for it is charged a skip, which disqualifies them once
    their skips exceed the challenge's allowance. */
module WindowClosing {
  import opened Common
  import opened Schema

  /** The update of a participant who missed a window. */
  function Skip(p: Participant, maxSkips: int): (q: Participant)
    ensures q.skippedCheckins == p.skippedCheckins + 1
    ensures q.totalCheckins == p.totalCheckins + 1
    ensures q.completedCheckins == p.completedCheckins
    ensures q.pendingCheckinWindowId.None? && q.pendingCheckinRequestedAt.None?
    ensures q.status == Disqualified <==> q.skippedCheckins > maxSkips
    ensures q.status == ParticipantStatus.Active <==> q.skippedCheckins <= maxSkips
    ensures q == p.(skippedCheckins := q.skippedCheckins, totalCheckins := q.totalCheckins,
                    pendingCheckinWindowId := None, pendingCheckinRequestedAt := None, status := q.status)
  {
    var nextSkipped := p.skippedCheckins + 1;
    var nextTotal := p.totalCheckins + 1;
    p.(skippedCheckins := nextSkipped, totalCheckins := nextTotal,
       pendingCheckinWindowId := None, pendingCheckinRequestedAt := None,
       status := if nextSkipped > maxSkips then Disqualified else ParticipantStatus.Active)
  }

  /** With no skips allowed, the first missed window disqualifies. */
  lemma FirstSkipDisqualifiesWithoutAllowance(p: Participant)
    requires p.skippedCheckins == 0
    ensures Skip(p, 0).status == Disqualified
  {
  }

  /** A participant charged for missing window `w`: active in its challenge and without a
      check-in for it. */
  predicate Misses(db: Db, p: Participant, w: Window) {
    p.challengeId == w.challengeId && p.status == ParticipantStatus.Active && !HasCheckin(db, p.id, w.id)
  }

  /** When the window is recorded as closed: its planned close, or the forced closing time if
      that is earlier. */
  function ClosedAt(w: Window, override: Option<Ms>): (t: Ms)
    ensures t <= w.closesAt
    ensures override.Some? ==> t <= override.value && (t == w.closesAt || t == override.value)
    ensures override.None? ==> t == w.closesAt
  {
    match override
    case Some(o) => Min(w.closesAt, o)
    case None => w.closesAt
  }

  /** Rows of `b` are rows of `a` with at most the status and closing time changed. */
  predicate SameSlots(a: seq<Window>, b: seq<Window>) {
    && |a| == |b|
    && (forall i :: 0 <= i < |a| ==>
          && b[i].id == a[i].id && b[i].challengeId == a[i].challengeId
          && b[i].windowNumber == a[i].windowNumber && b[i].opensAt == a[i].opensAt
          && b[i].reminderSentAt == a[i].reminderSentAt)
  }

  /** No row goes back to `scheduled`. */
  predicate NoneRescheduled(a: seq<Window>, b: seq<Window>)
    requires |a| == |b|
  {
    forall i :: 0 <= i < |a| ==> a[i].status != Scheduled ==> b[i].status != Scheduled
  }

  /** Closes window `w` (as read before the call), charging the skips; with `notify` the
      group gets the roster. */
  function CloseWindow(db: Db, w: Window, notify: bool, override: Option<Ms>): (r: Db)
    ensures r.challenges == db.challenges && r.checkins == db.checkins && r.payments == db.payments
    ensures r.elections == db.elections && r.votes == db.votes && r.goals == db.goals
    ensures r.commitments == db.commitments && r.nextId == db.nextId
    ensures SameSlots(db.windows, r.windows)
    ensures forall i :: 0 <= i < |db.windows| ==>
      r.windows[i] == (if db.windows[i].id == w.id
        then db.windows[i].(status := Closed, closesAt := ClosedAt(w, override)) else db.windows[i])
    ensures |r.participants| == |db.participants|
    ensures FindChallenge(db, w.challengeId).None? ==> r.participants == db.participants && r.sent == db.sent
    ensures FindChallenge(db, w.challengeId).Some? ==> forall i :: 0 <= i < |db.participants| ==>
      r.participants[i] == (if Misses(db, db.participants[i], w)
        then Skip(db.participants[i], FindChallenge(db, w.challengeId).value.maxSkips) else db.participants[i])
    ensures !notify ==> r.sent == db.sent
    ensures CountersAgree(db.participants) ==> CountersAgree(r.participants)
  {
    var closedAt := ClosedAt(w, override);
    var db1 := SetWindow(db, w.id, (x: Window) => x.(status := Closed, closesAt := closedAt));
    match FindChallenge(db1, w.challengeId)
    case None => db1
    case Some(c) =>
      var db2 := MapParticipants(db1, (p: Participant) => if Misses(db1, p, w) then Skip(p, c.maxSkips) else p);
      if notify then Send(db2, [Msg(c.chatId, WindowClosedRoster(w.id))]) else db2
  }

  /** Closing never reopens or reschedules a window and closes every row of `w`. */
  lemma CloseWindowStatuses(db: Db, w: Window, notify: bool, override: Option<Ms>)
    ensures var r := CloseWindow(db, w, notify, override);
      && NoneRescheduled(db.windows, r.windows)
      && (forall i :: 0 <= i < |db.windows| ==> db.windows[i].status == Closed ==> r.windows[i].status == Closed)
      && (forall i :: 0 <= i < |db.windows| ==> db.windows[i].id == w.id ==> r.windows[i].status == Closed)
  {
  }

  /** The test scenario: an active participant with no check-in, no skips allowed. Closing
      the window charges one skip and one window and disqualifies. */
  lemma ZeroAllowanceScenario(c: Challenge, p: Participant, w: Window)
    requires c.maxSkips == 0 && c.id == w.challengeId
    requires p.challengeId == w.challengeId && p.status == ParticipantStatus.Active
    requires p.skippedCheckins == 0 && p.totalCheckins == 0
    ensures var db := Db([c], [p], [w], [], map[], map[], [], [], [], [], 100);
      var r := CloseWindow(db, w, true, None);
      && r.windows[0].status == Closed
      && r.participants[0].totalCheckins == 1 && r.participants[0].skippedCheckins == 1
      && r.participants[0].status == Disqualified
  {
    var db := Db([c], [p], [w], [], map[], map[], [], [], [], [], 100);
    assert FindChallenge(db, w.challengeId) == Some(c);
    assert !HasCheckin(db, p.id, w.id);
  }
}

=== FILE: common.dfy ===
/** Small generic helpers shared by every module of the model: nullable values,
    JavaScript truthiness, and the sequence operations the store's queries are
    built from (first match, filter, count, stable sort, de-duplication). */
module Common {

  /** A nullable column or an absent row. */
  datatype Option<+T> = None | Some(value: T) {
    function GetOr(default: T): T {
      match this
      case Some(v) => v
      case None => default
    }
  }

  /** The outcome of a handler: the next value, or the reason it refused (and changed nothing). */
  datatype Result<+T, +E> = Ok(value: T) | Err(error: E)

  /** JavaScript truthiness of a nullable integer column: `null` and `0` are both falsy. */
  predicate Truthy(o: Option<int>) {
    o.Some? && o.value != 0
  }

  function Min(a: int, b: int): int {
    if a <= b then a else b
  }

  function Max(a: int, b: int): int {
    if a <= b then b else a
  }

  /** The first element satisfying `p`, as a `.get()` query or `Array.find` returns it. */
  function Find<T>(s: seq<T>, p: T -> bool): (r: Option<T>)
    ensures r.Some? ==> r.value in s && p(r.value)
    ensures r.None? <==> forall i :: 0 <= i < |s| ==> !p(s[i])
    ensures r.Some? ==> exists i :: 0 <= i < |s| && s[i] == r.value && forall j :: 0 <= j < i ==> !p(s[j])
  {
    if |s| == 0 then None
    else if p(s[0]) then Some(s[0])
    else
      var r := Find(s[1..], p);
      assert r.Some? ==> exists i :: 1 <= i < |s| && s[i] == r.value && forall j :: 1 <= j < i ==> !p(s[j]);
      r
  }

  /** Rows updated without changing whether they match: the first match is found at the same
      position before and after. */
  lemma {:induction false} FindSameIndex<T>(s: seq<T>, t: seq<T>, p: T -> bool)
    requires |s| == |t| && forall i :: 0 <= i < |s| ==> p(s[i]) == p(t[i])
    ensures Find(s, p).Some? <==> Find(t, p).Some?
    ensures Find(s, p).Some? ==> exists i :: 0 <= i < |s| && Find(s, p).value == s[i] && Find(t, p).value == t[i]
  {
    if |s| > 0 && !p(s[0]) {
      FindSameIndex(s[1..], t[1..], p);
      if Find(s, p).Some? {
        var i :| 0 <= i < |s[1..]| && Find(s[1..], p).value == s[1..][i] && Find(t[1..], p).value == t[1..][i];
        assert Find(s, p).value == s[i + 1] && Find(t, p).value == t[i + 1];
      }
    }
  }

  /** The elements satisfying `p`, in order (an `.all()` query with a `where`). */
  function Filter<T(!new)>(s: seq<T>, p: T -> bool): (r: seq<T>)
    ensures |r| <= |s|
    ensures forall x :: x in r <==> x in s && p(x)
  {
    if |s| == 0 then []
    else (if p(s[0]) then [s[0]] else []) + Filter(s[1..], p)
  }

  /** How many elements satisfy `p`. */
  function Count<T>(s: seq<T>, p: T -> bool): (n: nat)
    ensures n <= |s|
    ensures n == 0 <==> forall i :: 0 <= i < |s| ==> !p(s[i])
  {
    if |s| == 0 then 0
    else (if p(s[0]) then 1 else 0) + Count(s[1..], p)
  }

  lemma {:induction false} CountIsFilterLength<T(!new)>(s: seq<T>, p: T -> bool)
    ensures Count(s, p) == |Filter(s, p)|
  {
    if |s| > 0 {
      CountIsFilterLength(s[1..], p);
    }
  }

  lemma {:induction false} FilterAppend<T(!new)>(a: seq<T>, b: seq<T>, p: T -> bool)
    ensures Filter(a + b, p) == Filter(a, p) + Filter(b, p)
  {
    if |a| > 0 {
      assert (a + b)[1..] == a[1..] + b;
      FilterAppend(a[1..], b, p);
    } else {
      assert a + b == b;
    }
  }

  /** Filtering keeps everything when every element passes, and nothing when none does. */
  lemma {:induction false} FilterAllOrNone<T(!new)>(s: seq<T>, p: T -> bool)
    ensures (forall i :: 0 <= i < |s| ==> p(s[i])) ==> Filter(s, p) == s
    ensures (forall i :: 0 <= i < |s| ==> !p(s[i])) ==> Filter(s, p) == []
  {
    if |s| > 0 {
      FilterAllOrNone(s[1..], p);
      assert (forall i :: 0 <= i < |s| ==> p(s[i])) ==> forall i :: 0 <= i < |s[1..]| ==> p(s[1..][i]);
      assert (forall i :: 0 <= i < |s| ==> !p(s[i])) ==> forall i :: 0 <= i < |s[1..]| ==> !p(s[1..][i]);
      assert s == [s[0]] + s[1..];
    }
  }

  /** No two elements share a key: a unique index of a table. */
  predicate UniqueBy<T, K(==)>(s: seq<T>, key: T -> K) {
    forall i, j :: 0 <= i < j < |s| ==> key(s[i]) != key(s[j])
  }

  /** A filtered table keeps its unique index. */
  lemma {:induction false} FilterUniqueBy<T(!new), K>(s: seq<T>, p: T -> bool, key: T -> K)
    requires UniqueBy(s, key)
    ensures UniqueBy(Filter(s, p), key)
  {
    if |s| > 0 {
      assert UniqueBy(s[1..], key) by {
        forall i, j | 0 <= i < j < |s[1..]| ensures key(s[1..][i]) != key(s[1..][j]) {
          assert s[1..][i] == s[i + 1] && s[1..][j] == s[j + 1];
        }
      }
      FilterUniqueBy(s[1..], p, key);
      var t := Filter(s[1..], p);
      if p(s[0]) {
        forall j | 0 <= j < |t| ensures key(s[0]) != key(t[j]) {
          assert t[j] in s[1..];
          var m :| 0 <= m < |s[1..]| && s[1..][m] == t[j];
          assert s[m + 1] == t[j];
        }
        assert Filter(s, p) == [s[0]] + t;
      } else {
        assert Filter(s, p) == t;
      }
    }
  }

  /** Under a unique key a row is identified by its key. */
  lemma UniqueByRow<T, K>(s: seq<T>, key: T -> K, i: int, j: int)
    requires UniqueBy(s, key) && 0 <= i < |s| && 0 <= j < |s|
    ensures key(s[i]) == key(s[j]) ==> i == j
  {
  }

  /** Two uniquely keyed tables with disjoint keys concatenate into a uniquely keyed one. */
  lemma UniqueByAppend<T, K>(a: seq<T>, b: seq<T>, key: T -> K)
    requires UniqueBy(a, key) && UniqueBy(b, key)
    requires forall i, j :: 0 <= i < |a| && 0 <= j < |b| ==> key(a[i]) != key(b[j])
    ensures UniqueBy(a + b, key)
  {
    forall i, j | 0 <= i < j < |a + b| ensures key((a + b)[i]) != key((a + b)[j]) {
      if j < |a| {
      } else if i < |a| {
        assert (a + b)[j] == b[j - |a|];
      } else {
        assert (a + b)[i] == b[i - |a|] && (a + b)[j] == b[j - |a|];
      }
    }
  }

  /** `s` is in ascending order of `key`. */
  predicate SortedBy<T>(s: seq<T>, key: T -> int) {
    forall i, j :: 0 <= i < j < |s| ==> key(s[i]) <= key(s[j])
  }

  /** Inserts `x` before the first element whose key is not smaller. */
  function InsertBy<T>(x: T, s: seq<T>, key: T -> int): (r: seq<T>)
    requires SortedBy(s, key)
    ensures SortedBy(r, key)
    ensures multiset(r) == multiset(s) + multiset{x}
    ensures |r| == |s| + 1
    ensures |s| > 0 ==> key(r[0]) == Min(key(x), key(s[0]))
  {
    if |s| == 0 then [x]
    else if key(x) <= key(s[0]) then [x] + s
    else
      var t := InsertBy(x, s[1..], key);
      assert s == [s[0]] + s[1..];
      [s[0]] + t
  }

  /** Stable insertion sort on an integer key: the `orderBy` of a query. */
  function SortBy<T>(s: seq<T>, key: T -> int): (r: seq<T>)
    ensures SortedBy(r, key)
    ensures multiset(r) == multiset(s)
    ensures |r| == |s|
  {
    if |s| == 0 then []
    else
      var t := SortBy(s[1..], key);
      assert s == [s[0]] + s[1..];
      InsertBy(s[0], t, key)
  }

  /** Sorting keeps exactly the same elements, and the first element has the least key. */
  lemma SortByElements<T(!new)>(s: seq<T>, key: T -> int)
    ensures forall x :: x in SortBy(s, key) <==> x in s
    ensures |s| > 0 ==> forall x :: x in s ==> key(SortBy(s, key)[0]) <= key(x)
  {
    var r := SortBy(s, key);
    forall x ensures x in r <==> x in s {
      assert x in r <==> x in multiset(r);
      assert x in s <==> x in multiset(s);
    }
    if |s| > 0 {
      forall x | x in s ensures key(r[0]) <= key(x) {
        assert x in r;
        var j :| 0 <= j < |r| && r[j] == x;
        if j > 0 {
          assert key(r[0]) <= key(r[j]);
        }
      }
    }
  }

  /** Sequence elements are pairwise distinct. */
  predicate Distinct<T(==)>(s: seq<T>) {
    forall i, j :: 0 <= i < j < |s| ==> s[i] != s[j]
  }

  /** Keeps the first occurrence of every value, in order: `Array.from(new Set(xs))`. */
  function Dedup<T(==,!new)>(s: seq<T>): (r: seq<T>)
    ensures Distinct(r)
    ensures forall x :: x in r <==> x in s
    ensures |r| <= |s|
  {
    var r := DedupAfter(s, []);
    assert [] + r == r;
    r
  }

  /** Dedup of `s` given that the values in `seen` were already emitted. */
  function DedupAfter<T(==,!new)>(s: seq<T>, seen: seq<T>): (r: seq<T>)
    requires Distinct(seen)
    ensures Distinct(seen + r)
    ensures forall x :: x in r <==> x in s && x !in seen
    ensures |r| <= |s|
  {
    if |s| == 0 then []
    else if s[0] in seen then DedupAfter(s[1..], seen)
    else
      var rest := DedupAfter(s[1..], seen + [s[0]]);
      assert seen + ([s[0]] + rest) == (seen + [s[0]]) + rest;
      [s[0]] + rest
  }

  /** Where `x` first occurs in `s`. */
  function FirstIndex<T(==)>(s: seq<T>, x: T): (i: nat)
    requires x in s
    ensures i < |s| && s[i] == x
    ensures forall j :: 0 <= j < i ==> s[j] != x
  {
    if s[0] == x then 0 else 1 + FirstIndex(s[1..], x)
  }

  /** De-duplication keeps values in the order of their first occurrence. */
  lemma {:induction false} DedupAfterOrder<T(!new)>(s: seq<T>, seen: seq<T>)
    requires Distinct(seen)
    ensures forall k, l :: 0 <= k < l < |DedupAfter(s, seen)| ==>
      FirstIndex(s, DedupAfter(s, seen)[k]) < FirstIndex(s, DedupAfter(s, seen)[l])
    decreases |s|, 1
  {
    if |s| > 0 {
      if s[0] in seen {
        DedupAfterOrderSkip(s, seen);
      } else {
        DedupAfterOrderKeep(s, seen);
      }
    }
  }

  /** `DedupAfterOrder` when the first value was seen before. */
  lemma {:induction false} DedupAfterOrderSkip<T(!new)>(s: seq<T>, seen: seq<T>)
    requires Distinct(seen) && |s| > 0 && s[0] in seen
    ensures forall k, l :: 0 <= k < l < |DedupAfter(s, seen)| ==>
      FirstIndex(s, DedupAfter(s, seen)[k]) < FirstIndex(s, DedupAfter(s, seen)[l])
    decreases |s|, 0
  {
    var r := DedupAfter(s, seen);
    DedupAfterOrder(s[1..], seen);
    assert r == DedupAfter(s[1..], seen);
    forall k, l | 0 <= k < l < |r| ensures FirstIndex(s, r[k]) < FirstIndex(s, r[l]) {
      assert r[k] in r && r[l] in r;
      FirstIndexTail(s, r[k]);
      FirstIndexTail(s, r[l]);
    }
  }

  /** `DedupAfterOrder` when the first value is new. */
  lemma {:induction false} DedupAfterOrderKeep<T(!new)>(s: seq<T>, seen: seq<T>)
    requires Distinct(seen) && |s| > 0 && s[0] !in seen
    ensures forall k, l :: 0 <= k < l < |DedupAfter(s, seen)| ==>
      FirstIndex(s, DedupAfter(s, seen)[k]) < FirstIndex(s, DedupAfter(s, seen)[l])
    decreases |s|, 0
  {
    var r := DedupAfter(s, seen);
    var rest := DedupAfter(s[1..], seen + [s[0]]);
    DedupAfterOrder(s[1..], seen + [s[0]]);
    assert r == [s[0]] + rest;
    forall k, l | 0 <= k < l < |r| ensures FirstIndex(s, r[k]) < FirstIndex(s, r[l]) {
      assert r[l] == rest[l - 1] && r[l] in rest;
      FirstIndexTail(s, r[l]);
      if k > 0 {
        assert r[k] == rest[k - 1] && r[k] in rest;
        FirstIndexTail(s, r[k]);
        assert FirstIndex(s[1..], rest[k - 1]) < FirstIndex(s[1..], rest[l - 1]);
      } else {
        assert r[k] == s[0];
        assert FirstIndex(s, s[0]) == 0;
      }
    }
  }

  lemma FirstIndexTail<T>(s: seq<T>, x: T)
    requires x in s && x != s[0]
    ensures x in s[1..] && FirstIndex(s, x) == 1 + FirstIndex(s[1..], x)
  {
  }

  /** `Dedup` lists the distinct values in the order of their first occurrence. */
  lemma DedupOrder<T(!new)>(s: seq<T>)
    ensures forall k, l :: 0 <= k < l < |Dedup(s)| ==> FirstIndex(s, Dedup(s)[k]) < FirstIndex(s, Dedup(s)[l])
  {
    DedupAfterOrder(s, []);
    assert Dedup(s) == DedupAfter(s, []);
  }

  /** A sequence without repeats is its own de-duplication. */
  lemma {:induction false} DedupOfDistinct<T(!new)>(s: seq<T>, seen: seq<T>)
    requires Distinct(seen) && Distinct(s)
    requires forall x :: x in s ==> x !in seen
    ensures DedupAfter(s, seen) == s
  {
    if |s| > 0 {
      assert s[0] !in seen;
      forall x | x in s[1..] ensures x !in seen + [s[0]] {
        assert x in s;
      }
      DedupOfDistinct(s[1..], seen + [s[0]]);
    }
  }

  /** The decimal digit character for `d`. */
  function DigitChar(d: nat): (c: char)
    requires d < 10
    ensures '0' <= c <= '9'
    ensures (c as int) - ('0' as int) == d
  {
    (('0' as int) + d) as char
  }

  predicate IsDigit(c: char) {
    '0' <= c <= '9'
  }

  /** Decimal rendering of a natural number, without leading zeros. */
  function NatToString(n: nat): (s: string)
    ensures |s| >= 1
    ensures forall i :: 0 <= i < |s| ==> IsDigit(s[i])
    ensures |s| > 1 ==> s[0] != '0'
    decreases n
  {
    if n < 10 then [DigitChar(n)] else NatToString(n / 10) + [DigitChar(n % 10)]
  }

  /** Decimal rendering of an integer as JavaScript's template literals print it: a leading `-`
      for negative values. */
  function IntToString(v: int): (s: string)
    ensures |s| >= 1
    ensures v < 0 <==> s[0] == '-'
    ensures forall i :: 0 < i < |s| ==> IsDigit(s[i])
  {
    if v < 0 then "-" + NatToString(-v) else NatToString(v)
  }

  /** Reads back a string of decimal digits. */
  function ParseDigits(s: string): nat
    requires forall i :: 0 <= i < |s| ==> IsDigit(s[i])
  {
    if |s| == 0 then 0
    else
      assert IsDigit(s[|s| - 1]);
      ParseDigits(s[..|s| - 1]) * 10 + ((s[|s| - 1] as int) - ('0' as int))
  }

  /** Reads back an optionally negative decimal integer. */
  function ParseInt(s: string): int
    requires |s| >= 1
    requires forall i :: 0 < i < |s| ==> IsDigit(s[i])
    requires s[0] != '-' ==> IsDigit(s[0])
  {
    if s[0] == '-' then 0 - ParseDigits(s[1..]) else ParseDigits(s)
  }

  lemma {:induction false} ParseNatToString(n: nat)
    ensures ParseDigits(NatToString(n)) == n
  {
    if n >= 10 {
      var s := NatToString(n);
      assert s[..|s| - 1] == NatToString(n / 10);
      ParseNatToString(n / 10);
    }
  }

  /** The decimal rendering of an integer reads back to the same integer. */
  lemma IntToStringRoundTrip(v: int)
    ensures ParseInt(IntToString(v)) == v
  {
    if v < 0 {
      assert IntToString(v)[1..] == NatToString(-v);
      ParseNatToString(-v);
    } else {
      ParseNatToString(v);
    }
  }
}

=== FILE: create_challenge.dfy ===
/** Creating a challenge in a group: the `/create` command, which shows the chat's live
    challenge instead when there is one, and the conversation that asks the creator for the
    duration, stake, discipline threshold and skip allowance and stores a draft. */
module ChallengeCreation {
  import opened Common
  import opened Schema

  datatype CommandRefusal = NotGroupChat | LiveChallengeExists(current: Id)

  /** Why `/create` does not enter the conversation, if it does not. */
  function CommandRefusalOf(db: Db, chatId: ChatId, isGroup: bool): Option<CommandRefusal> {
    if !isGroup then Some(NotGroupChat)
    else match LiveChallengeOf(db, chatId)
      case Some(c) => Some(LiveChallengeExists(c.id))
      case None => None
  }

  /** The buttons offered for each parameter. */
  datatype DurationButton = Six | Twelve
  datatype ThresholdButton = Seventy | Eighty | Ninety
  datatype SkipsButton = One | Two | Three

  function DurationOf(b: DurationButton): (d: int)
    ensures d == 6 || d == 12
  {
    match b
    case Six => 6
    case Twelve => 12
  }

  /** The threshold button's percentage as a fraction. */
  function ThresholdOf(b: ThresholdButton): (t: real)
    ensures t == 0.7 || t == 0.8 || t == 0.9
  {
    match b
    case Seventy => 70.0 / 100.0
    case Eighty => 80.0 / 100.0
    case Ninety => 90.0 / 100.0
  }

  function MaxSkipsOf(b: SkipsButton): (k: int)
    ensures 1 <= k <= 3
  {
    match b
    case One => 1
    case Two => 2
    case Three => 3
  }

  /** `readPositiveFloat`: the first reply that reads as a positive number; a reply is `None`
      when `Number` does not read it as a finite number. */
  function ReadStake(replies: seq<Option<real>>): (r: Option<real>)
    ensures r.Some? ==> r.value > 0.0 && Some(r.value) in replies
    ensures r.None? <==> forall i :: 0 <= i < |replies| ==> !(replies[i].Some? && replies[i].value > 0.0)
    ensures r.Some? ==> exists i :: FirstPositiveAt(replies, i) && replies[i] == r
  {
    if |replies| == 0 then None
    else if replies[0].Some? && replies[0].value > 0.0 then replies[0]
    else
      var r := ReadStake(replies[1..]);
      FirstPositiveShifts(replies, r);
      r
  }

  /** Whether `replies[i]` is the first reply that reads as a positive number. */
  predicate FirstPositiveAt(replies: seq<Option<real>>, i: int) {
    && 0 <= i < |replies| && replies[i].Some? && replies[i].value > 0.0
    && forall j :: 0 <= j < i ==> !(replies[j].Some? && replies[j].value > 0.0)
  }

  /** A first positive reply in the tail, behind a head that is not positive, is the first
      one of the whole list. */
  lemma FirstPositiveShifts(replies: seq<Option<real>>, r: Option<real>)
    requires |replies| > 0 && !(replies[0].Some? && replies[0].value > 0.0)
    requires r.Some? ==> exists i :: FirstPositiveAt(replies[1..], i) && replies[1..][i] == r
    ensures r.Some? ==> exists i :: FirstPositiveAt(replies, i) && replies[i] == r
  {
    if r.Some? {
      var i :| FirstPositiveAt(replies[1..], i) && replies[1..][i] == r;
      assert FirstPositiveAt(replies, i + 1) by {
        forall j | 0 <= j < i + 1 ensures !(replies[j].Some? && replies[j].value > 0.0) {
          if j > 0 { assert replies[j] == replies[1..][j - 1]; }
        }
      }
    }
  }

  /** The creator's answers; the buttons are `None` while unpressed. */
  datatype Choices = Choices(
    duration: Option<DurationButton>,
    stakeReplies: seq<Option<real>>,
    threshold: Option<ThresholdButton>,
    skips: Option<SkipsButton>)

  /** The parameters of a challenge every answer set produces. */
  predicate InDomain(c: Challenge) {
    && (c.durationMonths == 6 || c.durationMonths == 12)
    && c.stakeAmount > 0.0
    && (c.disciplineThreshold == 0.7 || c.disciplineThreshold == 0.8 || c.disciplineThreshold == 0.9)
    && 1 <= c.maxSkips <= 3
  }

  /** A draft as inserted: no bank holder, not started, no end. */
  predicate FreshDraft(c: Challenge) {
    c.status == ChallengeStatus.Draft && c.bankHolderId.None? && c.startedAt.None? && c.endsAt.None?
  }

  /** The challenge the answers describe, once all of them are given. */
  function NewChallenge(id: Id, chatId: ChatId, creator: UserId, choices: Choices, now: Ms): (r: Option<Challenge>)
    ensures r.Some? ==> InDomain(r.value) && FreshDraft(r.value)
    ensures r.Some? ==> r.value.id == id && r.value.chatId == chatId && r.value.creatorId == creator && r.value.createdAt == now
    ensures r.Some? <==> choices.duration.Some? && ReadStake(choices.stakeReplies).Some? && choices.threshold.Some? && choices.skips.Some?
  {
    match (choices.duration, ReadStake(choices.stakeReplies), choices.threshold, choices.skips)
    case (Some(d), Some(stake), Some(t), Some(k)) =>
      Some(Challenge(id, chatId, creator, DurationOf(d), stake, ThresholdOf(t), MaxSkipsOf(k), None, ChallengeStatus.Draft, now, None, None))
    case _ => None
  }

  datatype Outcome = Refused(why: CommandRefusal) | Waiting | Created(db: Db)

  /** The conversation, entered only from a group; it does not look at the chat's other
      challenges again. */
  function Converse(db: Db, chatId: ChatId, creator: UserId, choices: Choices, now: Ms): (r: Option<Db>)
    ensures r.Some? ==> exists c :: (&& NewChallenge(db.nextId, chatId, creator, choices, now) == Some(c)
      && r.value == db.(challenges := db.challenges + [c], nextId := db.nextId + 1))
    ensures r.None? <==> NewChallenge(db.nextId, chatId, creator, choices, now).None?
    ensures r.Some? && Valid(db) ==> Valid(r.value)
  {
    match NewChallenge(db.nextId, chatId, creator, choices, now)
    case None => None
    case Some(c) =>
      var r := db.(challenges := db.challenges + [c], nextId := db.nextId + 1);
      AppendChallengeValid(db, c);
      Some(r)
  }

  /** A challenge with the fresh id keeps every declared constraint. */
  lemma AppendChallengeValid(db: Db, c: Challenge)
    requires c.id == db.nextId
    ensures Valid(db) ==> Valid(db.(challenges := db.challenges + [c], nextId := db.nextId + 1))
  {
    if Valid(db) {
      var cs := db.challenges + [c];
      assert UniqueBy(cs, (x: Challenge) => x.id) by {
        forall i, j | 0 <= i < j < |cs| ensures cs[i].id != cs[j].id {
          if j == |db.challenges| {
            assert cs[i] == db.challenges[i];
          } else {
            assert cs[i] == db.challenges[i] && cs[j] == db.challenges[j];
          }
        }
      }
    }
  }

  /** `/create` from `creator` in chat `chatId` with the answers the conversation receives. */
  function Create(db: Db, chatId: ChatId, isGroup: bool, creator: UserId, choices: Choices, now: Ms): (r: Outcome)
    ensures r.Refused? <==> CommandRefusalOf(db, chatId, isGroup).Some?
    ensures r.Refused? ==> r.why == CommandRefusalOf(db, chatId, isGroup).value
    ensures r.Created? ==> LiveChallengeOf(db, chatId).None? && |r.db.challenges| == |db.challenges| + 1
    ensures r.Created? ==>
      var c := r.db.challenges[|db.challenges|];
      && InDomain(c) && FreshDraft(c) && c.id == db.nextId && c.chatId == chatId && c.creatorId == creator
      && LiveChallengeOf(r.db, chatId) == Some(c)
    ensures r.Created? ==> r.db == db.(challenges := r.db.challenges, nextId := db.nextId + 1)
    ensures r.Created? && Valid(db) ==> Valid(r.db)
  {
    match CommandRefusalOf(db, chatId, isGroup)
    case Some(why) => Refused(why)
    case None =>
      match Converse(db, chatId, creator, choices, now)
      case None => Waiting
      case Some(db1) =>
        var c := db1.challenges[|db.challenges|];
        NewDraftIsLive(db.challenges, c, chatId);
        Created(db1)
  }

  /** In a chat without a live challenge the new draft becomes the chat's live challenge. */
  lemma {:induction false} NewDraftIsLive(cs: seq<Challenge>, c: Challenge, chatId: ChatId)
    requires forall i :: 0 <= i < |cs| ==> !(cs[i].chatId == chatId && LiveChallenge(cs[i].status))
    requires c.chatId == chatId && c.status == ChallengeStatus.Draft
    ensures Find(cs + [c], (x: Challenge) => x.chatId == chatId && LiveChallenge(x.status)) == Some(c)
  {
    if |cs| > 0 {
      assert (cs + [c])[1..] == cs[1..] + [c];
      NewDraftIsLive(cs[1..], c, chatId);
    } else {
      assert cs + [c] == [c];
    }
  }

  /** After a challenge is created, `/create` in the same chat shows it instead. */
  lemma CreateOnce(db: Db, chatId: ChatId, creator: UserId, other: UserId, choices: Choices, choices2: Choices, now: Ms, now2: Ms)
    requires Create(db, chatId, true, creator, choices, now).Created?
    ensures Create(Create(db, chatId, true, creator, choices, now).db, chatId, true, other, choices2, now2)
         == Refused(LiveChallengeExists(db.nextId))
  {
  }

  /** The conversation itself never checks the chat again: a second conversation that was
      entered before the first one finished still stores a second live challenge. */
  lemma ConverseTwiceMakesTwoDrafts(db: Db, chatId: ChatId, creator: UserId, choices: Choices, now: Ms, now2: Ms)
    requires Converse(db, chatId, creator, choices, now).Some?
    ensures var db1 := Converse(db, chatId, creator, choices, now).value;
      && Converse(db1, chatId, creator, choices, now2).Some?
      && var db2 := Converse(db1, chatId, creator, choices, now2).value;
      && |db2.challenges| == |db.challenges| + 2
      && LiveChallenge(db2.challenges[|db.challenges|].status) && LiveChallenge(db2.challenges[|db.challenges| + 1].status)
      && db2.challenges[|db.challenges|].chatId == chatId && db2.challenges[|db.challenges| + 1].chatId == chatId
  {
  }
}

=== FILE: db_client.dfy ===
/** Where the SQLite database lives: the configured database URL turned into the file name the
    driver opens. */
module DbClient {

  const DefaultFile: string := "data/fitbet.db"
  const Memory: string := ":memory:"
  const FileScheme: string := "file:"

  /** `sqliteFilenameFromUrl`: an empty URL gives the default file; both spellings of the
      in-memory database give `:memory:`; a `file:` URL gives its path, or the default file
      when the path is empty; anything else is taken as a file name as it is. */
  function SqliteFilename(url: string): (r: string)
    ensures |r| > 0
    ensures |url| == 0 ==> r == DefaultFile
    ensures url == Memory || url == FileScheme + Memory ==> r == Memory
    ensures |url| > 0 && url != Memory && url != FileScheme + Memory && FileScheme <= url ==>
      (if |url| == |FileScheme| then r == DefaultFile else FileScheme + r == url)
    ensures |url| > 0 && url != Memory && !(FileScheme <= url) ==> r == url
  {
    if |url| == 0 then DefaultFile
    else if url == Memory || url == FileScheme + Memory then Memory
    else if FileScheme <= url then
      var path := url[|FileScheme|..];
      assert url == FileScheme + path;
      if |path| == 0 then DefaultFile else path
    else url
  }

  /** The URL a file name is configured by. */
  function FileUrl(path: string): string {
    FileScheme + path
  }

  /** Configuring a file by its `file:` URL names that same file, except that an empty path
      falls back to the default file and `file::memory:` still means the in-memory database. */
  lemma FileUrlRoundTrip(path: string)
    ensures |path| > 0 && path != Memory ==> SqliteFilename(FileUrl(path)) == path
    ensures |path| == 0 ==> SqliteFilename(FileUrl(path)) == DefaultFile
    ensures SqliteFilename(FileUrl(Memory)) == Memory
  {
    var url := FileUrl(path);
    assert FileScheme <= url;
    assert url[|FileScheme|..] == path;
    if |path| > 0 && path != Memory {
      assert url != Memory by {
        assert url[..5] == "file:";
        assert Memory[..5] != "file:" by { assert Memory[0] == ':'; }
      }
    }
  }

  /** A plain file name that does not start with the scheme names itself. */
  lemma PlainNameKept(name: string)
    requires |name| > 0 && name != Memory && !(FileScheme <= name)
    ensures SqliteFilename(name) == name
  {
  }

  /** The result is stable: feeding the file name back in gives it again, unless the path
      itself starts with the scheme. */
  lemma FilenameIdempotent(url: string)
    requires !(FileScheme <= SqliteFilename(url))
    ensures SqliteFilename(SqliteFilename(url)) == SqliteFilename(url)
  {
  }
}

=== FILE: duration.dfy ===
/** Russian rendering of a challenge duration ("6 часов", "1 месяц", "12 месяцев"). */
module Duration {
  import opened Common

  /** The configured unit of `durationMonths` (the column keeps its historical name). */
  datatype DurationUnit = Hours | Days | Months

  /** The three Russian noun forms a count selects. */
  datatype PluralForm =
    | Singular   // 1, 21, 101 ...
    | Paucal     // 2-4, 22-24 ...
    | Genitive   // 0, 5-20, 25-30, 111-114 ...

  function Abs(v: int): nat {
    if v < 0 then -v else v
  }

  /** The form a count selects; it looks only at the last two decimal digits of |value|. */
  function PluralFormOf(value: int): (f: PluralForm)
    ensures 11 <= Abs(value) % 100 <= 14 ==> f == Genitive
    ensures !(11 <= Abs(value) % 100 <= 14) ==>
      (f == Singular <==> Abs(value) % 10 == 1) &&
      (f == Paucal <==> 2 <= Abs(value) % 10 <= 4)
  {
    var n100 := Abs(value) % 100;
    var n10 := Abs(value) % 10;
    if 11 <= n100 <= 14 then Genitive
    else if n10 == 1 then Singular
    else if 2 <= n10 <= 4 then Paucal
    else Genitive
  }

  /** The noun for `unit` in form `f`. */
  function UnitWord(unit: DurationUnit, f: PluralForm): string {
    match unit
    case Hours => (match f case Singular => "час" case Paucal => "часа" case Genitive => "часов")
    case Days => (match f case Singular => "день" case Paucal => "дня" case Genitive => "дней")
    case Months => (match f case Singular => "месяц" case Paucal => "месяца" case Genitive => "месяцев")
  }

  /** The genitive plural used in prompts such as "Выберите длительность (…)". */
  function FormatChallengeDurationUnit(unit: DurationUnit): (w: string)
    ensures unit == Hours ==> w == "часов"
    ensures unit == Days ==> w == "дней"
    ensures unit == Months ==> w == "месяцев"
  {
    match unit
    case Hours => "часов"
    case Days => "дней"
    case Months => "месяцев"
  }

  /** The noun agreeing with `value`. */
  function FormatRussianDurationUnit(value: int, unit: DurationUnit): (w: string)
    ensures w == UnitWord(unit, PluralFormOf(value))
    ensures w == FormatChallengeDurationUnit(unit) <==> PluralFormOf(value) == Genitive
  {
    UnitWord(unit, PluralFormOf(value))
  }

  /** `${value} ${noun}`: the decimal value, one space, then the agreeing noun. */
  function FormatChallengeDuration(value: int, unit: DurationUnit): (s: string)
    ensures var k := |IntToString(value)|;
      && k < |s|
      && s[..k] == IntToString(value)
      && s[k] == ' '
      && s[k + 1..] == UnitWord(unit, PluralFormOf(value))
  {
    var n := IntToString(value);
    var s := n + " " + FormatRussianDurationUnit(value, unit);
    assert s[..|n|] == n;
    assert s[|n| + 1..] == FormatRussianDurationUnit(value, unit);
    s
  }

  /** The number printed before the space reads back as `value`. */
  lemma FormattedDurationReadsBack(value: int, unit: DurationUnit)
    ensures var s := FormatChallengeDuration(value, unit);
      var k := |IntToString(value)|;
      ParseInt(s[..k]) == value
  {
    IntToStringRoundTrip(value);
  }

  /** The form depends only on |value|, so a value and its negation agree. */
  lemma PluralFormIgnoresSign(value: int)
    ensures PluralFormOf(value) == PluralFormOf(-value)
  {
  }

  /** Adding a hundred never changes the form of a non-negative count. */
  lemma PluralFormPeriodic(value: nat)
    ensures PluralFormOf(value + 100) == PluralFormOf(value)
  {
    assert (value + 100) % 100 == value % 100;
    assert (value + 100) % 10 == value % 10;
  }

  /** Worked cases of the agreement rule. */
  lemma PluralFormExamples()
    ensures UnitWord(Months, PluralFormOf(1)) == "месяц"
    ensures UnitWord(Hours, PluralFormOf(6)) == "часов"
    ensures UnitWord(Months, PluralFormOf(12)) == "месяцев"
    ensures UnitWord(Days, PluralFormOf(22)) == "дня"
    ensures UnitWord(Days, PluralFormOf(111)) == "дней"
    ensures UnitWord(Hours, PluralFormOf(-21)) == "час"
  {
  }

  /** The duration line of a six-hour challenge. */
  lemma SixHoursExample()
    ensures FormatChallengeDuration(6, Hours) == "6 часов"
  {
    assert IntToString(6) == "6";
  }
}

=== FILE: election.dfy ===
/** Finalization of a bank-holder election: who wins, when an election may be closed, and
    what closing it does to the challenge, the election and the payments already marked. */
module Election {
  import opened Common
  import opened Schema

  /** `AllVotes` closes as soon as everyone eligible has voted; `Timeout` once the election is
      old enough. */
  datatype Mode = AllVotes | Timeout

  const DefaultTimeoutMs: int := 24 * HourMs

  datatype Outcome = NotFinalized | Finalized(winner: UserId)

  function Ident(u: UserId): int {
    u
  }

  /** The votes cast in one election, in storage order. */
  function VotesOf(votes: seq<Vote>, electionId: Id): (r: seq<Vote>)
    ensures forall v :: v in r <==> v in votes && v.electionId == electionId
  {
    Filter(votes, (v: Vote) => v.electionId == electionId)
  }

  /** How many of `votes` name `candidate`. */
  function Tally(votes: seq<Vote>, candidate: UserId): (n: nat)
    ensures n == 0 <==> forall i :: 0 <= i < |votes| ==> votes[i].votedForId != candidate
  {
    Count(votes, (v: Vote) => v.votedForId == candidate)
  }

  function Voters(votes: seq<Vote>): (r: seq<UserId>)
    ensures |r| == |votes|
    ensures forall i :: 0 <= i < |votes| ==> r[i] == votes[i].voterId
  {
    seq(|votes|, i requires 0 <= i < |votes| => votes[i].voterId)
  }

  function UserIds(ps: seq<Participant>): (r: seq<UserId>)
    ensures |r| == |ps|
    ensures forall i :: 0 <= i < |ps| ==> r[i] == ps[i].userId
  {
    seq(|ps|, i requires 0 <= i < |ps| => ps[i].userId)
  }

  /** The participants who take part in the election of `challengeId`: those past onboarding
      and not dropped, disqualified or completed. */
  function Eligible(db: Db, challengeId: Id): (r: seq<Participant>)
    ensures forall p :: p in r <==> p in db.participants && p.challengeId == challengeId && ElectionEligible(p.status)
  {
    Filter(db.participants, (p: Participant) => p.challengeId == challengeId && ElectionEligible(p.status))
  }

  /** `w` is the election's leader among `ids`: a candidate with the most votes, and the
      lowest id among those tied with it. */
  predicate Leads(w: UserId, ids: seq<UserId>, votes: seq<Vote>) {
    && w in ids
    && (forall u :: u in ids ==> Tally(votes, u) <= Tally(votes, w))
    && (forall u :: u in ids && Tally(votes, u) == Tally(votes, w) ==> w <= u)
  }

  /** There is at most one leader. */
  lemma LeaderUnique(a: UserId, b: UserId, ids: seq<UserId>, votes: seq<Vote>)
    requires Leads(a, ids, votes) && Leads(b, ids, votes)
    ensures a == b
  {
  }

  /** The tally loop: walks the candidates keeping the first one with strictly more votes than
      the best so far. */
  function Scan(ids: seq<UserId>, votes: seq<Vote>, bestVotes: int, bestId: UserId): UserId {
    if |ids| == 0 then bestId
    else
      var c := Tally(votes, ids[0]);
      if c > bestVotes then Scan(ids[1..], votes, c, ids[0]) else Scan(ids[1..], votes, bestVotes, bestId)
  }

  /** `best` leads the candidates seen so far and `bestVotes` is its tally. */
  predicate PrefixLeader(seen: seq<UserId>, votes: seq<Vote>, bestVotes: int, best: UserId) {
    best in seen && bestVotes == Tally(votes, best) && Leads(best, seen, votes)
  }

  /** On ascending candidates, the loop started with best tally -1 ends on the leader. */
  lemma {:induction false} ScanLeads(all: seq<UserId>, k: nat, votes: seq<Vote>, bestVotes: int, bestId: UserId)
    requires 0 < |all| && k <= |all|
    requires SortedBy(all, Ident)
    requires k == 0 ==> bestVotes == -1 && bestId == all[0]
    requires k > 0 ==> PrefixLeader(all[..k], votes, bestVotes, bestId)
    ensures Leads(Scan(all[k..], votes, bestVotes, bestId), all, votes)
    decreases |all| - k, 1
  {
    if k == |all| {
      assert all[..k] == all;
      assert all[k..] == [];
    } else if Tally(votes, all[k]) > bestVotes {
      ScanLeadsTaking(all, k, votes, bestVotes, bestId);
    } else {
      ScanLeadsKeeping(all, k, votes, bestVotes, bestId);
    }
  }

  /** `ScanLeads` when the next candidate takes the lead. */
  lemma {:induction false} ScanLeadsTaking(all: seq<UserId>, k: nat, votes: seq<Vote>, bestVotes: int, bestId: UserId)
    requires k < |all|
    requires SortedBy(all, Ident)
    requires k > 0 ==> PrefixLeader(all[..k], votes, bestVotes, bestId)
    requires Tally(votes, all[k]) > bestVotes
    ensures Leads(Scan(all[k..], votes, bestVotes, bestId), all, votes)
    decreases |all| - k, 0
  {
    var c := Tally(votes, all[k]);
    ScanTakesLead(all, k, votes, bestVotes, bestId);
    ScanLeads(all, k + 1, votes, c, all[k]);
    ScanStep(all[k..], votes, bestVotes, bestId);
    assert all[k..][0] == all[k] && all[k..][1..] == all[k + 1..];
  }

  /** `ScanLeads` when the best so far keeps the lead. */
  lemma {:induction false} ScanLeadsKeeping(all: seq<UserId>, k: nat, votes: seq<Vote>, bestVotes: int, bestId: UserId)
    requires k < |all|
    requires SortedBy(all, Ident)
    requires k == 0 ==> bestVotes == -1
    requires k > 0 ==> PrefixLeader(all[..k], votes, bestVotes, bestId)
    requires Tally(votes, all[k]) <= bestVotes
    ensures Leads(Scan(all[k..], votes, bestVotes, bestId), all, votes)
    decreases |all| - k, 0
  {
    ScanKeepsLead(all, k, votes, bestVotes, bestId);
    ScanLeads(all, k + 1, votes, bestVotes, bestId);
    ScanStep(all[k..], votes, bestVotes, bestId);
    assert all[k..][0] == all[k] && all[k..][1..] == all[k + 1..];
  }

  /** One iteration of the loop. */
  lemma ScanStep(rest: seq<UserId>, votes: seq<Vote>, bestVotes: int, bestId: UserId)
    requires |rest| > 0
    ensures var c := Tally(votes, rest[0]);
      Scan(rest, votes, bestVotes, bestId)
        == if c > bestVotes then Scan(rest[1..], votes, c, rest[0]) else Scan(rest[1..], votes, bestVotes, bestId)
  {
  }

  /** A candidate with strictly more votes than the best so far leads the longer prefix. */
  lemma ScanTakesLead(all: seq<UserId>, k: nat, votes: seq<Vote>, bestVotes: int, bestId: UserId)
    requires k < |all|
    requires k > 0 ==> PrefixLeader(all[..k], votes, bestVotes, bestId)
    requires Tally(votes, all[k]) > bestVotes
    ensures PrefixLeader(all[..k + 1], votes, Tally(votes, all[k]), all[k])
  {
    var c := Tally(votes, all[k]);
    var seen := all[..k + 1];
    assert seen == all[..k] + [all[k]];
    forall u | u in seen
      ensures Tally(votes, u) <= c
      ensures Tally(votes, u) == c ==> all[k] <= u
    {
      if u != all[k] {
        assert u in all[..k];
      }
    }
  }

  /** On ascending candidates, one with no more votes than the best so far leaves the lead
      where it was: a tie goes to the earlier, lower id. */
  lemma ScanKeepsLead(all: seq<UserId>, k: nat, votes: seq<Vote>, bestVotes: int, bestId: UserId)
    requires k < |all|
    requires SortedBy(all, Ident)
    requires k == 0 ==> bestVotes == -1
    requires k > 0 ==> PrefixLeader(all[..k], votes, bestVotes, bestId)
    requires Tally(votes, all[k]) <= bestVotes
    ensures PrefixLeader(all[..k + 1], votes, bestVotes, bestId)
  {
    var seen := all[..k + 1];
    assert seen == all[..k] + [all[k]];
    assert bestId in all[..k];
    var j :| 0 <= j < k && all[j] == bestId;
    assert Ident(all[j]) <= Ident(all[k]);
  }

  /** Chooses the bank holder among the eligible user ids: with no votes at all, the creator
      if eligible, else the lowest id; otherwise the scan over the ids in ascending order. */
  function ChooseWinner(eligibleIds: seq<UserId>, votes: seq<Vote>, creatorId: UserId): (w: UserId)
    requires |eligibleIds| > 0
    ensures w in eligibleIds
    ensures |votes| == 0 && creatorId in eligibleIds ==> w == creatorId
    ensures |votes| == 0 && creatorId !in eligibleIds ==> forall u :: u in eligibleIds ==> w <= u
    ensures |votes| > 0 ==> Leads(w, eligibleIds, votes)
  {
    var sorted := SortBy(eligibleIds, Ident);
    assert forall u :: u in sorted <==> u in eligibleIds by {
      forall u ensures u in sorted <==> u in eligibleIds {
        assert u in sorted <==> u in multiset(sorted);
        assert u in eligibleIds <==> u in multiset(eligibleIds);
      }
    }
    assert forall u :: u in sorted ==> sorted[0] <= u by {
      forall u | u in sorted ensures sorted[0] <= u {
        var j :| 0 <= j < |sorted| && sorted[j] == u;
        if j > 0 {
          assert Ident(sorted[0]) <= Ident(sorted[j]);
        }
      }
    }
    if |votes| == 0 then
      (if creatorId in sorted then creatorId else sorted[0])
    else
      ScanLeads(sorted, 0, votes, -1, sorted[0]);
      assert sorted[0..] == sorted;
      Scan(sorted, votes, -1, sorted[0])
  }

  /** Whoever leads is the winner: the choice is determined by the tally alone once any vote
      was cast. */
  lemma WinnerIsTheLeader(eligibleIds: seq<UserId>, votes: seq<Vote>, creatorId: UserId, w: UserId)
    requires |eligibleIds| > 0 && |votes| > 0
    requires Leads(w, eligibleIds, votes)
    ensures ChooseWinner(eligibleIds, votes, creatorId) == w
  {
    LeaderUnique(w, ChooseWinner(eligibleIds, votes, creatorId), eligibleIds, votes);
  }

  /** Votes that all name non-eligible candidates count for nobody: the lowest eligible id
      wins. */
  lemma IneligibleVotesIgnored(eligibleIds: seq<UserId>, votes: seq<Vote>, creatorId: UserId)
    requires |eligibleIds| > 0 && |votes| > 0
    requires forall i :: 0 <= i < |votes| ==> votes[i].votedForId !in eligibleIds
    ensures forall u :: u in eligibleIds ==> ChooseWinner(eligibleIds, votes, creatorId) <= u
  {
    var w := ChooseWinner(eligibleIds, votes, creatorId);
    forall u | u in eligibleIds ensures Tally(votes, u) == 0 {
    }
  }

  /** The payment row a bank holder's own confirmation writes. */
  function ConfirmedBy(now: Ms, holder: UserId): Payment {
    Payment(PaymentStatus.Confirmed, Some(now), Some(now), Some(holder))
  }

  /** Participants who had marked their payment before the election and turn out to be the
      winner: they are confirmed on the spot. */
  function AutoConfirmIds(eligible: seq<Participant>, winner: UserId): (ids: set<Id>)
    ensures forall id :: id in ids <==> exists p :: p in eligible && p.status == PaymentMarked && p.userId == winner && p.id == id
  {
    set p | p in eligible && p.status == PaymentMarked && p.userId == winner :: p.id
  }

  /** Requests to pay, one per eligible participant still owing. */
  function PayRequests(eligible: seq<Participant>): (ms: seq<Msg>)
    ensures forall m :: m in ms ==> exists p :: p in eligible && p.status == PendingPayment && m == Msg(p.userId, PleasePay(p.id))
    ensures forall p :: p in eligible && p.status == PendingPayment ==> Msg(p.userId, PleasePay(p.id)) in ms
  {
    if |eligible| == 0 then []
    else
      var p := eligible[0];
      (if p.status == PendingPayment then [Msg(p.userId, PleasePay(p.id))] else []) + PayRequests(eligible[1..])
  }

  function MarkedNotice(p: Participant, winner: UserId): Msg {
    if p.userId == winner then Msg(p.userId, PaymentSelfConfirmed(p.id)) else Msg(winner, ConfirmRequest(p.id))
  }

  /** For payments marked before the election: a confirmation notice to the winner's own row,
      a confirmation request to the winner for everyone else's. */
  function MarkedNotices(eligible: seq<Participant>, winner: UserId): (ms: seq<Msg>)
    ensures forall m :: m in ms ==>
      exists p :: p in eligible && p.status == PaymentMarked && m == MarkedNotice(p, winner)
    ensures forall p :: p in eligible && p.status == PaymentMarked ==> MarkedNotice(p, winner) in ms
  {
    if |eligible| == 0 then []
    else
      var p := eligible[0];
      (if p.status == PaymentMarked then [MarkedNotice(p, winner)] else []) + MarkedNotices(eligible[1..], winner)
  }

  /** The table updates of closing the election with `winner`: the challenge gets its holder
      and collects payments, the election completes, and the winner's own marked payment is
      confirmed. */
  function CloseTables(db: Db, e: Election, c: Challenge, eligible: seq<Participant>, winner: UserId, now: Ms): (r: Db)
    ensures r.checkins == db.checkins && r.windows == db.windows && r.votes == db.votes
    ensures r.goals == db.goals && r.commitments == db.commitments && r.nextId == db.nextId
    ensures |r.challenges| == |db.challenges|
    ensures forall i :: 0 <= i < |db.challenges| ==>
      r.challenges[i] == (if db.challenges[i].id == c.id
        then db.challenges[i].(bankHolderId := Some(winner), status := PendingPayments) else db.challenges[i])
    ensures |r.elections| == |db.elections|
    ensures forall i :: 0 <= i < |db.elections| ==>
      r.elections[i] == (if db.elections[i].id == e.id
        then db.elections[i].(status := ElectionStatus.Completed, completedAt := Some(now)) else db.elections[i])
    ensures |r.participants| == |db.participants|
    ensures forall i :: 0 <= i < |db.participants| ==>
      r.participants[i] == (if db.participants[i].id in AutoConfirmIds(eligible, winner)
        then db.participants[i].(status := ParticipantStatus.Active) else db.participants[i])
    ensures forall k :: k in AutoConfirmIds(eligible, winner) ==> k in r.payments && r.payments[k] == ConfirmedBy(now, winner)
    ensures forall k :: k in db.payments && k !in AutoConfirmIds(eligible, winner) ==> k in r.payments && r.payments[k] == db.payments[k]
    ensures CountersAgree(db.participants) ==> CountersAgree(r.participants)
    ensures r.sent == db.sent
  {
    var auto := AutoConfirmIds(eligible, winner);
    var db1 := SetChallenge(db, c.id, (x: Challenge) => x.(bankHolderId := Some(winner), status := PendingPayments));
    var db2 := SetElection(db1, e.id, (x: Election) => x.(status := ElectionStatus.Completed, completedAt := Some(now)));
    var db3 := MapParticipants(db2, (p: Participant) => if p.id in auto then p.(status := ParticipantStatus.Active) else p);
    var db4 := db3.(payments := map k | k in db3.payments.Keys + auto :: if k in auto then ConfirmedBy(now, winner) else db3.payments[k]);
    db4
  }

  /** Closes the election with `winner`: the table updates, then the announcement to the
      group, the note to the holder, the requests to pay and the notices about payments
      marked earlier. */
  function Close(db: Db, e: Election, c: Challenge, eligible: seq<Participant>, winner: UserId, now: Ms): (r: Db)
    ensures r == CloseTables(db, e, c, eligible, winner, now).(sent := r.sent)
    ensures r.sent == db.sent + [Msg(c.chatId, HolderChosen(winner)), Msg(winner, YouAreHolder)]
                              + PayRequests(eligible) + MarkedNotices(eligible, winner)
  {
    Send(CloseTables(db, e, c, eligible, winner, now),
         [Msg(c.chatId, HolderChosen(winner)), Msg(winner, YouAreHolder)] + PayRequests(eligible) + MarkedNotices(eligible, winner))
  }

  /** The challenge exists and someone in it is eligible, so a bank holder can be chosen. */
  predicate Settleable(db: Db, challengeId: Id) {
    FindChallenge(db, challengeId).Some? && |Eligible(db, challengeId)| > 0
  }

  /** Election `electionId` may be closed at `now`: it is in progress, its challenge exists and
      has someone eligible, and either it is old enough (`Timeout`) or as many distinct voters
      have voted as there are eligible participants (`AllVotes`). */
  predicate Closable(db: Db, electionId: Id, now: Ms, mode: Mode, timeoutMs: int) {
    && FindElection(db, electionId).Some?
    && var e := FindElection(db, electionId).value;
    && e.status == InProgress
    && Settleable(db, e.challengeId)
    && (mode == Timeout ==> now - e.createdAt >= timeoutMs)
    && (mode == AllVotes ==> |Dedup(Voters(VotesOf(db.votes, electionId)))| >= |Eligible(db, e.challengeId)|)
  }

  /** Tries to close election `electionId` at `now`. */
  function Finalize(db: Db, electionId: Id, now: Ms, mode: Mode, timeoutMs: int): (r: (Db, Outcome))
    ensures r.1.NotFinalized? ==> r.0 == db
    ensures FindElection(db, electionId).None? ==> r.1.NotFinalized?
    ensures FindElection(db, electionId).Some? && FindElection(db, electionId).value.status != InProgress ==> r.1.NotFinalized?
    ensures mode == Timeout && FindElection(db, electionId).Some? && now - FindElection(db, electionId).value.createdAt < timeoutMs ==> r.1.NotFinalized?
    ensures r.1.Finalized? ==> r.1.winner in UserIds(Eligible(db, FindElection(db, electionId).value.challengeId))
    ensures r.1.Finalized? <==> Closable(db, electionId, now, mode, timeoutMs)
    ensures CountersAgree(db.participants) ==> CountersAgree(r.0.participants)
    ensures r.0.windows == db.windows && r.0.checkins == db.checkins && r.0.nextId == db.nextId && r.0.votes == db.votes
    ensures |r.0.elections| == |db.elections|
  {
    match FindElection(db, electionId)
    case None => (db, NotFinalized)
    case Some(e) =>
      if e.status != InProgress then (db, NotFinalized)
      else if mode == Timeout && now - e.createdAt < timeoutMs then (db, NotFinalized)
      else match FindChallenge(db, e.challengeId)
      case None => (db, NotFinalized)
      case Some(c) =>
        var eligible := Eligible(db, e.challengeId);
        var votes := VotesOf(db.votes, electionId);
        if |eligible| == 0 then (db, NotFinalized)
        else if mode == AllVotes && |Dedup(Voters(votes))| < |eligible| then (db, NotFinalized)
        else
          var winner := ChooseWinner(UserIds(eligible), votes, c.creatorId);
          (Close(db, e, c, eligible, winner, now), Finalized(winner))
  }

  /** How the winner is chosen, stated against the tally: with no vote in the election the
      creator if eligible, else the lowest eligible id; otherwise the leader. */
  lemma FinalizeWinner(db: Db, electionId: Id, now: Ms, mode: Mode, timeoutMs: int)
    requires Finalize(db, electionId, now, mode, timeoutMs).1.Finalized?
    ensures var w := Finalize(db, electionId, now, mode, timeoutMs).1.winner;
      var e := FindElection(db, electionId).value;
      var ids := UserIds(Eligible(db, e.challengeId));
      var votes := VotesOf(db.votes, electionId);
      var creator := FindChallenge(db, e.challengeId).value.creatorId;
      && (|votes| == 0 && creator in ids ==> w == creator)
      && (|votes| == 0 && creator !in ids ==> forall u :: u in ids ==> w <= u)
      && (|votes| > 0 ==> Leads(w, ids, votes))
  {
  }

  /** What closing does: the challenge gets the winner as bank holder and waits for payments,
      the election is completed at `now`, the winner's own marked payment is confirmed and the
      winner becomes active; every other participant and payment is left as it was. */
  lemma FinalizeEffects(db: Db, electionId: Id, now: Ms, mode: Mode, timeoutMs: int)
    requires UniqueBy(db.participants, (p: Participant) => p.id)
    requires Finalize(db, electionId, now, mode, timeoutMs).1.Finalized?
    ensures var (db', out) := Finalize(db, electionId, now, mode, timeoutMs);
      var e := FindElection(db, electionId).value;
      var w := out.winner;
      && |db'.challenges| == |db.challenges|
      && (forall i :: 0 <= i < |db.challenges| ==>
            db'.challenges[i] == (if db.challenges[i].id == e.challengeId
              then db.challenges[i].(bankHolderId := Some(w), status := PendingPayments)
              else db.challenges[i]))
      && |db'.elections| == |db.elections|
      && (forall i :: 0 <= i < |db.elections| ==>
            db'.elections[i] == (if db.elections[i].id == electionId
              then db.elections[i].(status := ElectionStatus.Completed, completedAt := Some(now))
              else db.elections[i]))
      && |db'.participants| == |db.participants|
      && (forall i :: 0 <= i < |db.participants| ==>
            var p := db.participants[i];
            db'.participants[i] == (if p.challengeId == e.challengeId && p.status == PaymentMarked && p.userId == w
              then p.(status := ParticipantStatus.Active) else p))
      && (forall i :: 0 <= i < |db.participants| ==>
            var p := db.participants[i];
            p.challengeId == e.challengeId && p.status == PaymentMarked && p.userId == w ==>
              p.id in db'.payments && db'.payments[p.id] == ConfirmedBy(now, w))
      && (forall k :: k in db.payments && (forall i :: 0 <= i < |db.participants| ==> db.participants[i].id == k ==>
            !(db.participants[i].challengeId == e.challengeId && db.participants[i].status == PaymentMarked && db.participants[i].userId == w)) ==>
            k in db'.payments && db'.payments[k] == db.payments[k])
      && db'.votes == db.votes && db'.windows == db.windows && db'.checkins == db.checkins
  {
    var e := FindElection(db, electionId).value;
    var c := FindChallenge(db, e.challengeId).value;
    var eligible := Eligible(db, e.challengeId);
    var votes := VotesOf(db.votes, electionId);
    var w := ChooseWinner(UserIds(eligible), votes, c.creatorId);
    assert Finalize(db, electionId, now, mode, timeoutMs) == (Close(db, e, c, eligible, w, now), Finalized(w));
    assert c.id == e.challengeId && e.id == electionId;
    CloseEffects(db, e, c, eligible, w, now);
  }

  /** `FinalizeEffects` for the closing step itself. */
  lemma CloseEffects(db: Db, e: Election, c: Challenge, eligible: seq<Participant>, w: UserId, now: Ms)
    requires UniqueBy(db.participants, (p: Participant) => p.id)
    requires eligible == Eligible(db, c.id)
    ensures var db' := Close(db, e, c, eligible, w, now);
      && |db'.challenges| == |db.challenges|
      && (forall i :: 0 <= i < |db.challenges| ==>
            db'.challenges[i] == (if db.challenges[i].id == c.id
              then db.challenges[i].(bankHolderId := Some(w), status := PendingPayments)
              else db.challenges[i]))
      && |db'.elections| == |db.elections|
      && (forall i :: 0 <= i < |db.elections| ==>
            db'.elections[i] == (if db.elections[i].id == e.id
              then db.elections[i].(status := ElectionStatus.Completed, completedAt := Some(now))
              else db.elections[i]))
      && |db'.participants| == |db.participants|
      && (forall i :: 0 <= i < |db.participants| ==>
            var p := db.participants[i];
            db'.participants[i] == (if p.challengeId == c.id && p.status == PaymentMarked && p.userId == w
              then p.(status := ParticipantStatus.Active) else p))
      && (forall i :: 0 <= i < |db.participants| ==>
            var p := db.participants[i];
            p.challengeId == c.id && p.status == PaymentMarked && p.userId == w ==>
              p.id in db'.payments && db'.payments[p.id] == ConfirmedBy(now, w))
      && (forall k :: k in db.payments && (forall i :: 0 <= i < |db.participants| ==> db.participants[i].id == k ==>
            !(db.participants[i].challengeId == c.id && db.participants[i].status == PaymentMarked && db.participants[i].userId == w)) ==>
            k in db'.payments && db'.payments[k] == db.payments[k])
      && db'.votes == db.votes && db'.windows == db.windows && db'.checkins == db.checkins
  {
    AutoConfirmIdsExact(db, c.id, eligible, w);
  }

  predicate WinnerMarkedRow(p: Participant, id: Id, challengeId: Id, w: UserId) {
    p.id == id && p.challengeId == challengeId && p.status == PaymentMarked && p.userId == w
  }

  /** Under unique participant ids the rows confirmed on the spot are exactly the winner's
      marked rows of the challenge. */
  lemma AutoConfirmIdsExact(db: Db, challengeId: Id, eligible: seq<Participant>, w: UserId)
    requires UniqueBy(db.participants, (p: Participant) => p.id)
    requires eligible == Eligible(db, challengeId)
    ensures forall i :: 0 <= i < |db.participants| ==>
      (db.participants[i].id in AutoConfirmIds(eligible, w) <==>
        (db.participants[i].challengeId == challengeId && db.participants[i].status == PaymentMarked && db.participants[i].userId == w))
    ensures forall k :: k in AutoConfirmIds(eligible, w) ==>
      exists i :: 0 <= i < |db.participants| && WinnerMarkedRow(db.participants[i], k, challengeId, w)
  {
    var auto := AutoConfirmIds(eligible, w);
    forall i | 0 <= i < |db.participants|
      ensures db.participants[i].id in auto <==>
        (db.participants[i].challengeId == challengeId && db.participants[i].status == PaymentMarked && db.participants[i].userId == w)
    {
      var p := db.participants[i];
      if p.challengeId == challengeId && p.status == PaymentMarked && p.userId == w {
        assert p in eligible;
      }
      if p.id in auto {
        var q :| q in eligible && q.status == PaymentMarked && q.userId == w && q.id == p.id;
        var j :| 0 <= j < |db.participants| && db.participants[j] == q;
        assert db.participants[i].id == db.participants[j].id;
        assert i == j;
      }
    }
    forall k | k in auto
      ensures exists i :: 0 <= i < |db.participants| && WinnerMarkedRow(db.participants[i], k, challengeId, w)
    {
      var q :| q in eligible && q.status == PaymentMarked && q.userId == w && q.id == k;
      var j :| 0 <= j < |db.participants| && db.participants[j] == q;
    }
  }

  /** Finalizing changes no election row except its own, which it completes exactly when the
      election is finalized; a challenge that could be settled still can. */
  lemma FinalizeKeepsOthers(db: Db, electionId: Id, now: Ms, mode: Mode, timeoutMs: int)
    ensures var (r, out) := Finalize(db, electionId, now, mode, timeoutMs);
      && |r.elections| == |db.elections|
      && (forall i :: 0 <= i < |db.elections| ==>
            r.elections[i] == (if out.Finalized? && db.elections[i].id == electionId
              then db.elections[i].(status := ElectionStatus.Completed, completedAt := Some(now))
              else db.elections[i]))
      && (forall cid :: Settleable(db, cid) ==> Settleable(r, cid))
  {
    if Finalize(db, electionId, now, mode, timeoutMs).1.Finalized? {
      var e := FindElection(db, electionId).value;
      var c := FindChallenge(db, e.challengeId).value;
      var eligible := Eligible(db, e.challengeId);
      var w := ChooseWinner(UserIds(eligible), VotesOf(db.votes, electionId), c.creatorId);
      assert Finalize(db, electionId, now, mode, timeoutMs).0 == Close(db, e, c, eligible, w, now);
      CloseKeepsOthers(db, e, c, eligible, w, now);
    }
  }

  /** `FinalizeKeepsOthers` for the closing step itself. */
  lemma CloseKeepsOthers(db: Db, e: Election, c: Challenge, eligible: seq<Participant>, w: UserId, now: Ms)
    ensures var r := Close(db, e, c, eligible, w, now);
      && (forall i :: 0 <= i < |db.elections| ==>
            r.elections[i] == (if db.elections[i].id == e.id
              then db.elections[i].(status := ElectionStatus.Completed, completedAt := Some(now))
              else db.elections[i]))
      && (forall cid :: Settleable(db, cid) ==> Settleable(r, cid))
  {
    forall cid | Settleable(db, cid) ensures Settleable(Close(db, e, c, eligible, w, now), cid) {
      SettleableAfterClose(db, e, c, eligible, w, now, cid);
    }
  }

  /** Closing renames no challenge and leaves every eligible participant eligible. */
  lemma SettleableAfterClose(db: Db, e: Election, c: Challenge, eligible: seq<Participant>, w: UserId, now: Ms, cid: Id)
    requires Settleable(db, cid)
    ensures Settleable(Close(db, e, c, eligible, w, now), cid)
  {
    var r := Close(db, e, c, eligible, w, now);
    var x := FindChallenge(db, cid).value;
    var j :| 0 <= j < |db.challenges| && db.challenges[j] == x;
    assert r.challenges[j].id == cid;
    var p := Eligible(db, cid)[0];
    assert p in Eligible(db, cid);
    var k :| 0 <= k < |db.participants| && db.participants[k] == p;
    assert r.participants[k] in Eligible(r, cid);
  }

  /** Closing leaves every row of the election completed. */
  lemma CloseCompletes(db: Db, e: Election, c: Challenge, eligible: seq<Participant>, winner: UserId, now: Ms)
    ensures forall x :: x in Close(db, e, c, eligible, winner, now).elections && x.id == e.id ==>
      x.status == ElectionStatus.Completed
  {
    var r := Close(db, e, c, eligible, winner, now);
    forall x | x in r.elections && x.id == e.id ensures x.status == ElectionStatus.Completed {
      var i :| 0 <= i < |r.elections| && r.elections[i] == x;
      assert i < |db.elections|;
    }
  }

  /** A finalized election is no longer in progress, so finalizing it again changes nothing. */
  lemma FinalizeIdempotent(db: Db, electionId: Id, now: Ms, mode: Mode, timeoutMs: int, now2: Ms, mode2: Mode, timeoutMs2: int)
    requires Finalize(db, electionId, now, mode, timeoutMs).1.Finalized?
    ensures var db' := Finalize(db, electionId, now, mode, timeoutMs).0;
      Finalize(db', electionId, now2, mode2, timeoutMs2) == (db', NotFinalized)
  {
    var e := FindElection(db, electionId).value;
    var c := FindChallenge(db, e.challengeId).value;
    var eligible := Eligible(db, e.challengeId);
    var w := ChooseWinner(UserIds(eligible), VotesOf(db.votes, electionId), c.creatorId);
    assert Finalize(db, electionId, now, mode, timeoutMs).0 == Close(db, e, c, eligible, w, now);
    var db' := Close(db, e, c, eligible, w, now);
    CloseCompletes(db, e, c, eligible, w, now);
    assert FindElection(db', electionId).Some? ==> FindElection(db', electionId).value.status != InProgress;
  }
}

=== FILE: election_commands.dfy ===
/** The two user-facing steps of the bank-holder election: the creator's `/bankholder` command
    in the group, and a participant's vote in the private chat, which closes the election once
    everyone eligible has voted. */
module ElectionCommands {
  import opened Common
  import opened Schema
  import Holder = Election

  // ---------------------------------------------------------------------------------------
  // Starting

  datatype StartRefusal =
    | NotGroupChat | NoLiveChallenge | NotCreator | HolderAlreadyChosen | TooFewParticipants | AlreadyRunning
    | ElectionExisted  // the insert violates the one-election-per-challenge index and the handler fails

  predicate Running(db: Db, challengeId: Id) {
    exists i :: 0 <= i < |db.elections| && db.elections[i].challengeId == challengeId && db.elections[i].status == InProgress
  }

  predicate HadElection(db: Db, challengeId: Id) {
    exists i :: 0 <= i < |db.elections| && db.elections[i].challengeId == challengeId
  }

  /** Why `/bankholder` from `user` in chat `chatId` is refused, if it is. */
  function StartRefusalOf(db: Db, chatId: ChatId, isGroup: bool, user: UserId): Option<StartRefusal> {
    if !isGroup then Some(NotGroupChat)
    else match LiveChallengeOf(db, chatId)
    case None => Some(NoLiveChallenge)
    case Some(c) =>
      if c.creatorId != user then Some(NotCreator)
      else if Truthy(c.bankHolderId) then Some(HolderAlreadyChosen)
      else if |Holder.Eligible(db, c.id)| < 2 then Some(TooFewParticipants)
      else if Running(db, c.id) then Some(AlreadyRunning)
      else if HadElection(db, c.id) then Some(ElectionExisted)
      else None
  }

  /** `/bankholder`: the creator of the chat's live challenge starts the election while no
      bank holder is chosen, at least two participants are past onboarding and the challenge
      never had an election; each of them gets a ballot. */
  function StartElection(db: Db, chatId: ChatId, isGroup: bool, user: UserId, now: Ms): (r: Result<Db, StartRefusal>)
    ensures r.Err? <==> StartRefusalOf(db, chatId, isGroup, user).Some?
    ensures r.Err? ==> r.error == StartRefusalOf(db, chatId, isGroup, user).value
    ensures r.Ok? ==>
      var c := LiveChallengeOf(db, chatId).value;
      var e := Election(db.nextId, c.id, user, InProgress, now, None);
      && c.creatorId == user && !Truthy(c.bankHolderId)
      && |Holder.Eligible(db, c.id)| >= 2
      && r.value == db.(elections := db.elections + [e], nextId := db.nextId + 1,
                         sent := db.sent + DirectMessages(Holder.Eligible(db, c.id), Ballot(e.id)))
    ensures r.Ok? && UniqueElections(db.elections) ==> UniqueElections(r.value.elections)
  {
    match StartRefusalOf(db, chatId, isGroup, user)
    case Some(why) => Err(why)
    case None =>
      var c := LiveChallengeOf(db, chatId).value;
      var e := Election(db.nextId, c.id, user, InProgress, now, None);
      var ok := db.(elections := db.elections + [e], nextId := db.nextId + 1,
                    sent := db.sent + DirectMessages(Holder.Eligible(db, c.id), Ballot(e.id)));
      AppendElectionUnique(db.elections, e);
      Ok(ok)
  }

  /** An election for a challenge that never had one keeps elections unique per challenge. */
  lemma AppendElectionUnique(es: seq<Election>, e: Election)
    ensures (forall i :: 0 <= i < |es| ==> es[i].challengeId != e.challengeId) && UniqueElections(es) ==> UniqueElections(es + [e])
  {
  }

  /** A second `/bankholder` after a successful one is refused while the election runs. */
  lemma StartElectionOnce(db: Db, chatId: ChatId, user: UserId, now: Ms, now2: Ms)
    requires StartElection(db, chatId, true, user, now).Ok?
    ensures StartElection(StartElection(db, chatId, true, user, now).value, chatId, true, user, now2) == Err(AlreadyRunning)
  {
    var c := LiveChallengeOf(db, chatId).value;
    var db' := StartElection(db, chatId, true, user, now).value;
    assert db'.participants == db.participants && db'.challenges == db.challenges;
    assert Holder.Eligible(db', c.id) == Holder.Eligible(db, c.id);
    assert db'.elections[|db.elections|].challengeId == c.id;
    assert Running(db', c.id);
  }

  // ---------------------------------------------------------------------------------------
  // Voting

  datatype VoteRefusal = NotPrivateChat | ElectionOver | CannotVote | CandidateUnavailable | AlreadyVoted

  /** A member of the challenge past onboarding; any later status counts. */
  predicate MayTakePart(db: Db, challengeId: Id, user: UserId) {
    FindMember(db, challengeId, user).Some? && FindMember(db, challengeId, user).value.status != Onboarding
  }

  predicate HasVoted(db: Db, electionId: Id, voter: UserId) {
    exists i :: 0 <= i < |db.votes| && db.votes[i].electionId == electionId && db.votes[i].voterId == voter
  }

  /** Why `voter`'s vote for `candidate` in election `electionId` is refused, if it is. */
  function VoteRefusalOf(db: Db, electionId: Id, candidate: UserId, voter: UserId, isPrivate: bool): Option<VoteRefusal> {
    if !isPrivate then Some(NotPrivateChat)
    else match FindElection(db, electionId)
    case None => Some(ElectionOver)
    case Some(e) =>
      if e.status != InProgress then Some(ElectionOver)
      else if !MayTakePart(db, e.challengeId, voter) then Some(CannotVote)
      else if !MayTakePart(db, e.challengeId, candidate) then Some(CandidateUnavailable)
      else if HasVoted(db, electionId, voter) then Some(AlreadyVoted)
      else None
  }

  /** A vote: recorded once per voter, after which the election is closed if everyone
      eligible has voted. */
  function CastVote(db: Db, electionId: Id, candidate: UserId, voter: UserId, isPrivate: bool, now: Ms): (r: Result<Db, VoteRefusal>)
    ensures r.Err? <==> VoteRefusalOf(db, electionId, candidate, voter, isPrivate).Some?
    ensures r.Err? ==> r.error == VoteRefusalOf(db, electionId, candidate, voter, isPrivate).value
    ensures r.Ok? ==>
      var withVote := db.(votes := db.votes + [Vote(electionId, voter, candidate, now)]);
      && r.value == Holder.Finalize(withVote, electionId, now, Holder.AllVotes, Holder.DefaultTimeoutMs).0
      && r.value.votes == db.votes + [Vote(electionId, voter, candidate, now)]
    ensures r.Ok? && UniqueVotes(db.votes) ==> UniqueVotes(r.value.votes)
    ensures r.Ok? && CountersAgree(db.participants) ==> CountersAgree(r.value.participants)
  {
    match VoteRefusalOf(db, electionId, candidate, voter, isPrivate)
    case Some(why) => Err(why)
    case None =>
      var v := Vote(electionId, voter, candidate, now);
      var withVote := db.(votes := db.votes + [v]);
      AppendVoteUnique(db.votes, v);
      Ok(Holder.Finalize(withVote, electionId, now, Holder.AllVotes, Holder.DefaultTimeoutMs).0)
  }

  /** The vote that makes the election closable on all votes closes it: every row of the
      election is completed; a vote that does not leaves the store as the vote alone left it. */
  lemma VoteClosesWhenClosable(db: Db, electionId: Id, candidate: UserId, voter: UserId, isPrivate: bool, now: Ms)
    requires CastVote(db, electionId, candidate, voter, isPrivate, now).Ok?
    ensures var withVote := db.(votes := db.votes + [Vote(electionId, voter, candidate, now)]);
      var r := CastVote(db, electionId, candidate, voter, isPrivate, now).value;
      && (Holder.Closable(withVote, electionId, now, Holder.AllVotes, Holder.DefaultTimeoutMs) ==>
            forall x :: x in r.elections && x.id == electionId ==> x.status == ElectionStatus.Completed)
      && (!Holder.Closable(withVote, electionId, now, Holder.AllVotes, Holder.DefaultTimeoutMs) ==> r == withVote)
  {
    var withVote := db.(votes := db.votes + [Vote(electionId, voter, candidate, now)]);
    if Holder.Closable(withVote, electionId, now, Holder.AllVotes, Holder.DefaultTimeoutMs) {
      var e := FindElection(withVote, electionId).value;
      var c := FindChallenge(withVote, e.challengeId).value;
      var eligible := Holder.Eligible(withVote, e.challengeId);
      var w := Holder.ChooseWinner(Holder.UserIds(eligible), Holder.VotesOf(withVote.votes, electionId), c.creatorId);
      assert Holder.Finalize(withVote, electionId, now, Holder.AllVotes, Holder.DefaultTimeoutMs).0 ==
        Holder.Close(withVote, e, c, eligible, w, now);
      Holder.CloseCompletes(withVote, e, c, eligible, w, now);
    }
  }

  /** A vote by someone who has not voted keeps votes unique per election and voter. */
  lemma AppendVoteUnique(vs: seq<Vote>, v: Vote)
    ensures (forall i :: 0 <= i < |vs| ==> !(vs[i].electionId == v.electionId && vs[i].voterId == v.voterId))
      ==> UniqueVotes(vs) ==> UniqueVotes(vs + [v])
  {
  }

  /** A second vote by the same voter in the same election is refused, whether or not the
      first one closed the election, and changes nothing. */
  lemma SecondVoteRefused(db: Db, electionId: Id, candidate: UserId, candidate2: UserId, voter: UserId, now: Ms, now2: Ms)
    requires CastVote(db, electionId, candidate, voter, true, now).Ok?
    ensures CastVote(CastVote(db, electionId, candidate, voter, true, now).value, electionId, candidate2, voter, true, now2).Err?
  {
    var db' := CastVote(db, electionId, candidate, voter, true, now).value;
    assert db'.votes[|db.votes|] == Vote(electionId, voter, candidate, now);
    assert HasVoted(db', electionId, voter);
  }
}

=== FILE: finale.dfy ===
/** The end of a challenge: once its end time has passed, the windows still open are closed,
    every participant with a confirmed payment is scored, the ranking and each participant's
    result and payout are announced, and the challenge and its active participants become
    `completed`. */
module Finale {
  import opened Common
  import opened Schema
  import opened Settlement
  import Sweeps

  /** Active challenges whose end time has passed; a challenge without an end time never
      ends. */
  predicate Ended(c: Challenge, now: Ms) {
    c.status == ChallengeStatus.Active && c.endsAt.Some? && c.endsAt.value <= now
  }

  function EndedChallenges(db: Db, now: Ms): (r: seq<Challenge>)
    ensures forall c :: c in r <==> c in db.challenges && Ended(c, now)
  {
    Filter(db.challenges, (c: Challenge) => Ended(c, now))
  }

  function OpenWindowsOf(db: Db, challengeId: Id): (r: seq<Window>)
    ensures forall w :: w in r <==> w in db.windows && w.challengeId == challengeId && w.status == Open
  {
    Filter(db.windows, (w: Window) => w.challengeId == challengeId && w.status == Open)
  }

  predicate HasConfirmedPayment(db: Db, participantId: Id) {
    participantId in db.payments && db.payments[participantId].status == Confirmed
  }

  /** Participants of the challenge whose payment is confirmed, in storage order: the ones
      who put money in. */
  function Paid(db: Db, challengeId: Id): (r: seq<Participant>)
    ensures forall p :: p in r <==> p in db.participants && p.challengeId == challengeId && HasConfirmedPayment(db, p.id)
  {
    Filter(db.participants, (p: Participant) => p.challengeId == challengeId && HasConfirmedPayment(db, p.id))
  }

  function NewestFirst(c: Checkin): int {
    -c.submittedAt
  }

  /** The participant's most recent check-in. The program's query orders by submission time
      only, so among several check-ins submitted at the same instant the database may return
      any; the model picks the earliest stored, the stable sort keeping stored order on a
      tie. The contract promises only a most recent one. */
  function LatestCheckin(db: Db, participantId: Id): (r: Option<Checkin>)
    ensures r.Some? ==> r.value in db.checkins && r.value.participantId == participantId
    ensures r.Some? ==> forall c :: c in db.checkins && c.participantId == participantId ==> c.submittedAt <= r.value.submittedAt
    ensures r.None? <==> forall c :: c in db.checkins ==> c.participantId != participantId
  {
    var mine := Filter(db.checkins, (c: Checkin) => c.participantId == participantId);
    SortByElements(mine, NewestFirst);
    var sorted := SortBy(mine, NewestFirst);
    if |sorted| == 0 then None
    else
      assert sorted[0] in mine;
      Some(sorted[0])
  }

  /** The participant's final standing in challenge `ch`: the latest check-in's measurements
      (or the start measurements, or zero), discipline from the counters, goal achievement
      from the declared goal (zero without one, a cut when no track was chosen). */
  function StandingOf(db: Db, ch: Challenge, p: Participant): (s: Standing)
    ensures s.participantId == p.id && s.userId == p.userId
    ensures s.discipline == Discipline(p.totalCheckins, p.completedCheckins)
    ensures p.id !in db.goals ==> s.goal == 0.0
    ensures s.goal >= 0.0
    ensures s.isWinner <==> IsWinner(p.status, s.discipline, ch.disciplineThreshold, s.goal)
    ensures s.total == TotalScore(s.goal, s.discipline)
  {
    var latest := LatestCheckin(db, p.id);
    var weight := match latest case Some(c) => c.weight case None => p.startWeight.GetOr(0.0);
    var waist := match latest case Some(c) => c.waist case None => p.startWaist.GetOr(0.0);
    var discipline := Discipline(p.totalCheckins, p.completedCheckins);
    var goal :=
      if p.id in db.goals then
        var g := db.goals[p.id];
        GoalAchievement(GoalInputs(p.track.GetOr(Cut), p.startWeight.GetOr(0.0), p.startWaist.GetOr(0.0),
                                   g.targetWeight, g.targetWaist, weight, waist))
      else 0.0;
    Standing(p.id, p.userId, IsWinner(p.status, discipline, ch.disciplineThreshold, goal), discipline, goal,
             TotalScore(goal, discipline))
  }

  function Standings(db: Db, ch: Challenge, ps: seq<Participant>): (rs: seq<Standing>)
    ensures |rs| == |ps|
    ensures forall i :: 0 <= i < |ps| ==> rs[i] == StandingOf(db, ch, ps[i])
  {
    seq(|ps|, i requires 0 <= i < |ps| => StandingOf(db, ch, ps[i]))
  }

  // ---------------------------------------------------------------------------------------
  // Ranking

  predicate RankedDesc(rs: seq<Standing>) {
    forall i, j :: 0 <= i < j < |rs| ==> rs[i].total >= rs[j].total
  }

  /** Inserts `x` before the first standing whose total is not higher. */
  function InsertRanked(x: Standing, rs: seq<Standing>): (r: seq<Standing>)
    requires RankedDesc(rs)
    ensures RankedDesc(r)
    ensures multiset(r) == multiset(rs) + multiset{x}
    ensures |r| == |rs| + 1
    ensures |rs| > 0 ==> r[0].total == (if x.total >= rs[0].total then x.total else rs[0].total)
  {
    if |rs| == 0 then [x]
    else if x.total >= rs[0].total then [x] + rs
    else
      var t := InsertRanked(x, rs[1..]);
      assert rs == [rs[0]] + rs[1..];
      [rs[0]] + t
  }

  /** Selects the standings with total `v`. */
  function WithTotal(v: real): Standing -> bool {
    (s: Standing) => s.total == v
  }

  /** Inserting `x` puts it ahead of the standings with the same total, and keeps their order. */
  lemma {:induction false} InsertRankedStable(x: Standing, rs: seq<Standing>, v: real)
    requires RankedDesc(rs)
    ensures Filter(InsertRanked(x, rs), WithTotal(v)) == (if x.total == v then [x] else []) + Filter(rs, WithTotal(v))
  {
    var p := WithTotal(v);
    if |rs| == 0 {
    } else if x.total >= rs[0].total {
      assert ([x] + rs)[1..] == rs;
    } else {
      InsertRankedStable(x, rs[1..], v);
      var t := InsertRanked(x, rs[1..]);
      assert ([rs[0]] + t)[1..] == t;
      assert Filter(rs, p) == (if p(rs[0]) then [rs[0]] else []) + Filter(rs[1..], p);
      assert p(rs[0]) ==> x.total != v;
    }
  }

  /** The ranking: highest total first, a stable sort (see `RankByScoreStable`). */
  function RankByScore(rs: seq<Standing>): (r: seq<Standing>)
    ensures RankedDesc(r)
    ensures multiset(r) == multiset(rs)
    ensures |r| == |rs|
  {
    if |rs| == 0 then []
    else
      var t := RankByScore(rs[1..]);
      assert rs == [rs[0]] + rs[1..];
      InsertRanked(rs[0], t)
  }

  /** The ranking is stable: the standings with any one total appear in it in their original
      order. */
  lemma {:induction false} RankByScoreStable(rs: seq<Standing>, v: real)
    ensures Filter(RankByScore(rs), WithTotal(v)) == Filter(rs, WithTotal(v))
  {
    if |rs| > 0 {
      var t := RankByScore(rs[1..]);
      RankByScoreStable(rs[1..], v);
      InsertRankedStable(rs[0], t, v);
      assert rs == [rs[0]] + rs[1..];
    }
  }

  function ParticipantIds(rs: seq<Standing>): (ids: seq<Id>)
    ensures |ids| == |rs|
    ensures forall i :: 0 <= i < |rs| ==> ids[i] == rs[i].participantId
  {
    seq(|rs|, i requires 0 <= i < |rs| => rs[i].participantId)
  }

  // ---------------------------------------------------------------------------------------
  // Results and payouts

  /** One private result per standing, with its payout from `pays`. */
  function ResultMessages(rs: seq<Standing>, pays: seq<real>): (ms: seq<Msg>)
    requires |pays| == |rs|
    ensures |ms| == |rs|
    ensures forall i :: 0 <= i < |rs| ==>
      ms[i] == Msg(rs[i].userId, FinalResult(rs[i].participantId, rs[i].isWinner, pays[i]))
  {
    seq(|rs|, i requires 0 <= i < |rs| => Msg(rs[i].userId, FinalResult(rs[i].participantId, rs[i].isWinner, pays[i])))
  }

  /** The money announced in a sequence of messages. */
  function PaidOut(ms: seq<Msg>): real {
    if |ms| == 0 then 0.0
    else (if ms[0].note.FinalResult? then ms[0].note.payout else 0.0) + PaidOut(ms[1..])
  }

  lemma {:induction false} PaidOutAppend(a: seq<Msg>, b: seq<Msg>)
    ensures PaidOut(a + b) == PaidOut(a) + PaidOut(b)
  {
    if |a| > 0 {
      assert (a + b)[1..] == a[1..] + b;
      PaidOutAppend(a[1..], b);
    } else {
      assert a + b == b;
    }
  }

  lemma {:induction false} PaidOutResults(rs: seq<Standing>, pays: seq<real>)
    requires |pays| == |rs|
    ensures PaidOut(ResultMessages(rs, pays)) == Sum(pays)
  {
    if |rs| > 0 {
      assert ResultMessages(rs, pays)[1..] == ResultMessages(rs[1..], pays[1..]);
      PaidOutResults(rs[1..], pays[1..]);
    }
  }

  /** Settles a challenge with at least one paying participant: the ranking to the group,
      then each participant's result. */
  function Announcements(ch: Challenge, rs: seq<Standing>): (ms: seq<Msg>)
    ensures |ms| == 1 + |rs|
    ensures ms[0] == Msg(ch.chatId, Ranking(ch.id, ParticipantIds(RankByScore(rs))))
    ensures forall i :: 0 <= i < |rs| ==>
      ms[1 + i] == Msg(rs[i].userId, FinalResult(rs[i].participantId, rs[i].isWinner,
        PayoutFor(Winners(rs), |rs| - Winners(rs), rs[i].isWinner, ch.stakeAmount)))
  {
    [RankingMsg(ch, rs)] + ResultMessages(rs, Payouts(rs, ch.stakeAmount))
  }

  /** The ranking sent to the group. */
  function RankingMsg(ch: Challenge, rs: seq<Standing>): Msg {
    Msg(ch.chatId, Ranking(ch.id, ParticipantIds(RankByScore(rs))))
  }

  /** The announcements are the ranking followed by the results. */
  lemma AnnouncementsParts(ch: Challenge, rs: seq<Standing>)
    ensures Announcements(ch, rs) == [RankingMsg(ch, rs)] + ResultMessages(rs, Payouts(rs, ch.stakeAmount))
  {
  }

  /** A message that announces no result adds nothing to the money announced. */
  lemma PaidOutAfterNotice(m: Msg, results: seq<Msg>)
    requires !m.note.FinalResult?
    ensures PaidOut([m] + results) == PaidOut(results)
  {
    assert ([m] + results)[1..] == results;
  }

  /** The payouts announced add up to the stakes collected, one per paying participant. */
  lemma {:induction false} AnnouncedPayoutsMatchStakes(ch: Challenge, rs: seq<Standing>)
    ensures PaidOut(Announcements(ch, rs)) == (|rs| as real) * ch.stakeAmount
  {
    AnnouncementsParts(ch, rs);
    PaidOutAfterRanking(RankingMsg(ch, rs), rs, ch.stakeAmount);
  }

  /** The results after a ranking announce the stakes collected. */
  lemma PaidOutAfterRanking(head: Msg, rs: seq<Standing>, stake: real)
    requires !head.note.FinalResult?
    ensures PaidOut([head] + ResultMessages(rs, Payouts(rs, stake))) == (|rs| as real) * stake
  {
    var results := ResultMessages(rs, Payouts(rs, stake));
    PaidOutAfterNotice(head, results);
    PaidOutResults(rs, Payouts(rs, stake));
    PayoutConservation(rs, stake);
  }

  function CompleteChallenge(db: Db, id: Id): (r: Db)
    ensures r == SetChallenge(db, id, (c: Challenge) => c.(status := ChallengeStatus.Completed))
  {
    SetChallenge(db, id, (c: Challenge) => c.(status := ChallengeStatus.Completed))
  }

  /** Settles challenge `ch` with its paying participants `paid`: announcements, the
      challenge completed, its active participants completed. */
  function Settle(db: Db, ch: Challenge, paid: seq<Participant>): (r: Db)
    ensures r.nextId == db.nextId && r.checkins == db.checkins && r.payments == db.payments && r.windows == db.windows
    ensures r.challenges == CompleteChallenge(db, ch.id).challenges
    ensures r.sent == db.sent + Announcements(ch, Standings(db, ch, paid))
    ensures |r.participants| == |db.participants|
    ensures forall i :: 0 <= i < |db.participants| ==>
      r.participants[i] == (if db.participants[i].challengeId == ch.id && db.participants[i].status == ParticipantStatus.Active
        then db.participants[i].(status := ParticipantStatus.Completed) else db.participants[i])
    ensures forall p :: p in r.participants ==> !(p.challengeId == ch.id && p.status == ParticipantStatus.Active)
    ensures CountersAgree(db.participants) ==> CountersAgree(r.participants)
  {
    var db2 := CompleteChallenge(Send(db, Announcements(ch, Standings(db, ch, paid))), ch.id);
    MapParticipants(db2, (p: Participant) =>
      if p.challengeId == ch.id && p.status == ParticipantStatus.Active then p.(status := ParticipantStatus.Completed) else p)
  }

  /** Ends one challenge at `now`: its open windows are closed at `now` without a roster;
      without a paying participant the challenge is only marked completed. */
  function FinishOne(db: Db, ch: Challenge, now: Ms): (r: Db)
    ensures r.nextId == db.nextId && r.checkins == db.checkins && r.payments == db.payments
    ensures |r.challenges| == |db.challenges|
    ensures forall i :: 0 <= i < |db.challenges| ==>
      r.challenges[i] == (if db.challenges[i].id == ch.id
        then db.challenges[i].(status := ChallengeStatus.Completed) else db.challenges[i])
    ensures |r.windows| == |db.windows|
    ensures forall i :: 0 <= i < |db.windows| && db.windows[i] in OpenWindowsOf(db, ch.id) ==>
      r.windows[i].status == Closed && r.windows[i].closesAt <= now
    ensures db.sent <= r.sent
    ensures CountersAgree(db.participants) ==> CountersAgree(r.participants)
  {
    var db1 := Sweeps.CloseEach(db, OpenWindowsOf(db, ch.id), false, Some(now));
    assert forall i :: 0 <= i < |db.windows| && db.windows[i] in OpenWindowsOf(db, ch.id) ==>
      db.windows[i].id in Sweeps.IdsOf(OpenWindowsOf(db, ch.id));
    Conclude(db1, ch)
  }

  /** What ending one challenge does to participants and messages, once its open windows are
      closed (which charges skips but sends nothing): without a paying participant no
      participant changes and nothing is sent; otherwise the results are announced and the
      challenge's active participants complete. */
  lemma FinishOneEffects(db: Db, ch: Challenge, now: Ms)
    ensures var db1 := Sweeps.CloseEach(db, OpenWindowsOf(db, ch.id), false, Some(now));
      var r := FinishOne(db, ch, now);
      && (|Paid(db1, ch.id)| == 0 ==> r.participants == db1.participants && r.sent == db.sent)
      && (|Paid(db1, ch.id)| > 0 ==>
        && r.sent == db.sent + Announcements(ch, Standings(db1, ch, Paid(db1, ch.id)))
        && |r.participants| == |db.participants|
        && forall i :: 0 <= i < |db.participants| ==>
             r.participants[i] == (if db1.participants[i].challengeId == ch.id && db1.participants[i].status == ParticipantStatus.Active
               then db1.participants[i].(status := ParticipantStatus.Completed) else db1.participants[i]))
  {
  }

  /** Ends challenge `ch` once its windows are closed: without a paying participant only the
      challenge is marked completed; otherwise it is settled. */
  function Conclude(db: Db, ch: Challenge): (r: Db)
    ensures r.nextId == db.nextId && r.checkins == db.checkins && r.payments == db.payments && r.windows == db.windows
    ensures r.challenges == CompleteChallenge(db, ch.id).challenges
    ensures db.sent <= r.sent
    ensures |Paid(db, ch.id)| == 0 ==> r.participants == db.participants && r.sent == db.sent
    ensures |Paid(db, ch.id)| > 0 ==>
      && r.sent == db.sent + Announcements(ch, Standings(db, ch, Paid(db, ch.id)))
      && |r.participants| == |db.participants|
      && forall i :: 0 <= i < |db.participants| ==>
           r.participants[i] == (if db.participants[i].challengeId == ch.id && db.participants[i].status == ParticipantStatus.Active
             then db.participants[i].(status := ParticipantStatus.Completed) else db.participants[i])
    ensures CountersAgree(db.participants) ==> CountersAgree(r.participants)
  {
    var paid := Paid(db, ch.id);
    if |paid| == 0 then CompleteChallenge(db, ch.id) else Settle(db, ch, paid)
  }

  function ChallengeIds(cs: seq<Challenge>): set<Id> {
    set c | c in cs :: c.id
  }

  /** Ends each challenge of `cs` in turn. */
  function FinishEach(db: Db, cs: seq<Challenge>, now: Ms): (r: Db)
    ensures r.nextId == db.nextId && r.checkins == db.checkins && r.payments == db.payments
    ensures |r.challenges| == |db.challenges|
    ensures forall i :: 0 <= i < |db.challenges| ==>
      r.challenges[i] == (if db.challenges[i].id in ChallengeIds(cs)
        then db.challenges[i].(status := ChallengeStatus.Completed) else db.challenges[i])
    ensures db.sent <= r.sent
    ensures CountersAgree(db.participants) ==> CountersAgree(r.participants)
    decreases |cs|
  {
    if |cs| == 0 then db
    else
      var db1 := FinishOne(db, cs[0], now);
      assert ChallengeIds(cs) == {cs[0].id} + ChallengeIds(cs[1..]);
      FinishEach(db1, cs[1..], now)
  }

  /** The end-of-challenge sweep: every active challenge whose end time has passed is
      completed, and no other challenge changes. */
  function FinalizeEnded(db: Db, now: Ms): (r: Db)
    ensures |r.challenges| == |db.challenges|
    ensures forall i :: 0 <= i < |db.challenges| && Ended(db.challenges[i], now) ==>
      r.challenges[i].status == ChallengeStatus.Completed
    ensures forall i :: 0 <= i < |db.challenges| ==>
      r.challenges[i].status == db.challenges[i].status || r.challenges[i].status == ChallengeStatus.Completed
    ensures UniqueBy(db.challenges, (c: Challenge) => c.id) ==>
      forall i :: 0 <= i < |db.challenges| && !Ended(db.challenges[i], now) ==> r.challenges[i] == db.challenges[i]
    ensures CountersAgree(db.participants) ==> CountersAgree(r.participants)
  {
    var ended := EndedChallenges(db, now);
    var r := FinishEach(db, ended, now);
    EndedAreCompleted(db.challenges, r.challenges, ended, now);
    r
  }

  /** Completing the challenges with the ids of the ended ones completes every ended
      challenge and leaves each other status as it was or completed. */
  lemma EndedAreCompleted(cs: seq<Challenge>, rs: seq<Challenge>, ended: seq<Challenge>, now: Ms)
    requires forall c :: c in ended <==> c in cs && Ended(c, now)
    requires |rs| == |cs|
    requires forall i :: 0 <= i < |cs| ==>
      rs[i] == (if cs[i].id in ChallengeIds(ended) then cs[i].(status := ChallengeStatus.Completed) else cs[i])
    ensures forall i :: 0 <= i < |cs| && Ended(cs[i], now) ==> rs[i].status == ChallengeStatus.Completed
    ensures forall i :: 0 <= i < |cs| ==> rs[i].status == cs[i].status || rs[i].status == ChallengeStatus.Completed
    ensures UniqueBy(cs, (c: Challenge) => c.id) ==>
      forall i :: 0 <= i < |cs| && !Ended(cs[i], now) ==> rs[i] == cs[i]
  {
    assert forall i :: 0 <= i < |cs| && Ended(cs[i], now) ==> cs[i] in ended;
    if UniqueBy(cs, (c: Challenge) => c.id) {
      forall i | 0 <= i < |cs| && !Ended(cs[i], now) ensures cs[i].id !in ChallengeIds(ended) {
        forall c | c in ended ensures c.id != cs[i].id {
          var j :| 0 <= j < |cs| && cs[j] == c;
          UniqueByRow(cs, (c: Challenge) => c.id, i, j);
        }
      }
    }
  }
}

=== FILE: habits.dfy ===
/** The private habit tracker message: for each habit a participant committed to, whether it
    is marked today, and for weekly habits how many times it was done this week; once the
    challenge has started, a running total of done days (daily habits) or completed weeks
    (weekly habits). Date keys ("YYYY-MM-DD" in the challenge's time zone) are modelled as
    day numbers: day 0 is 1970-01-01, a Thursday. */
module Habits {
  import opened Common
  import Md = TelegramMarkdown

  type Day = int

  // ---------------------------------------------------------------------------------------
  // Calendar arithmetic on date keys

  /** `getUTCDay`: 0 is Sunday, 1 Monday, ..., 6 Saturday. */
  function Weekday(d: Day): (w: nat)
    ensures w < 7
  {
    (d + 4) % 7
  }

  /** `getWeekStartKey`: steps back `(weekday + 6) % 7` days, to the Monday of the week. */
  function WeekStart(d: Day): (m: Day)
    ensures m <= d < m + 7
    ensures Weekday(m) == 1
  {
    d - (Weekday(d) + 6) % 7
  }

  /** Two days with the same weekday are a whole number of weeks apart. */
  lemma SameWeekdayApart(a: Day, b: Day)
    requires Weekday(a) == Weekday(b)
    ensures (a - b) % 7 == 0
  {
    assert a + 4 == 7 * ((a + 4) / 7) + Weekday(a);
    assert b + 4 == 7 * ((b + 4) / 7) + Weekday(b);
    assert a - b == 7 * ((a + 4) / 7 - (b + 4) / 7);
  }

  /** The week start is the only Monday among the seven days ending with `d`. */
  lemma MondayUnique(d: Day, m: Day)
    requires Weekday(m) == 1 && m <= d < m + 7
    ensures WeekStart(d) == m
  {
    var w := WeekStart(d);
    SameWeekdayApart(m, w);
    var q := (m - w) / 7;
    assert m - w == 7 * q;
  }

  /** Taking the week start twice changes nothing. */
  lemma WeekStartIdempotent(d: Day)
    ensures WeekStart(WeekStart(d)) == WeekStart(d)
  {
    MondayUnique(WeekStart(d), WeekStart(d));
  }

  /** Later days never have earlier week starts. */
  lemma WeekStartMonotone(a: Day, b: Day)
    requires a <= b
    ensures WeekStart(a) <= WeekStart(b)
  {
    if WeekStart(b) < WeekStart(a) {
      MondayUnique(b, WeekStart(a));
    }
  }

  /** `d` is in the week starting on Monday `m` exactly when `m` is its week start. */
  lemma InWeekIffWeekStart(d: Day, today: Day)
    ensures WeekStart(today) <= d <= AddDays(WeekStart(today), 6) <==> WeekStart(d) == WeekStart(today)
  {
    if WeekStart(today) <= d <= AddDays(WeekStart(today), 6) {
      MondayUnique(d, WeekStart(today));
    }
  }

  /** `addDaysToDateKey`: the key `n` calendar days later (earlier for negative `n`). */
  function AddDays(k: Day, n: int): (r: Day)
    ensures r - k == n
  {
    k + n
  }

  /** The current week runs from its Monday to the Sunday six days later, and contains today. */
  lemma CurrentWeek(today: Day)
    ensures Weekday(WeekStart(today)) == 1 && Weekday(AddDays(WeekStart(today), 6)) == 0
    ensures WeekStart(today) <= today <= AddDays(WeekStart(today), 6)
  {
  }

  predicate Between(s: Day, d: Day, e: Day) {
    s <= d <= e
  }

  /** The days from `s` to `e`, both included. */
  function DayRange(s: Day, e: Day): set<Day> {
    set d: Day | s <= d <= e && Between(s, d, e)
  }

  lemma {:induction false} DayRangeSize(s: Day, e: Day)
    ensures |DayRange(s, e)| == if e < s then 0 else e - s + 1
    decreases e - s
  {
    if e < s {
      assert DayRange(s, e) == {};
    } else {
      DayRangeSize(s, e - 1);
      assert DayRange(s, e) == DayRange(s, e - 1) + {e};
    }
  }

  /** `daysBetween`: how many calendar days lie from `s` to `e`, both included; none when
      `e` precedes `s`. */
  function DaysBetween(s: Day, e: Day): (n: nat)
    ensures n == |DayRange(s, e)|
  {
    DayRangeSize(s, e);
    if e < s then 0 else e - s + 1
  }

  /** The Monday-weeks the days from `s` to `e` fall in. */
  function WeeksTouched(s: Day, e: Day): set<Day> {
    set d: Day | s <= d <= e && Between(s, d, e) :: WeekStart(d)
  }

  /** Where the week start changes from one day to the next, the later day is a Monday and
      the earlier day's week started seven days before. */
  lemma NewMonday(e: Day)
    requires WeekStart(e) != WeekStart(e - 1)
    ensures WeekStart(e) == e && WeekStart(e - 1) == e - 7
  {
    if WeekStart(e) <= e - 1 {
      MondayUnique(e - 1, WeekStart(e));
    }
    assert Weekday(e - 7) == 1;
    MondayUnique(e - 1, e - 7);
  }

  lemma WeeksTouchedBelow(s: Day, e: Day)
    ensures forall m :: m in WeeksTouched(s, e) ==> m <= e
  {
    forall m | m in WeeksTouched(s, e) ensures m <= e {
      var d :| s <= d <= e && Between(s, d, e) && m == WeekStart(d);
    }
  }

  /** `weeksBetween`: compares the two week starts; none when the end's week precedes the
      start's week (a later day in the same week still counts one week). */
  function WeeksBetween(s: Day, e: Day): (n: nat)
    ensures n == 0 <==> WeekStart(e) < WeekStart(s)
    ensures s <= e ==> n == |WeeksTouched(s, e)|
  {
    var ws, we := WeekStart(s), WeekStart(e);
    var n := if we < ws then 0 else (we - ws) / 7 + 1;
    if s <= e then
      WeeksTouchedSize(s, e);
      var k := |WeeksTouched(s, e)| - 1;
      assert we - ws == 7 * k;
      n
    else n
  }

  /** The arithmetic of `weeksBetween` counts the weeks touched, one per new Monday. */
  lemma {:induction false} WeeksTouchedSize(s: Day, e: Day)
    requires s <= e
    ensures |WeeksTouched(s, e)| >= 1
    ensures WeekStart(e) - WeekStart(s) == 7 * (|WeeksTouched(s, e)| - 1)
    decreases e - s
  {
    if e == s {
      assert WeeksTouched(s, e) == {WeekStart(s)} by {
        assert Between(s, s, s);
      }
    } else {
      WeeksTouchedSize(s, e - 1);
      if WeekStart(e) == WeekStart(e - 1) {
        SameWeekStep(s, e);
      } else {
        NewWeekStep(s, e);
      }
    }
  }

  /** A day in the same week as the day before touches no new week. */
  lemma SameWeekStep(s: Day, e: Day)
    requires s < e && WeekStart(e) == WeekStart(e - 1)
    ensures WeeksTouched(s, e) == WeeksTouched(s, e - 1)
  {
    WeeksTouchedStep(s, e);
    assert Between(s, e - 1, e - 1);
    assert WeekStart(e) in WeeksTouched(s, e - 1);
  }

  /** A Monday touches one new week, seven days after the previous one. */
  lemma NewWeekStep(s: Day, e: Day)
    requires s < e && WeekStart(e) != WeekStart(e - 1)
    ensures |WeeksTouched(s, e)| == |WeeksTouched(s, e - 1)| + 1
    ensures WeekStart(e) == WeekStart(e - 1) + 7
  {
    WeeksTouchedStep(s, e);
    NewMonday(e);
    WeeksTouchedBelow(s, e - 1);
    assert WeekStart(e) !in WeeksTouched(s, e - 1);
  }

  lemma WeeksTouchedStep(s: Day, e: Day)
    requires s < e
    ensures WeeksTouched(s, e) == WeeksTouched(s, e - 1) + {WeekStart(e)}
  {
    assert Between(s, e, e);
    forall m | m in WeeksTouched(s, e) ensures m in WeeksTouched(s, e - 1) + {WeekStart(e)} {
      var d :| s <= d <= e && Between(s, d, e) && m == WeekStart(d);
      if d < e {
        assert Between(s, d, e - 1);
      }
    }
    forall m | m in WeeksTouched(s, e - 1) ensures m in WeeksTouched(s, e) {
      var d :| s <= d <= e - 1 && Between(s, d, e - 1) && m == WeekStart(d);
      assert Between(s, d, e);
    }
  }

  // ---------------------------------------------------------------------------------------
  // Logs and counts

  datatype LogStatus = Done | Skipped

  /** A row of the participant's habit log. */
  datatype Log = Log(templateId: Id, day: Day, status: LogStatus)

  type Id = nat

  /** At most one log per habit and day. */
  predicate UniqueLogs(logs: seq<Log>) {
    forall i, j :: 0 <= i < j < |logs| ==> !(logs[i].templateId == logs[j].templateId && logs[i].day == logs[j].day)
  }

  /** Today's status of a habit as `new Map(rows)` holds it: the last row for the day wins. */
  function TodayStatus(logs: seq<Log>, templateId: Id, today: Day): (r: Option<LogStatus>)
    ensures r.None? <==> forall i :: 0 <= i < |logs| ==> !(logs[i].templateId == templateId && logs[i].day == today)
    ensures r.Some? ==> exists i :: (&& 0 <= i < |logs| && logs[i].templateId == templateId && logs[i].day == today
      && logs[i].status == r.value
      && forall j :: i < j < |logs| ==> !(logs[j].templateId == templateId && logs[j].day == today))
    decreases |logs|
  {
    if |logs| == 0 then None
    else
      var n := |logs| - 1;
      if logs[n].templateId == templateId && logs[n].day == today then Some(logs[n].status)
      else
        var r := TodayStatus(logs[..n], templateId, today);
        assert forall i :: 0 <= i < n ==> logs[..n][i] == logs[i];
        r
  }

  /** A done log of habit `templateId` dated from `lo` to `hi`. */
  predicate DoneWithin(l: Log, templateId: Id, lo: Day, hi: Day) {
    l.templateId == templateId && l.status == Done && lo <= l.day <= hi
  }

  /** The days of a habit's done logs from `lo` to `hi`, in log order. */
  function DoneDays(logs: seq<Log>, templateId: Id, lo: Day, hi: Day): (r: seq<Day>)
    ensures |r| <= |logs|
    ensures hi < lo ==> r == []
    ensures forall x :: x in r ==> lo <= x <= hi
    ensures forall x :: x in r ==> exists i :: 0 <= i < |logs| && logs[i].templateId == templateId && logs[i].status == Done && logs[i].day == x
    ensures forall i :: 0 <= i < |logs| && DoneWithin(logs[i], templateId, lo, hi) ==> logs[i].day in r
  {
    if |logs| == 0 then []
    else
      var l := logs[0];
      var rest := DoneDays(logs[1..], templateId, lo, hi);
      assert forall i :: 0 <= i < |logs| - 1 ==> logs[1..][i] == logs[i + 1];
      var here: seq<Day> := if DoneWithin(l, templateId, lo, hi) then [l.day] else [];
      here + rest
  }

  /** The day of each log. */
  function LogDays(logs: seq<Log>): (r: seq<Day>)
    ensures |r| == |logs|
    ensures forall i :: 0 <= i < |logs| ==> r[i] == logs[i].day
  {
    seq(|logs|, i requires 0 <= i < |logs| => logs[i].day)
  }

  /** The done days are the days of exactly the habit's done logs in range, in log order and
      with repetitions, as the `where` query followed by taking each row's day gives them. */
  lemma {:induction false} DoneDaysIsQuery(logs: seq<Log>, templateId: Id, lo: Day, hi: Day)
    ensures DoneDays(logs, templateId, lo, hi) == LogDays(Filter(logs, (l: Log) => DoneWithin(l, templateId, lo, hi)))
  {
    if |logs| > 0 {
      var p := (l: Log) => DoneWithin(l, templateId, lo, hi);
      DoneDaysIsQuery(logs[1..], templateId, lo, hi);
      var head: seq<Log> := if p(logs[0]) then [logs[0]] else [];
      assert Filter(logs, p) == head + Filter(logs[1..], p);
      assert LogDays(head + Filter(logs[1..], p)) == LogDays(head) + LogDays(Filter(logs[1..], p));
    }
  }

  /** How many of a habit's done logs fall in the Monday-week `w`. */
  function DoneInWeek(logs: seq<Log>, templateId: Id, w: Day): nat {
    if |logs| == 0 then 0
    else
      var here := if logs[0].templateId == templateId && logs[0].status == Done && WeekStart(logs[0].day) == w then 1 else 0;
      here + DoneInWeek(logs[1..], templateId, w)
  }

  /** This week's count (done logs dated from Monday to Sunday) is the number of done logs
      whose week start is today's week start. */
  lemma {:induction false} WeekCountIsWeek(logs: seq<Log>, templateId: Id, today: Day)
    ensures |DoneDays(logs, templateId, WeekStart(today), AddDays(WeekStart(today), 6))| == DoneInWeek(logs, templateId, WeekStart(today))
  {
    if |logs| > 0 {
      InWeekIffWeekStart(logs[0].day, today);
      WeekCountIsWeek(logs[1..], templateId, today);
    }
  }

  /** With one log per habit and day, the done days are distinct. */
  lemma {:induction false} DoneDaysDistinct(logs: seq<Log>, templateId: Id, lo: Day, hi: Day)
    requires UniqueLogs(logs)
    ensures Distinct(DoneDays(logs, templateId, lo, hi))
  {
    if |logs| > 0 {
      var rest := DoneDays(logs[1..], templateId, lo, hi);
      DoneDaysDistinct(logs[1..], templateId, lo, hi);
      var l := logs[0];
      if l.templateId == templateId && l.status == Done && lo <= l.day <= hi {
        forall x | x in rest ensures x != l.day {
          var i :| 0 <= i < |logs[1..]| && logs[1..][i].templateId == templateId && logs[1..][i].status == Done && logs[1..][i].day == x;
          assert logs[i + 1] == logs[1..][i];
        }
        var r := [l.day] + rest;
        forall i, j | 0 <= i < j < |r| ensures r[i] != r[j] {
          if i == 0 {
            assert r[j] == rest[j - 1] && rest[j - 1] in rest;
          } else {
            assert r[i] == rest[i - 1] && r[j] == rest[j - 1];
          }
        }
      }
    }
  }

  /** A sequence without repeats has as many elements as its set of values. */
  lemma {:induction false} DistinctSize(s: seq<Day>)
    requires Distinct(s)
    ensures |set x | x in s| == |s|
  {
    if |s| > 0 {
      DistinctSize(s[1..]);
      assert (set x | x in s) == (set x | x in s[1..]) + {s[0]};
      assert s[0] !in s[1..] by {
        forall j | 0 <= j < |s[1..]| ensures s[1..][j] != s[0] {
          assert s[1..][j] == s[j + 1];
        }
      }
    }
  }

  lemma SubsetSize(a: set<Day>, b: set<Day>)
    requires a <= b
    ensures |a| <= |b|
  {
    assert b == a + (b - a);
  }

  /** A daily habit is never shown as done on more days than the challenge has run: with one
      log per habit and day, its done days from the start to today are at most `daysBetween`. */
  lemma DailyTotalBounded(logs: seq<Log>, templateId: Id, start: Day, today: Day)
    requires UniqueLogs(logs)
    ensures |DoneDays(logs, templateId, start, today)| <= DaysBetween(start, today)
  {
    var days := DoneDays(logs, templateId, start, today);
    DoneDaysDistinct(logs, templateId, start, today);
    DistinctSize(days);
    SubsetSize((set x | x in days), DayRange(start, today));
  }

  /** The per-week counts of a weekly habit (`perWeek`): a key for every week with a done
      log, holding how many of the days fall in it. */
  function PerWeek(days: seq<Day>): (m: map<Day, nat>)
    ensures m.Keys == set d | d in days :: WeekStart(d)
    ensures forall w :: w in m ==> m[w] == WeekOccurrences(days, w) && m[w] >= 1
    decreases |days|
  {
    if |days| == 0 then map[]
    else
      var n := |days| - 1;
      var prev := PerWeek(days[..n]);
      var w := WeekStart(days[n]);
      assert days == days[..n] + [days[n]];
      assert (set d | d in days :: WeekStart(d)) == (set d | d in days[..n] :: WeekStart(d)) + {w};
      prev[w := (if w in prev then prev[w] else 0) + 1]
  }

  /** How many of `days` fall in the Monday-week `w`. */
  function WeekOccurrences(days: seq<Day>, w: Day): (n: nat)
    ensures n > 0 ==> exists i :: 0 <= i < |days| && WeekStart(days[i]) == w
    decreases |days|
  {
    if |days| == 0 then 0
    else WeekOccurrences(days[..|days| - 1], w) + (if WeekStart(days[|days| - 1]) == w then 1 else 0)
  }

  /** `doneWeeks`: the weeks whose count reaches the target. */
  function DoneWeeks(perWeek: map<Day, nat>, target: int): (n: nat)
    ensures n <= |perWeek|
  {
    var done := set w | w in perWeek && perWeek[w] >= target;
    SubsetSize(done, perWeek.Keys);
    |done|
  }

  /** A weekly habit never has more completed weeks than the weeks from the start to today. */
  lemma WeeklyTotalBounded(logs: seq<Log>, templateId: Id, target: int, start: Day, today: Day)
    ensures DoneWeeks(PerWeek(DoneDays(logs, templateId, start, today)), target) <= WeeksBetween(start, today)
  {
    var days := DoneDays(logs, templateId, start, today);
    var m := PerWeek(days);
    if start <= today {
      forall w | w in m.Keys ensures w in WeeksTouched(start, today) {
        var d :| d in days && w == WeekStart(d);
        assert Between(start, d, today);
      }
      SubsetSize(m.Keys, WeeksTouched(start, today));
    }
  }

  /** A week counts as done exactly when its count reaches the target; with the default
      target of one, every week with a done log counts. */
  lemma WeekDoneIff(days: seq<Day>, target: int, w: Day)
    ensures w in (set v | v in PerWeek(days) && PerWeek(days)[v] >= target)
        <==> w in PerWeek(days) && WeekOccurrences(days, w) >= target
    ensures target <= 1 ==> DoneWeeks(PerWeek(days), target) == |PerWeek(days)|
  {
    var m := PerWeek(days);
    if target <= 1 {
      assert (set v | v in m && m[v] >= target) == m.Keys;
    }
  }

  // ---------------------------------------------------------------------------------------
  // The message

  datatype Cadence = Daily | Weekly

  /** A habit the participant committed to, as the template join returns it. */
  datatype Template = Template(id: Id, name: string, cadence: Cadence, targetPerWeek: Option<int>)

  datatype TodayMark = MarkedDone | MarkedSkipped | Unmarked

  function MarkOf(s: Option<LogStatus>): (m: TodayMark)
    ensures m == Unmarked <==> s.None?
  {
    match s
    case Some(Done) => MarkedDone
    case Some(Skipped) => MarkedSkipped
    case None => Unmarked
  }

  /** "done / out of" in a total. */
  datatype Total = Total(done: nat, outOf: nat)

  /** One line of the message, before it is rendered as text. */
  datatype Line =
    | DailyLine(number: nat, name: string, today: TodayMark, total: Option<Total>)
    | WeeklyLine(number: nat, name: string, today: TodayMark, weekCount: nat, target: int, total: Option<Total>)

  /** What the message is built from: the participant's logs, today's key and, once the
      challenge has started, the key of its start. */
  datatype Context = Context(logs: seq<Log>, today: Day, start: Option<Day>)

  function TotalDays(c: Context): nat {
    match c.start
    case None => 0
    case Some(s) => DaysBetween(s, c.today)
  }

  function TotalWeeks(c: Context): nat {
    match c.start
    case None => 0
    case Some(s) => WeeksBetween(s, c.today)
  }

  /** A habit's done days from the start to today; none before the start. */
  function DoneSinceStart(c: Context, templateId: Id): seq<Day> {
    match c.start
    case None => []
    case Some(s) => DoneDays(c.logs, templateId, s, c.today)
  }

  /** The weekly target: `targetPerWeek ?? 1`. */
  function Target(t: Template): int {
    t.targetPerWeek.GetOr(1)
  }

  /** The line of the `k`-th habit. */
  function HabitLine(k: nat, t: Template, c: Context): (l: Line)
    ensures l.number == k + 1 && l.name == Md.Escape(t.name)
    ensures l.today == MarkOf(TodayStatus(c.logs, t.id, c.today))
    ensures l.DailyLine? <==> t.cadence == Daily
    ensures l.DailyLine? ==> (l.total.Some? <==> TotalDays(c) > 0)
    ensures l.DailyLine? && l.total.Some? ==>
      l.total.value.outOf == TotalDays(c) && l.total.value.done == |DoneSinceStart(c, t.id)|
    ensures l.DailyLine? && l.total.Some? && UniqueLogs(c.logs) ==> l.total.value.done <= l.total.value.outOf
    ensures l.WeeklyLine? ==> && l.target == Target(t)
                              && l.weekCount == DoneInWeek(c.logs, t.id, WeekStart(c.today))
                              && (l.total.Some? <==> TotalWeeks(c) > 0)
    ensures l.WeeklyLine? && l.total.Some? ==> l.total.value.done <= l.total.value.outOf == TotalWeeks(c)
    ensures l.WeeklyLine? && l.total.Some? ==> l.total.value.done == DoneWeeks(PerWeek(DoneSinceStart(c, t.id)), Target(t))
  {
    var name := Md.EscapeTelegramMarkdown(t.name);
    var mark := MarkOf(TodayStatus(c.logs, t.id, c.today));
    var ws := WeekStart(c.today);
    match t.cadence
    case Weekly =>
      var weekCount := |DoneDays(c.logs, t.id, ws, AddDays(ws, 6))|;
      WeekCountIsWeek(c.logs, t.id, c.today);
      var days := DoneSinceStart(c, t.id);
      var total :=
        if TotalWeeks(c) > 0 then
          WeeklyTotalBounded(c.logs, t.id, Target(t), c.start.value, c.today);
          Some(Total(DoneWeeks(PerWeek(days), Target(t)), TotalWeeks(c)))
        else None;
      WeeklyLine(k + 1, name, mark, weekCount, Target(t), total)
    case Daily =>
      var total := if TotalDays(c) > 0 then Some(Total(|DoneSinceStart(c, t.id)|, TotalDays(c))) else None;
      if TotalDays(c) > 0 && UniqueLogs(c.logs) then
        DailyTotalBounded(c.logs, t.id, c.start.value, c.today);
        DailyLine(k + 1, name, mark, total)
      else DailyLine(k + 1, name, mark, total)
  }

  /** Telegram shows at most 32 characters of a button name here: a longer name keeps its
      first 29 characters and gets "...". */
  function ButtonName(name: string): (r: string)
    ensures |r| <= 32
    ensures |name| <= 32 ==> r == name
    ensures |name| > 32 ==> |r| == 32 && r[..29] == name[..29] && r[29..] == "..."
  {
    if |name| > 32 then name[..29] + "..." else name
  }

  /** What a button press reports back: the participant, the habit and the day. */
  datatype Callback = HabitDone(participantId: Id, templateId: Id, day: Day) | HabitSkip(participantId: Id, templateId: Id, day: Day)

  datatype Button = Button(text: string, data: Callback)

  /** The row of two buttons for a habit. */
  function ButtonRow(participantId: Id, t: Template, today: Day): (r: (Button, Button))
    ensures r.0.data == HabitDone(participantId, t.id, today) && r.1.data == HabitSkip(participantId, t.id, today)
    ensures r.0.text == "✅ " + ButtonName(t.name) && r.1.text == "❌ " + ButtonName(t.name)
  {
    (Button("✅ " + ButtonName(t.name), HabitDone(participantId, t.id, today)),
     Button("❌ " + ButtonName(t.name), HabitSkip(participantId, t.id, today)))
  }

  /** The participant row: `None` when no participant has the id; `start` is the key of the
      challenge's start once it has started. */
  datatype Row = Row(start: Option<Day>)

  datatype Message = NotFound | NoHabits | Habits(lines: seq<Line>, keyboard: seq<(Button, Button)>)

  /** `buildHabitsMessage` for participant `participantId` with the habits `templates`
      (ordered by template id) and the participant's logs. */
  function BuildMessage(participantId: Id, row: Option<Row>, templates: seq<Template>, logs: seq<Log>, today: Day): (m: Message)
    ensures m.NotFound? <==> row.None?
    ensures m.NoHabits? <==> row.Some? && |templates| == 0
    ensures m.Habits? ==> |m.lines| == |templates| == |m.keyboard|
    ensures m.Habits? ==> forall k :: 0 <= k < |templates| ==>
      && m.lines[k] == HabitLine(k, templates[k], Context(logs, today, row.value.start))
      && m.keyboard[k] == ButtonRow(participantId, templates[k], today)
  {
    match row
    case None => NotFound
    case Some(p) =>
      if |templates| == 0 then NoHabits
      else
        var c := Context(logs, today, p.start);
        Habits(seq(|templates|, k requires 0 <= k < |templates| => HabitLine(k, templates[k], c)),
               seq(|templates|, k requires 0 <= k < |templates| => ButtonRow(participantId, templates[k], today)))
  }

  /** The weekly habit of the repository's own example: a challenge started on Thursday
      2026-01-01 (day 20454); on Thursday 2026-01-15 (day 20468) the habit "three workouts a
      week" was done on Monday 12th, Tuesday 13th and Thursday 15th. The week shows 3 of 3,
      and one of the three weeks so far is complete. */
  lemma ThreeWorkoutsWeek(templateId: Id)
    ensures var t := Template(templateId, "Тренировка 3× в неделю", Weekly, Some(3));
      HabitLine(0, t, Context(WorkoutLogs(templateId), 20468, Some(20454)))
        == WeeklyLine(1, Md.Escape(t.name), MarkedDone, 3, 3, Some(Total(1, 3)))
  {
    var t := Template(templateId, "Тренировка 3× в неделю", Weekly, Some(3));
    var logs := WorkoutLogs(templateId);
    var c := Context(logs, 20468, Some(20454));
    WorkoutCalendar();
    WorkoutDays(templateId);
    WorkoutWeeks();
    assert TodayStatus(logs, templateId, 20468) == Some(Done);
    assert DoneSinceStart(c, templateId) == [20465, 20466, 20468];
    assert TotalWeeks(c) == 3;
    assert Target(t) == 3;
    var l := HabitLine(0, t, c);
    assert l.WeeklyLine?;
    assert l.weekCount == 3;
    assert l.total == Some(Total(1, 3));
  }

  function WorkoutLogs(templateId: Id): seq<Log> {
    [Log(templateId, 20465, Done), Log(templateId, 20466, Done), Log(templateId, 20468, Done)]
  }

  lemma WorkoutCalendar()
    ensures WeekStart(20468) == 20465 && AddDays(20465, 6) == 20471
    ensures WeeksBetween(20454, 20468) == 3
  {
    assert WeekStart(20468) == 20465 && WeekStart(20454) == 20451;
  }

  lemma WorkoutDays(templateId: Id)
    ensures DoneDays(WorkoutLogs(templateId), templateId, 20454, 20468) == [20465, 20466, 20468]
    ensures DoneDays(WorkoutLogs(templateId), templateId, 20465, 20471) == [20465, 20466, 20468]
  {
    var logs := WorkoutLogs(templateId);
    assert logs[1..] == [Log(templateId, 20466, Done), Log(templateId, 20468, Done)];
    assert logs[1..][1..] == [Log(templateId, 20468, Done)];
    assert logs[1..][1..][1..] == [];
    assert DoneDays(logs[1..][1..], templateId, 20454, 20468) == [20468];
    assert DoneDays(logs[1..], templateId, 20454, 20468) == [20466, 20468];
    assert DoneDays(logs[1..][1..], templateId, 20465, 20471) == [20468];
    assert DoneDays(logs[1..], templateId, 20465, 20471) == [20466, 20468];
  }

  lemma WorkoutWeeks()
    ensures PerWeek([20465, 20466, 20468]).Keys == {20465}
    ensures PerWeek([20465, 20466, 20468])[20465] == 3
    ensures DoneWeeks(PerWeek([20465, 20466, 20468]), 3) == 1
  {
    var days: seq<Day> := [20465, 20466, 20468];
    var m := PerWeek(days);
    WorkoutWeekKeys();
    WorkoutOccurrences();
    assert m.Keys == {20465};
    DoneWeeksSingle(m, 20465, 3);
  }

  /** A single week that reaches the target makes one completed week. */
  lemma DoneWeeksSingle(m: map<Day, nat>, w: Day, target: int)
    requires m.Keys == {w} && m[w] >= target
    ensures DoneWeeks(m, target) == 1
  {
    assert (set x | x in m && m[x] >= target) == {w};
  }

  lemma WorkoutWeekKeys()
    ensures (set d | d in [20465, 20466, 20468] :: WeekStart(d)) == {20465}
  {
    assert WeekStart(20465) == 20465 && WeekStart(20466) == 20465 && WeekStart(20468) == 20465;
  }

  lemma WorkoutOccurrences()
    ensures WeekOccurrences([20465, 20466, 20468], 20465) == 3
  {
    var days: seq<Day> := [20465, 20466, 20468];
    assert WeekStart(20465) == 20465 && WeekStart(20466) == 20465 && WeekStart(20468) == 20465;
    assert days[..2] == [20465, 20466] && days[..2][..1] == [20465] && days[..2][..1][..0] == [];
  }
}

=== FILE: onboarding.dfy ===
/** The private onboarding conversation: the entry guard, the measurements and start photos,
    the goal with its track-dependent direction and optional validation, the commitment
    selection, and the completion that opens the payment step. The participant's replies are
    inputs: each question receives the replies sent to it, in order, and a question whose
    replies run out before an acceptable one leaves the conversation waiting there. */
module Onboarding {
  import opened Common
  import opened Schema
  import opened Replies
  import Payments

  // ---------------------------------------------------------------------------------------
  // Entry

  datatype EntryRefusal = NotPrivateChat | NoAccess | AlreadyOnboarded

  /** Why onboarding of `participantId` by `user` does not start, if it does not. */
  function EntryRefusalOf(db: Db, participantId: Id, user: UserId, isPrivate: bool): Option<EntryRefusal> {
    if !isPrivate then Some(NotPrivateChat)
    else match FindParticipant(db, participantId)
    case None => Some(NoAccess)
    case Some(p) =>
      if p.userId != user then Some(NoAccess)
      else if p.status != Onboarding then Some(AlreadyOnboarded)
      else None
  }

  // ---------------------------------------------------------------------------------------
  // Numbers

  /** `readNumber` with the free-text reply to the resume prompt: that reply is taken when it
      is acceptable, otherwise the first acceptable reply to the question. */
  function ReadNumberPrefilled(prefill: Option<real>, replies: seq<Option<real>>, lo: real, hi: real): (r: Option<real>)
    ensures Accepted(prefill, lo, hi) ==> r == prefill
    ensures r.None? <==> !Accepted(prefill, lo, hi) && forall i :: 0 <= i < |replies| ==> !Accepted(replies[i], lo, hi)
    ensures r.Some? ==> InRange(r.value, lo, hi) && (r == prefill || exists i :: 0 <= i < |replies| && replies[i] == r)
  {
    if Accepted(prefill, lo, hi) then prefill
    else match ReadNumber(replies, lo, hi)
      case None => None
      case Some((x, _)) => Some(x)
  }

  // ---------------------------------------------------------------------------------------
  // Goal

  /** A cut goal loses weight; a bulk goal gains it. */
  predicate WeightGoalOk(track: Track, start: real, target: real) {
    match track
    case Cut => target < start
    case Bulk => target > start
  }

  /** A cut goal narrows the waist; a bulk goal may set any waist. */
  predicate WaistGoalOk(track: Track, start: real, target: real) {
    track == Cut ==> target < start
  }

  /** What the participant does while a goal number is asked. */
  datatype GoalEvent =
    | AcceptPressed                             // takes the recommended value
    | CustomPressed(replies: seq<Option<real>>) // then answers the number question
    | Typed(value: Option<real>)                // a text message, as `parseFloat` reads it
    | OtherButton

  datatype Step = Chosen(value: real) | Retry | Stuck

  /** One event's effect: a value that passes the track check ends the question; the
      recommended value is not range-checked. */
  function GoalStep(e: GoalEvent, recommended: real, lo: real, hi: real, ok: real -> bool): (s: Step)
    ensures s.Chosen? ==> ok(s.value) && (InRange(s.value, lo, hi) || (e.AcceptPressed? && s.value == recommended))
    ensures s.Stuck? <==> e.CustomPressed? && ReadNumber(e.replies, lo, hi).None?
    ensures e.AcceptPressed? ==> (s.Chosen? <==> ok(recommended))
    ensures e.Typed? ==> (s.Chosen? <==> Accepted(e.value, lo, hi) && ok(e.value.value))
  {
    match e
    case AcceptPressed => if ok(recommended) then Chosen(recommended) else Retry
    case CustomPressed(replies) =>
      (match ReadNumber(replies, lo, hi)
       case None => Stuck
       case Some((x, _)) => if ok(x) then Chosen(x) else Retry)
    case Typed(v) =>
      if v.None? then Retry
      else if v.value < lo || v.value > hi then Retry
      else if !ok(v.value) then Retry
      else Chosen(v.value)
    case OtherButton => Retry
  }

  /** `askGoalNumber`: the value of the first event that settles the question. */
  function AskGoalNumber(events: seq<GoalEvent>, recommended: real, lo: real, hi: real, ok: real -> bool): (r: Option<real>)
    ensures r.Some? ==> ok(r.value) && (InRange(r.value, lo, hi) || r.value == recommended)
    ensures r.Some? ==> exists i :: (0 <= i < |events| && GoalStep(events[i], recommended, lo, hi, ok) == Chosen(r.value)
      && forall j :: 0 <= j < i ==> GoalStep(events[j], recommended, lo, hi, ok) == Retry)
    ensures (forall i :: 0 <= i < |events| ==> GoalStep(events[i], recommended, lo, hi, ok) == Retry) ==> r.None?
    decreases |events|
  {
    if |events| == 0 then None
    else match GoalStep(events[0], recommended, lo, hi, ok)
      case Chosen(x) => Some(x)
      case Stuck => None
      case Retry =>
        var r := AskGoalNumber(events[1..], recommended, lo, hi, ok);
        assert r.Some? ==> exists i :: (1 <= i < |events| && GoalStep(events[i], recommended, lo, hi, ok) == Chosen(r.value)
          && forall j :: 1 <= j < i ==> GoalStep(events[j], recommended, lo, hi, ok) == Retry);
        r
  }

  /** The measurements a goal is judged against. */
  datatype Start = Start(track: Track, weight: real, waist: real)

  /** The recommended targets; their rounding is not part of this model. */
  datatype Recommendation = Recommendation(weight: real, waist: real)

  /** The validator's answer: unreachable (the call failed) or a verdict. */
  datatype LlmAnswer = Unavailable | Verdict(result: GoalVerdict)

  /** One pass of the goal questions: the events of the weight and the waist question, the
      validator's answer, and whether the participant keeps a disputed goal. */
  datatype GoalRound = GoalRound(weightEvents: seq<GoalEvent>, waistEvents: seq<GoalEvent>, answer: LlmAnswer, keep: bool)

  /** `askGoal`: a weight target, then a waist target, each in the direction of the track. */
  function AskGoal(s: Start, rec: Recommendation, round: GoalRound): (r: Option<(real, real)>)
    ensures r.Some? ==> WeightGoalOk(s.track, s.weight, r.value.0) && WaistGoalOk(s.track, s.waist, r.value.1)
    ensures r.Some? ==> InRange(r.value.0, WeightMin, WeightMax) || r.value.0 == rec.weight
    ensures r.Some? ==> InRange(r.value.1, WaistMin, WaistMax) || r.value.1 == rec.waist
  {
    match AskGoalNumber(round.weightEvents, rec.weight, WeightMin, WeightMax, (w: real) => WeightGoalOk(s.track, s.weight, w))
    case None => None
    case Some(w) =>
      match AskGoalNumber(round.waistEvents, rec.waist, WaistMin, WaistMax, (x: real) => WaistGoalOk(s.track, s.waist, x))
      case None => None
      case Some(x) => Some((w, x))
  }

  /** Disputed goals the participant may revise before one is accepted anyway. */
  const RevisionLimit: nat := 3

  /** A goal as stored: in the direction of the track, and validated exactly when it carries
      a verdict. */
  predicate GoalFits(s: Start, g: Goal) {
    && WeightGoalOk(s.track, s.weight, g.targetWeight)
    && WaistGoalOk(s.track, s.waist, g.targetWaist)
    && (g.isValidated <==> g.validationResult.Some?)
  }

  /** `askGoalWithValidation` after `revisions` disputed goals. */
  function ValidateFrom(hasLlm: bool, s: Start, rec: Recommendation, rounds: seq<GoalRound>, revisions: nat): (r: Option<Goal>)
    requires revisions < RevisionLimit
    ensures r.Some? ==> GoalFits(s, r.value)
    decreases |rounds|
  {
    if |rounds| == 0 then None
    else match AskGoal(s, rec, rounds[0])
    case None => None
    case Some((w, x)) =>
      if !hasLlm then Some(Goal(w, x, true, Some(Realistic)))
      else match rounds[0].answer
      case Unavailable => Some(Goal(w, x, false, None))
      case Verdict(v) =>
        if v == Realistic then Some(Goal(w, x, true, Some(v)))
        else if revisions + 1 >= RevisionLimit then Some(Goal(w, x, true, Some(v)))
        else if rounds[0].keep then Some(Goal(w, x, true, Some(v)))
        else ValidateFrom(hasLlm, s, rec, rounds[1..], revisions + 1)
  }

  /** The goal the conversation stores. Without a validator the first goal is accepted as
      realistic; when the validator cannot be reached it is accepted unvalidated. */
  function ValidateGoal(hasLlm: bool, s: Start, rec: Recommendation, rounds: seq<GoalRound>): (r: Option<Goal>)
    ensures r.Some? ==> GoalFits(s, r.value)
    ensures |rounds| > 0 && AskGoal(s, rec, rounds[0]).Some? && !hasLlm ==>
      r == Some(Goal(AskGoal(s, rec, rounds[0]).value.0, AskGoal(s, rec, rounds[0]).value.1, true, Some(Realistic)))
    ensures |rounds| > 0 && AskGoal(s, rec, rounds[0]).Some? && hasLlm && rounds[0].answer.Unavailable? ==>
      r == Some(Goal(AskGoal(s, rec, rounds[0]).value.0, AskGoal(s, rec, rounds[0]).value.1, false, None))
  {
    ValidateFrom(hasLlm, s, rec, rounds, 0)
  }

  /** Rounds after the last one the revision limit allows are never consulted. */
  lemma {:induction false} ValidationSettles(hasLlm: bool, s: Start, rec: Recommendation, rounds: seq<GoalRound>, revisions: nat)
    requires revisions < RevisionLimit
    requires |rounds| >= RevisionLimit - revisions
    ensures ValidateFrom(hasLlm, s, rec, rounds, revisions)
         == ValidateFrom(hasLlm, s, rec, rounds[..RevisionLimit - revisions], revisions)
  {
    var n := RevisionLimit - revisions;
    var short := rounds[..n];
    if revisions + 1 < RevisionLimit {
      ValidationSettles(hasLlm, s, rec, rounds[1..], revisions + 1);
      assert short[1..] == rounds[1..][..n - 1];
    }
    ValidateFromCongruent(hasLlm, s, rec, rounds, short, revisions);
  }

  /** One round at a time: sequences of rounds that agree on the first round, and whose
      remaining rounds validate alike, validate alike. */
  lemma ValidateFromCongruent(hasLlm: bool, s: Start, rec: Recommendation, a: seq<GoalRound>, b: seq<GoalRound>, revisions: nat)
    requires revisions < RevisionLimit
    requires |a| > 0 && |b| > 0 && a[0] == b[0]
    requires revisions + 1 < RevisionLimit ==>
      ValidateFrom(hasLlm, s, rec, a[1..], revisions + 1) == ValidateFrom(hasLlm, s, rec, b[1..], revisions + 1)
    ensures ValidateFrom(hasLlm, s, rec, a, revisions) == ValidateFrom(hasLlm, s, rec, b, revisions)
  {
  }

  /** A disputed goal the participant chooses to revise, before the limit, starts another
      round. */
  lemma DisputedGoalRevised(s: Start, rec: Recommendation, rounds: seq<GoalRound>, revisions: nat)
    requires revisions + 1 < RevisionLimit
    requires |rounds| > 0 && AskGoal(s, rec, rounds[0]).Some?
    requires rounds[0].answer.Verdict? && rounds[0].answer.result != Realistic && !rounds[0].keep
    ensures ValidateFrom(true, s, rec, rounds, revisions) == ValidateFrom(true, s, rec, rounds[1..], revisions + 1)
  {
  }

  /** A disputed goal at the revision limit is accepted, validated, with its verdict. */
  lemma DisputedGoalAtLimit(s: Start, rec: Recommendation, rounds: seq<GoalRound>, revisions: nat)
    requires revisions + 1 == RevisionLimit
    requires |rounds| > 0 && AskGoal(s, rec, rounds[0]).Some?
    requires rounds[0].answer.Verdict? && rounds[0].answer.result != Realistic
    ensures ValidateFrom(true, s, rec, rounds, revisions)
         == Some(Goal(AskGoal(s, rec, rounds[0]).value.0, AskGoal(s, rec, rounds[0]).value.1, true, Some(rounds[0].answer.result)))
  {
  }

  /** With a validator, a third disputed goal is accepted, validated, with its verdict. */
  lemma ThirdDisputedGoalAccepted(s: Start, rec: Recommendation, rounds: seq<GoalRound>)
    requires |rounds| >= 3
    requires AskGoal(s, rec, rounds[0]).Some? && AskGoal(s, rec, rounds[1]).Some? && AskGoal(s, rec, rounds[2]).Some?
    requires rounds[0].answer.Verdict? && rounds[0].answer.result != Realistic && !rounds[0].keep
    requires rounds[1].answer.Verdict? && rounds[1].answer.result != Realistic && !rounds[1].keep
    requires rounds[2].answer.Verdict? && rounds[2].answer.result != Realistic
    ensures ValidateGoal(true, s, rec, rounds)
         == Some(Goal(AskGoal(s, rec, rounds[2]).value.0, AskGoal(s, rec, rounds[2]).value.1, true, Some(rounds[2].answer.result)))
  {
    DisputedGoalRevised(s, rec, rounds, 0);
    var second := rounds[1..];
    assert second[0] == rounds[1];
    DisputedGoalRevised(s, rec, second, 1);
    var third := second[1..];
    assert third[0] == rounds[2];
    DisputedGoalAtLimit(s, rec, third, 2);
  }

  // ---------------------------------------------------------------------------------------
  // Commitments

  /** The integer tokens of a reply, in order; a token is `None` when `Number` does not read
      it as an integer. */
  function Integers(tokens: seq<Option<int>>): (r: seq<int>)
    ensures |r| <= |tokens|
    ensures forall x :: x in r <==> Some(x) in tokens
  {
    if |tokens| == 0 then []
    else (if tokens[0].Some? then [tokens[0].value] else []) + Integers(tokens[1..])
  }

  /** Reading a reply token by token: the integers of two runs of tokens are those of the
      first, then those of the second. */
  lemma {:induction false} IntegersAppend(a: seq<Option<int>>, b: seq<Option<int>>)
    ensures Integers(a + b) == Integers(a) + Integers(b)
  {
    if |a| == 0 {
      assert a + b == b;
    } else {
      assert (a + b)[1..] == a[1..] + b;
      IntegersAppend(a[1..], b);
    }
  }

  /** A single token gives its integer, or nothing. */
  lemma IntegersOfOne(t: Option<int>)
    ensures Integers([t]) == (if t.Some? then [t.value] else [])
  {
  }

  /** Two or three numbers, each naming a listed template. */
  predicate ValidChoice(unique: seq<int>, count: nat) {
    && (|unique| == 2 || |unique| == 3)
    && forall k :: 0 <= k < |unique| ==> 1 <= unique[k] <= count
  }

  /** The template ids a reply selects, or `None` when the reply is asked again. */
  function SelectCommitments(tokens: seq<Option<int>>, templateIds: seq<Id>): (r: Option<seq<Id>>)
    ensures r.Some? <==> ValidChoice(Dedup(Integers(tokens)), |templateIds|)
    ensures r.Some? ==> 2 <= |r.value| <= 3 && forall k :: 0 <= k < |r.value| ==> r.value[k] in templateIds
    ensures r.Some? && Distinct(templateIds) ==> Distinct(r.value)
  {
    var unique := Dedup(Integers(tokens));
    if ValidChoice(unique, |templateIds|) then
      Some(seq(|unique|, k requires 0 <= k < |unique| => templateIds[unique[k] - 1]))
    else None
  }

  /** The selection lists the template of each distinct number, in the order the numbers are
      first typed. */
  lemma SelectionFollowsFirstMention(tokens: seq<Option<int>>, templateIds: seq<Id>)
    requires SelectCommitments(tokens, templateIds).Some?
    ensures var nums := Integers(tokens);
      var u := Dedup(nums);
      var r := SelectCommitments(tokens, templateIds).value;
      && |r| == |u|
      && (forall k :: 0 <= k < |r| ==> r[k] == templateIds[u[k] - 1])
      && forall k, l :: 0 <= k < l < |u| ==> FirstIndex(nums, u[k]) < FirstIndex(nums, u[l])
  {
    DedupOrder(Integers(tokens));
  }

  /** Distinct numbers are taken as typed. */
  lemma DistinctSelection(tokens: seq<Option<int>>, templateIds: seq<Id>)
    requires Distinct(Integers(tokens)) && ValidChoice(Integers(tokens), |templateIds|)
    ensures var nums := Integers(tokens);
      SelectCommitments(tokens, templateIds) == Some(seq(|nums|, k requires 0 <= k < |nums| => templateIds[nums[k] - 1]))
  {
    var nums := Integers(tokens);
    DedupOfDistinct(nums, []);
    assert Dedup(nums) == DedupAfter(nums, []);
  }

  /** A repeated number counts once: "1 3 1" selects the first and third templates. */
  lemma RepeatedNumberCountsOnce(a: Id, b: Id, c: Id)
    ensures SelectCommitments([Some(1), Some(3), Some(1)], [a, b, c]) == Some([a, c])
  {
    var tokens: seq<Option<int>> := [Some(1), Some(3), Some(1)];
    OneThreeOneTokens();
    OneThreeOneDedup();
    assert ValidChoice([1, 3], 3);
    var ids := [a, b, c];
    var r := SelectCommitments(tokens, ids).value;
    assert |r| == 2 && r[0] == ids[0] && r[1] == ids[2];
    assert r == [a, c];
  }

  /** "1 3 1" reads as three numbers. */
  lemma OneThreeOneTokens()
    ensures Integers([Some(1), Some(3), Some(1)]) == [1, 3, 1]
  {
    var tokens: seq<Option<int>> := [Some(1), Some(3), Some(1)];
    assert tokens[1..] == [Some(3), Some(1)];
    assert tokens[1..][1..] == [Some(1)];
    assert |tokens[1..][1..][1..]| == 0;
  }

  /** Of "1 3 1" the repeated 1 is dropped. */
  lemma OneThreeOneDedup()
    ensures Dedup([1, 3, 1]) == [1, 3]
  {
    var nums: seq<int> := [1, 3, 1];
    var s3: seq<int>, s1: seq<int> := [3, 1], [1];
    assert DedupAfter(s1, [1, 3]) == [] by {
      assert 1 in [1, 3] && s1[1..] == [];
    }
    assert DedupAfter(s3, [1]) == [3] by {
      assert 3 !in [1] && s3[1..] == s1 && [1] + [3] == [1, 3];
    }
    assert nums[0] !in [] && nums[1..] == s3 && [] + [1] == [1];
    assert DedupAfter(nums, []) == [1, 3];
  }

  /** A number typed twice is one choice, too few: "2 2" is asked again. */
  lemma OneNumberTwiceRefused(a: Id, b: Id, c: Id)
    ensures SelectCommitments([Some(2), Some(2)], [a, b, c]) == None
  {
    var tokens: seq<Option<int>> := [Some(2), Some(2)];
    assert Integers(tokens) == [2, 2] by {
      assert tokens[1..] == [Some(2)];
      assert |tokens[1..][1..]| == 0;
    }
    var nums: seq<int> := [2, 2];
    assert DedupAfter(nums, []) == [2] by {
      assert nums[1..] == [2];
      assert nums[1..][1..] == [];
      assert DedupAfter([2], [2]) == [];
    }
    assert Dedup(nums) == [2];
  }

  /** `askCommitments`: the first reply that makes a valid selection. */
  function AskCommitments(replies: seq<seq<Option<int>>>, templateIds: seq<Id>): (r: Option<seq<Id>>)
    ensures r.None? <==> forall i :: 0 <= i < |replies| ==> SelectCommitments(replies[i], templateIds).None?
    ensures r.Some? ==> exists i :: (0 <= i < |replies| && SelectCommitments(replies[i], templateIds) == r
      && forall j :: 0 <= j < i ==> SelectCommitments(replies[j], templateIds).None?)
  {
    if |replies| == 0 then None
    else match SelectCommitments(replies[0], templateIds)
      case Some(ids) => Some(ids)
      case None =>
        var r := AskCommitments(replies[1..], templateIds);
        assert r.Some? ==> exists i :: (1 <= i < |replies| && SelectCommitments(replies[i], templateIds) == r
          && forall j :: 1 <= j < i ==> SelectCommitments(replies[j], templateIds).None?);
        r
  }

  // ---------------------------------------------------------------------------------------
  // Measurements and photos

  /** The answer to "continue or start over?", asked when the row already holds answers: a
      button, or a text reply that is carried to the next question. */
  datatype Resume = Continue | StartOver | Text(number: Option<real>)

  /** A photo id `if (id)` treats as present: an empty string is not. */
  predicate Present(o: Option<string>) {
    o.Some? && o.value != ""
  }

  /** The row holds an earlier answer, so the resume prompt is shown. */
  predicate HasAnyData(p: Participant) {
    || p.track.Some? || p.startWeight.Some? || p.startWaist.Some? || p.height.Some?
    || Present(p.startPhotos.front) || Present(p.startPhotos.left)
    || Present(p.startPhotos.right) || Present(p.startPhotos.back)
  }

  /** The profile columns emptied. */
  function Cleared(p: Participant): Participant {
    p.(track := None, startWeight := None, startWaist := None, height := None, startPhotos := NoPhotos)
  }

  /** "Start over": the profile columns are emptied and the goal, commitments and payment row
      deleted; status and join time stay. */
  function RestartProfile(db: Db, id: Id): (r: Db)
    ensures Touches(db, r, id)
    ensures r == db.(participants := r.participants, goals := r.goals, commitments := r.commitments, payments := r.payments)
    ensures FindParticipant(db, id).Some? ==> FindParticipant(r, id) == Some(Cleared(FindParticipant(db, id).value))
    ensures FindParticipant(r, id).Some? ==> !HasAnyData(FindParticipant(r, id).value)
    ensures r.goals == db.goals - {id} && r.payments == db.payments - {id}
    ensures Filter(r.commitments, Of(id)) == [] && Filter(r.commitments, NotOf(id)) == Filter(db.commitments, NotOf(id))
    ensures UniqueCommitments(db.commitments) ==> UniqueCommitments(r.commitments)
  {
    var f := (row: Participant) => if row.id == id then Cleared(row) else row;
    FindParticipantAfterMap(db, f, id);
    var kept := Filter(db.commitments, NotOf(id));
    ReplaceCommitments(db.commitments, id, []);
    assert kept + CommitmentRows(id, []) == kept;
    var r := MapParticipants(db, f).(goals := db.goals - {id}, commitments := kept, payments := db.payments - {id});
    if UniqueCommitments(db.commitments) then
      FilterUniqueBy(db.commitments, NotOf(id), (c: Commitment) => (c.participantId, c.templateId));
      r
    else r
  }

  /** Everything the participant sends during one run of the conversation. */
  datatype Answers = Answers(
    track: Option<Track>,               // the chosen track, `None` while unanswered
    resume: Resume,                     // the answer to the resume prompt, when it is shown
    weights: seq<Option<real>>,
    waists: seq<Option<real>>,
    heights: seq<Option<real>>,
    photos: Photos,                     // the start photos received, `None` while awaited
    recommendation: Recommendation,
    rounds: seq<GoalRound>,
    selections: seq<seq<Option<int>>>)

  /** A question is asked only when every earlier one is answered and its column is empty. */
  function Ask<T>(reached: bool, stored: Option<T>, answer: Option<T>): (r: Option<T>)
    ensures stored.Some? ==> r == stored
    ensures !reached ==> r == stored
  {
    if stored.Some? || !reached then stored else answer
  }

  /** The row after the track, measurement and photo questions, as far as the answers go.
      The resume reply reaches the weight question only when the track is already stored;
      otherwise the track question consumes it. */
  function Profile(p: Participant, a: Answers, prefill: Option<real>): (q: Participant)
    ensures q == p.(track := q.track, startWeight := q.startWeight, startWaist := q.startWaist,
                    height := q.height, startPhotos := q.startPhotos)
  {
    var track := Ask(true, p.track, a.track);
    var weight := Ask(track.Some?, p.startWeight,
      ReadNumberPrefilled(if p.track.Some? then prefill else None, a.weights, WeightMin, WeightMax));
    var waist := Ask(track.Some? && weight.Some?, p.startWaist,
      ReadNumberPrefilled(None, a.waists, WaistMin, WaistMax));
    var height := Ask(track.Some? && weight.Some? && waist.Some?, p.height,
      ReadNumberPrefilled(None, a.heights, HeightMin, HeightMax));
    var measured := track.Some? && weight.Some? && waist.Some? && height.Some?;
    var front := Ask(measured, p.startPhotos.front, a.photos.front);
    var left := Ask(measured && front.Some?, p.startPhotos.left, a.photos.left);
    var right := Ask(measured && front.Some? && left.Some?, p.startPhotos.right, a.photos.right);
    var back := Ask(measured && front.Some? && left.Some? && right.Some?, p.startPhotos.back, a.photos.back);
    p.(track := track, startWeight := weight, startWaist := waist, height := height,
       startPhotos := Photos(front, left, right, back))
  }

  /** Every profile column holds an answer. */
  predicate ProfileDone(p: Participant) {
    && p.track.Some? && p.startWeight.Some? && p.startWaist.Some? && p.height.Some?
    && p.startPhotos.front.Some? && p.startPhotos.left.Some? && p.startPhotos.right.Some? && p.startPhotos.back.Some?
  }

  /** Stored answers survive, fresh measurements lie in their ranges, and each question is
      answered only after the ones before it. */
  lemma ProfileAnswers(p: Participant, a: Answers, prefill: Option<real>)
    ensures var q := Profile(p, a, prefill);
      && (p.track.Some? ==> q.track == p.track)
      && (p.startWeight.Some? ==> q.startWeight == p.startWeight)
      && (p.startWaist.Some? ==> q.startWaist == p.startWaist)
      && (p.height.Some? ==> q.height == p.height)
      && (p.startPhotos.front.Some? ==> q.startPhotos.front == p.startPhotos.front)
      && (p.startPhotos.back.Some? ==> q.startPhotos.back == p.startPhotos.back)
      && (p.startWeight.None? && q.startWeight.Some? ==> q.track.Some? && InRange(q.startWeight.value, WeightMin, WeightMax))
      && (p.startWaist.None? && q.startWaist.Some? ==> q.startWeight.Some? && InRange(q.startWaist.value, WaistMin, WaistMax))
      && (p.height.None? && q.height.Some? ==> q.startWaist.Some? && InRange(q.height.value, HeightMin, HeightMax))
      && (p.startPhotos.back.None? && q.startPhotos.back.Some? ==> q.startPhotos.right.Some? && q.height.Some?)
  {
  }

  /** The profile columns of `q` written into row `row`. */
  function WithProfile(row: Participant, q: Participant): Participant {
    row.(track := q.track, startWeight := q.startWeight, startWaist := q.startWaist, height := q.height,
         startPhotos := q.startPhotos)
  }

  /** The profile updates `where id = participantId`. */
  function StoreProfile(db: Db, participantId: Id, q: Participant): (r: Db)
    ensures r == db.(participants := r.participants)
    ensures Touches(db, r, participantId)
    ensures FindParticipant(db, participantId).Some? ==>
      FindParticipant(r, participantId) == Some(WithProfile(FindParticipant(db, participantId).value, q))
  {
    var f := (row: Participant) => if row.id == participantId then WithProfile(row, q) else row;
    FindParticipantAfterMap(db, f, participantId);
    MapParticipants(db, f)
  }

  /** Two versions of a row with the same keys and check-in counters. */
  predicate SameKeys(a: Participant, b: Participant) {
    && a.id == b.id && a.challengeId == b.challengeId && a.userId == b.userId
    && a.totalCheckins == b.totalCheckins && a.completedCheckins == b.completedCheckins
    && a.skippedCheckins == b.skippedCheckins
  }

  /** `r` differs from `db` only in participant `id`'s non-key columns and in the goals,
      commitments and payments. */
  predicate Touches(db: Db, r: Db, id: Id) {
    && r.challenges == db.challenges && r.windows == db.windows && r.checkins == db.checkins
    && r.elections == db.elections && r.votes == db.votes && r.sent == db.sent && r.nextId == db.nextId
    && |r.participants| == |db.participants|
    && (forall i :: 0 <= i < |db.participants| ==> SameKeys(db.participants[i], r.participants[i]))
    && forall i :: 0 <= i < |db.participants| && db.participants[i].id != id ==> r.participants[i] == db.participants[i]
  }

  /** A participant's row stays findable across such a change, with the same keys. */
  lemma FindAfterTouches(db: Db, r: Db, id: Id)
    requires Touches(db, r, id)
    ensures FindParticipant(r, id).Some? <==> FindParticipant(db, id).Some?
    ensures FindParticipant(db, id).Some? ==> SameKeys(FindParticipant(db, id).value, FindParticipant(r, id).value)
  {
    FindSameIndex(db.participants, r.participants, (p: Participant) => p.id == id);
  }

  lemma TouchesTrans(a: Db, b: Db, c: Db, id: Id)
    requires Touches(a, b, id) && Touches(b, c, id)
    ensures Touches(a, c, id)
  {
  }

  /** Such a change keeps every declared constraint whose tables it leaves alone. */
  lemma TouchesKeepsValid(db: Db, r: Db, id: Id)
    requires Valid(db) && Touches(db, r, id) && UniqueCommitments(r.commitments)
    ensures Valid(r)
  {
    var ps, qs := db.participants, r.participants;
    assert forall i :: 0 <= i < |ps| ==> qs[i].id == ps[i].id && qs[i].challengeId == ps[i].challengeId && qs[i].userId == ps[i].userId;
    assert UniqueBy(qs, (p: Participant) => p.id) by {
      forall i, j | 0 <= i < j < |qs| ensures qs[i].id != qs[j].id {
        assert ps[i].id != ps[j].id;
      }
    }
    assert UniqueMembers(qs) by {
      forall i, j | 0 <= i < j < |qs| ensures (qs[i].challengeId, qs[i].userId) != (qs[j].challengeId, qs[j].userId) {
        assert (ps[i].challengeId, ps[i].userId) != (ps[j].challengeId, ps[j].userId);
      }
    }
  }

  // ---------------------------------------------------------------------------------------
  // Completion

  /** The payment row a finished onboarding leaves: pending, nothing marked or confirmed. */
  const FreshPayment := Payment(Pending, None, None, None)

  function Of(participantId: Id): Commitment -> bool {
    (c: Commitment) => c.participantId == participantId
  }

  function NotOf(participantId: Id): Commitment -> bool {
    (c: Commitment) => c.participantId != participantId
  }

  function CommitmentRows(participantId: Id, templateIds: seq<Id>): (cs: seq<Commitment>)
    ensures |cs| == |templateIds|
    ensures forall k :: 0 <= k < |cs| ==> cs[k] == Commitment(participantId, templateIds[k])
  {
    seq(|templateIds|, k requires 0 <= k < |templateIds| => Commitment(participantId, templateIds[k]))
  }

  /** A finished onboarding: the participant owes the stake from `now`, their commitments are
      replaced by the selection and their payment row starts over. */
  function Complete(db: Db, participantId: Id, templateIds: seq<Id>, now: Ms): (r: Db)
    ensures r == db.(participants := r.participants, commitments := r.commitments, payments := r.payments)
    ensures |r.participants| == |db.participants|
    ensures forall i :: 0 <= i < |db.participants| ==>
      r.participants[i] == (if db.participants[i].id == participantId
        then db.participants[i].(status := PendingPayment, onboardingCompletedAt := Some(now))
        else db.participants[i])
    ensures FindParticipant(r, participantId).Some? <==> FindParticipant(db, participantId).Some?
    ensures FindParticipant(db, participantId).Some? ==>
      FindParticipant(r, participantId).value
        == FindParticipant(db, participantId).value.(status := PendingPayment, onboardingCompletedAt := Some(now))
    ensures r.payments == db.payments[participantId := FreshPayment]
    ensures Filter(r.commitments, Of(participantId)) == CommitmentRows(participantId, templateIds)
    ensures Filter(r.commitments, NotOf(participantId)) == Filter(db.commitments, NotOf(participantId))
    ensures Distinct(templateIds) && UniqueCommitments(db.commitments) ==> UniqueCommitments(r.commitments)
  {
    var f := (row: Participant) =>
      if row.id == participantId then row.(status := PendingPayment, onboardingCompletedAt := Some(now)) else row;
    var db1 := MapParticipants(db, f);
    FindParticipantAfterMap(db, f, participantId);
    var kept := Filter(db.commitments, NotOf(participantId));
    var mine := CommitmentRows(participantId, templateIds);
    ReplaceCommitments(db.commitments, participantId, templateIds);
    if Distinct(templateIds) && UniqueCommitments(db.commitments) then
      ReplaceCommitmentsUnique(db.commitments, participantId, templateIds);
      db1.(commitments := kept + mine, payments := db.payments[participantId := FreshPayment])
    else
      db1.(commitments := kept + mine, payments := db.payments[participantId := FreshPayment])
  }

  /** Replacing a participant's commitments leaves exactly the new ones to them and the
      others' untouched. */
  lemma ReplaceCommitments(cs: seq<Commitment>, participantId: Id, templateIds: seq<Id>)
    ensures var kept := Filter(cs, NotOf(participantId));
      var mine := CommitmentRows(participantId, templateIds);
      && Filter(kept + mine, Of(participantId)) == mine
      && Filter(kept + mine, NotOf(participantId)) == kept
  {
    var own := Of(participantId);
    var others := NotOf(participantId);
    var kept := Filter(cs, others);
    var mine := CommitmentRows(participantId, templateIds);
    assert Filter(kept, own) == [] && Filter(kept, others) == kept by {
      forall i | 0 <= i < |kept| ensures others(kept[i]) && !own(kept[i]) {
        assert kept[i] in kept;
      }
      FilterAllOrNone(kept, own);
      FilterAllOrNone(kept, others);
    }
    assert Filter(mine, own) == mine && Filter(mine, others) == [] by {
      FilterAllOrNone(mine, own);
      FilterAllOrNone(mine, others);
    }
    FilterAppend(kept, mine, own);
    assert [] + mine == mine;
    FilterAppend(kept, mine, others);
    assert kept + [] == kept;
  }

  /** The replacement keeps (participant, template) pairs unique when the selected templates
      are distinct. */
  lemma ReplaceCommitmentsUnique(cs: seq<Commitment>, participantId: Id, templateIds: seq<Id>)
    requires Distinct(templateIds) && UniqueCommitments(cs)
    ensures UniqueCommitments(Filter(cs, NotOf(participantId)) + CommitmentRows(participantId, templateIds))
  {
    var key := (c: Commitment) => (c.participantId, c.templateId);
    var kept := Filter(cs, NotOf(participantId));
    var mine := CommitmentRows(participantId, templateIds);
    FilterUniqueBy(cs, NotOf(participantId), key);
    assert UniqueBy(mine, key);
    forall i, j | 0 <= i < |kept| && 0 <= j < |mine| ensures key(kept[i]) != key(mine[j]) {
      assert kept[i] in kept;
    }
    UniqueByAppend(kept, mine, key);
  }

  // ---------------------------------------------------------------------------------------
  // The conversation

  datatype Outcome = Refused(why: EntryRefusal) | Waiting(db: Db) | Finished(db: Db)

  /** A participant who finished onboarding at `now`: profile complete, stake owed, goal in
      the direction of the track, two or three commitments, payment row fresh. */
  predicate Onboarded(db: Db, participantId: Id, now: Ms) {
    && FindParticipant(db, participantId).Some?
    && var p := FindParticipant(db, participantId).value;
    && p.status == PendingPayment
    && p.onboardingCompletedAt == Some(now)
    && ProfileDone(p)
    && participantId in db.goals
    && GoalFits(Start(p.track.value, p.startWeight.value, p.startWaist.value), db.goals[participantId])
    && participantId in db.payments && db.payments[participantId] == FreshPayment
    && 2 <= |Filter(db.commitments, Of(participantId))| <= 3
  }

  /** The measurements a stored profile sets the goal against. */
  function StartOf(p: Participant): Start
    requires p.track.Some? && p.startWeight.Some? && p.startWaist.Some?
  {
    Start(p.track.value, p.startWeight.value, p.startWaist.value)
  }

  /** The last writes of the conversation: the goal, then the commitments, the status and the
      payment row. */
  function Finish(db: Db, id: Id, row: Participant, g: Goal, templateIds: seq<Id>, now: Ms): (r: Db)
    requires FindParticipant(db, id) == Some(row) && ProfileDone(row)
    requires GoalFits(StartOf(row), g) && 2 <= |templateIds| <= 3
    ensures Onboarded(r, id, now)
    ensures Touches(db, r, id)
    ensures Distinct(templateIds) && UniqueCommitments(db.commitments) ==> UniqueCommitments(r.commitments)
  {
    var db1 := db.(goals := db.goals[id := g]);
    assert FindParticipant(db1, id) == Some(row);
    Complete(db1, id, templateIds, now)
  }

  /** Whether the participant starts over at the resume prompt. */
  predicate Restarts(p: Participant, a: Answers) {
    HasAnyData(p) && a.resume.StartOver?
  }

  /** The number a text reply to the resume prompt carries to the next question. */
  function Prefill(p: Participant, a: Answers): Option<real> {
    if HasAnyData(p) && a.resume.Text? then a.resume.number else None
  }

  /** The row the questions start from. */
  function Resumed(p: Participant, a: Answers): Participant {
    if Restarts(p, a) then Cleared(p) else p
  }

  /** The store after the conversation once the entry guard has passed. */
  function Proceed(db: Db, p: Participant, a: Answers, hasLlm: bool, templateIds: seq<Id>, now: Ms): (r: Outcome)
    requires FindParticipant(db, p.id) == Some(p)
    ensures !r.Refused? && Touches(db, r.db, p.id)
    ensures r.Waiting? && !Restarts(p, a) ==> r.db.payments == db.payments && r.db.commitments == db.commitments
    ensures r.Waiting? && Restarts(p, a) ==> r.db.payments == db.payments - {p.id} && Filter(r.db.commitments, Of(p.id)) == []
    ensures r.Waiting? ==> FindParticipant(r.db, p.id) == Some(WithProfile(Resumed(p, a), Profile(Resumed(p, a), a, Prefill(p, a))))
    ensures r.Finished? ==> Onboarded(r.db, p.id, now)
    ensures UniqueCommitments(db.commitments) && (r.Finished? ==> Distinct(templateIds)) ==> UniqueCommitments(r.db.commitments)
  {
    var p0 := Resumed(p, a);
    var db0 := if Restarts(p, a) then RestartProfile(db, p.id) else db;
    var q := Profile(p0, a, Prefill(p, a));
    var db1 := StoreProfile(db0, p.id, q);
    TouchesTrans(db, db0, db1, p.id);
    var r := Conclude(db1, p.id, WithProfile(p0, q), a, hasLlm, templateIds, now);
    TouchesTrans(db, db1, r.db, p.id);
    r
  }

  /** The goal and the commitments, once the profile of `row` is stored: the conversation
      waits unless all three steps are done, and the only write while it waits is the goal. */
  function Conclude(db: Db, id: Id, row: Participant, a: Answers, hasLlm: bool, templateIds: seq<Id>, now: Ms): (r: Outcome)
    requires FindParticipant(db, id) == Some(row)
    ensures !r.Refused? && Touches(db, r.db, id)
    ensures r.Waiting? ==> r.db.payments == db.payments && r.db.commitments == db.commitments
    ensures r.Waiting? ==> FindParticipant(r.db, id) == Some(row)
    ensures r.Finished? ==> ProfileDone(row) && Onboarded(r.db, id, now)
    ensures UniqueCommitments(db.commitments) && (r.Finished? ==> Distinct(templateIds)) ==> UniqueCommitments(r.db.commitments)
  {
    if !ProfileDone(row) then Waiting(db)
    else
      match ValidateGoal(hasLlm, StartOf(row), a.recommendation, a.rounds)
      case None => Waiting(db)
      case Some(g) =>
        match AskCommitments(a.selections, templateIds)
        case None =>
          var r := db.(goals := db.goals[id := g]);
          assert FindParticipant(r, id) == Some(row);
          Waiting(r)
        case Some(ids) =>
          Finished(Finish(db, id, row, g, ids, now))
  }

  /** The onboarding conversation of `participantId`, started by `user`. */
  function Onboard(db: Db, participantId: Id, user: UserId, isPrivate: bool, a: Answers, hasLlm: bool, templateIds: seq<Id>, now: Ms): (r: Outcome)
    ensures r.Refused? <==> EntryRefusalOf(db, participantId, user, isPrivate).Some?
    ensures r.Refused? ==> r.why == EntryRefusalOf(db, participantId, user, isPrivate).value
    ensures !r.Refused? ==> FindParticipant(db, participantId).Some? && FindParticipant(db, participantId).value.userId == user
    ensures r.Finished? ==> Onboarded(r.db, participantId, now)
    ensures r.Waiting? ==>
      && FindParticipant(r.db, participantId).Some?
      && FindParticipant(r.db, participantId).value.status == Onboarding
      && (r.db.payments == db.payments || r.db.payments == db.payments - {participantId})
    ensures !r.Refused? ==> Touches(db, r.db, participantId)
    ensures !r.Refused? && Valid(db) && Distinct(templateIds) ==> Valid(r.db)
  {
    match EntryRefusalOf(db, participantId, user, isPrivate)
    case Some(why) => Refused(why)
    case None =>
      var p := FindParticipant(db, participantId).value;
      var r := Proceed(db, p, a, hasLlm, templateIds, now);
      if Valid(db) && Distinct(templateIds) then
        TouchesKeepsValid(db, r.db, participantId);
        r
      else r
  }

  /** Onboarding runs once: afterwards it is refused as already done. */
  lemma OnboardingRunsOnce(db: Db, participantId: Id, user: UserId, a: Answers, b: Answers, hasLlm: bool, templateIds: seq<Id>, now: Ms)
    requires Onboard(db, participantId, user, true, a, hasLlm, templateIds, now).Finished?
    ensures Onboard(Onboard(db, participantId, user, true, a, hasLlm, templateIds, now).db, participantId, user, true, b, hasLlm, templateIds, now)
         == Refused(AlreadyOnboarded)
  {
    var out := Onboard(db, participantId, user, true, a, hasLlm, templateIds, now);
    FindAfterTouches(db, out.db, participantId);
    assert EntryRefusalOf(out.db, participantId, user, true) == Some(AlreadyOnboarded);
  }

  /** A finished participant can press "paid" for their own stake. */
  lemma FinishedCanPay(db: Db, participantId: Id, user: UserId, a: Answers, hasLlm: bool, templateIds: seq<Id>, now: Ms)
    requires Onboard(db, participantId, user, true, a, hasLlm, templateIds, now).Finished?
    requires FindChallenge(db, FindParticipant(db, participantId).value.challengeId).Some?
    ensures Payments.MarkPaidRefusal(Onboard(db, participantId, user, true, a, hasLlm, templateIds, now).db, participantId, user, true).None?
  {
    var out := Onboard(db, participantId, user, true, a, hasLlm, templateIds, now);
    FindAfterTouches(db, out.db, participantId);
    var p := FindParticipant(out.db, participantId).value;
    assert p.userId == user && p.status == PendingPayment;
    assert out.db.challenges == db.challenges;
  }
}

=== FILE: participation.dfy ===
/** Taking part: joining a challenge from the group, pressing the check-in button, and
    submitting a check-in in the private conversation. */
module Participation {
  import opened Common
  import opened Schema
  import opened Replies
  import Sweeps
  import WindowClosing

  // ---------------------------------------------------------------------------------------
  // Joining

  datatype JoinRefusal = NotFound | EnrolmentClosed | InAnotherChallenge | OnboardingStarted | AlreadyJoined

  /** Some challenge row with this id is live. */
  predicate ChallengeIsLive(db: Db, challengeId: Id) {
    exists i :: 0 <= i < |db.challenges| && db.challenges[i].id == challengeId && LiveChallenge(db.challenges[i].status)
  }

  /** A live participation of `user` in a live challenge. */
  predicate Engaged(db: Db, p: Participant, user: UserId) {
    p.userId == user && LiveParticipation(p.status) && ChallengeIsLive(db, p.challengeId)
  }

  /** The participation that keeps `user` from joining another challenge: the first live one
      in a live challenge. */
  function Engagement(db: Db, user: UserId): (r: Option<Participant>)
    ensures r.Some? ==> r.value in db.participants && Engaged(db, r.value, user)
    ensures r.None? ==> forall p :: p in db.participants ==> !Engaged(db, p, user)
  {
    Find(db.participants, (p: Participant) => Engaged(db, p, user))
  }

  /** Why pressing "join" on challenge `challengeId` from `chatId` is refused, if it is. */
  function JoinRefusalOf(db: Db, challengeId: Id, user: UserId, chatId: ChatId): Option<JoinRefusal> {
    match FindChallenge(db, challengeId)
    case None => Some(NotFound)
    case Some(c) =>
      if c.chatId != chatId then Some(NotFound)
      else if c.status != Draft && c.status != PendingPayments then Some(EnrolmentClosed)
      else if Engagement(db, user).Some? && Engagement(db, user).value.challengeId != challengeId then Some(InAnotherChallenge)
      else match FindMember(db, challengeId, user)
        case None => None
        case Some(p) =>
          if p.status == Onboarding then Some(OnboardingStarted)
          else if p.status != Dropped then Some(AlreadyJoined)
          else None
  }

  /** A dropped participant's row made ready for a new onboarding, as written: metrics, photos
      and the completion time are cleared, the join time is not. */
  function ResetAsWritten(p: Participant): Participant {
    p.(status := Onboarding, track := None, startWeight := None, startWaist := None, height := None,
       startPhotos := NoPhotos, onboardingCompletedAt := None)
  }

  /** The same with the join time moved to the new join. */
  function Reset(p: Participant, now: Ms): Participant {
    ResetAsWritten(p).(joinedAt := now)
  }

  /** Rejoining: the participant's row is reset by `reset` and their goal, commitments and
      payment are deleted. */
  function Rejoin(db: Db, id: Id, reset: Participant -> Participant): (r: Db)
    ensures |r.participants| == |db.participants|
    ensures forall i :: 0 <= i < |db.participants| ==>
      r.participants[i] == (if db.participants[i].id == id then reset(db.participants[i]) else db.participants[i])
    ensures r == db.(participants := r.participants, goals := r.goals, commitments := r.commitments, payments := r.payments)
    ensures id !in r.goals && id !in r.payments && forall c :: c in r.commitments ==> c.participantId != id
    ensures forall k :: k in db.payments && k != id ==> k in r.payments && r.payments[k] == db.payments[k]
  {
    var db1 := MapParticipants(db, (p: Participant) => if p.id == id then reset(p) else p);
    db1.(goals := db.goals - {id}, payments := db.payments - {id},
         commitments := Filter(db.commitments, (c: Commitment) => c.participantId != id))
  }

  /** A first join: a new row in onboarding since `now`. */
  function Admit(db: Db, challengeId: Id, user: UserId, now: Ms): (r: Db)
    ensures r == db.(participants := r.participants, nextId := db.nextId + 1)
    ensures r.participants == db.participants + [NewParticipant(db.nextId, challengeId, user, now)]
  {
    db.(participants := db.participants + [NewParticipant(db.nextId, challengeId, user, now)], nextId := db.nextId + 1)
  }

  /** The outcome of pressing "join": the refusal, if any, and the store afterwards. */
  datatype Pressed = Pressed(refusal: Option<JoinRefusal>, db: Db) {
    predicate Joined() { refusal.None? }
  }

  /** The store after a refused press: a user whose onboarding has already started is sent
      a private reminder to continue it; any other refusal is only answered in the group. */
  function Refuse(db: Db, user: UserId, why: JoinRefusal): (r: Db)
    ensures why == OnboardingStarted ==> r == db.(sent := db.sent + [Msg(user, ContinueOnboarding)])
    ensures why != OnboardingStarted ==> r == db
  {
    if why == OnboardingStarted then Send(db, [Msg(user, ContinueOnboarding)]) else db
  }

  /** The join with the row reset chosen by `reset`. */
  function JoinWith(db: Db, challengeId: Id, user: UserId, chatId: ChatId, now: Ms, reset: Participant -> Participant): (r: Pressed)
    ensures r.refusal == JoinRefusalOf(db, challengeId, user, chatId)
    ensures r.refusal == Some(OnboardingStarted) ==> r.db == db.(sent := db.sent + [Msg(user, ContinueOnboarding)])
    ensures r.refusal.Some? && r.refusal != Some(OnboardingStarted) ==> r.db == db
    ensures r.Joined() && FindMember(db, challengeId, user).Some? ==>
      r.db == Send(Rejoin(db, FindMember(db, challengeId, user).value.id, reset), [Msg(user, JoinedPleaseStart(challengeId))])
    ensures r.Joined() && FindMember(db, challengeId, user).None? ==>
      r.db == Send(Admit(db, challengeId, user, now), [Msg(user, JoinedPleaseStart(challengeId))])
  {
    match JoinRefusalOf(db, challengeId, user, chatId)
    case Some(why) => Pressed(Some(why), Refuse(db, user, why))
    case None =>
      var db1 := match FindMember(db, challengeId, user)
        case Some(p) => Rejoin(db, p.id, reset)
        case None => Admit(db, challengeId, user, now);
      Pressed(None, Send(db1, [Msg(user, JoinedPleaseStart(challengeId))]))
  }

  /** The "join" button as written: a rejoining user's row is reset without its join time. */
  function JoinAsWritten(db: Db, challengeId: Id, user: UserId, chatId: ChatId, now: Ms): (r: Pressed)
    ensures r.refusal == JoinRefusalOf(db, challengeId, user, chatId)
    ensures r.Joined() ==> |r.db.participants| >= |db.participants|
    ensures r.Joined() && FindMember(db, challengeId, user).Some? ==>
      forall i :: 0 <= i < |db.participants| && db.participants[i] == FindMember(db, challengeId, user).value ==>
        r.db.participants[i] == ResetAsWritten(db.participants[i])
  {
    JoinWith(db, challengeId, user, chatId, now, ResetAsWritten)
  }

  /** The "join" button: a refused press leaves every table as it was, and only a user whose
      onboarding has already started gets a message, a reminder to continue it; otherwise the
      user's row in the challenge, new or reset, is in onboarding since `now`, and nobody
      else's row changes. */
  function Join(db: Db, challengeId: Id, user: UserId, chatId: ChatId, now: Ms): (r: Pressed)
    ensures r.refusal == JoinRefusalOf(db, challengeId, user, chatId)
    ensures r.refusal.Some? ==> r.db == Refuse(db, user, r.refusal.value)
    ensures r.Joined() ==>
      && FindMember(r.db, challengeId, user).Some?
      && FindMember(r.db, challengeId, user).value.status == Onboarding
      && FindMember(r.db, challengeId, user).value.joinedAt == now
    ensures r.Joined() ==> r.db.sent == db.sent + [Msg(user, JoinedPleaseStart(challengeId))]
    ensures r.Joined() && FindMember(db, challengeId, user).Some? ==>
      var id := FindMember(db, challengeId, user).value.id;
      && |r.db.participants| == |db.participants|
      && forall i :: 0 <= i < |db.participants| ==>
           r.db.participants[i] == (if db.participants[i].id == id then Reset(db.participants[i], now) else db.participants[i])
    ensures r.Joined() && FindMember(db, challengeId, user).None? ==>
      r.db.participants == db.participants + [NewParticipant(db.nextId, challengeId, user, now)]
    ensures r.Joined() && UniqueMembers(db.participants) ==> UniqueMembers(r.db.participants)
  {
    match JoinRefusalOf(db, challengeId, user, chatId)
    case Some(why) => Pressed(Some(why), Refuse(db, user, why))
    case None =>
      if FindMember(db, challengeId, user).Some? then
        RejoinFacts(db, challengeId, user, now);
        JoinWith(db, challengeId, user, chatId, now, (p: Participant) => Reset(p, now))
      else
        AdmitFacts(db, challengeId, user, now);
        JoinWith(db, challengeId, user, chatId, now, (p: Participant) => Reset(p, now))
  }

  /** The corrected join is the join with the reset that also moves the join time. */
  lemma JoinIsJoinWithReset(db: Db, challengeId: Id, user: UserId, chatId: ChatId, now: Ms)
    ensures Join(db, challengeId, user, chatId, now) == JoinWith(db, challengeId, user, chatId, now, (p: Participant) => Reset(p, now))
  {
  }

  function MemberKey(p: Participant): (Id, UserId) {
    (p.challengeId, p.userId)
  }

  /** Resetting the user's row keeps it the user's row in the challenge, and keeps the table
      unique per user and challenge. */
  lemma RejoinFacts(db: Db, challengeId: Id, user: UserId, now: Ms)
    requires FindMember(db, challengeId, user).Some?
    ensures var r := Rejoin(db, FindMember(db, challengeId, user).value.id, (p: Participant) => Reset(p, now));
      && FindMember(r, challengeId, user).Some?
      && FindMember(r, challengeId, user).value.status == Onboarding
      && FindMember(r, challengeId, user).value.joinedAt == now
      && (UniqueMembers(db.participants) ==> UniqueMembers(r.participants))
  {
    var m := FindMember(db, challengeId, user).value;
    var r := Rejoin(db, m.id, (p: Participant) => Reset(p, now));
    forall i | 0 <= i < |db.participants| ensures MemberKey(r.participants[i]) == MemberKey(db.participants[i]) {
    }
    FindSameIndex(db.participants, r.participants, (p: Participant) => p.challengeId == challengeId && p.userId == user);
    var i :| 0 <= i < |db.participants| && m == db.participants[i] && FindMember(r, challengeId, user).value == r.participants[i];
    assert r.participants[i] == Reset(m, now);
    SameMemberKeys(db.participants, r.participants);
  }

  /** Rows with the same keys, position by position, are unique per user and challenge alike. */
  lemma SameMemberKeys(a: seq<Participant>, b: seq<Participant>)
    requires |a| == |b| && forall i :: 0 <= i < |a| ==> MemberKey(b[i]) == MemberKey(a[i])
    ensures UniqueMembers(a) ==> UniqueMembers(b)
  {
    if UniqueMembers(a) {
      forall i, j | 0 <= i < j < |b| ensures MemberKey(b[i]) != MemberKey(b[j]) {
        assert MemberKey(a[i]) != MemberKey(a[j]);
      }
    }
  }

  /** A first join adds the only row of the user in the challenge. */
  lemma AdmitFacts(db: Db, challengeId: Id, user: UserId, now: Ms)
    requires FindMember(db, challengeId, user).None?
    ensures var r := Admit(db, challengeId, user, now);
      && FindMember(r, challengeId, user) == Some(NewParticipant(db.nextId, challengeId, user, now))
      && (UniqueMembers(db.participants) ==> UniqueMembers(r.participants))
  {
    var q := NewParticipant(db.nextId, challengeId, user, now);
    var r := Admit(db, challengeId, user, now);
    assert r.participants[|db.participants|] == q;
    if UniqueMembers(db.participants) {
      forall i, j | 0 <= i < j < |r.participants|
        ensures MemberKey(r.participants[i]) != MemberKey(r.participants[j])
      {
        assert r.participants[i] == db.participants[i];
        if j == |db.participants| {
          assert db.participants[i] in db.participants;
        } else {
          assert r.participants[j] == db.participants[j];
          assert MemberKey(db.participants[i]) != MemberKey(db.participants[j]);
        }
      }
    }
  }

  /** With one row per user and challenge, a user joins only while they have no live
      participation in any live challenge, this one included. */
  lemma JoinRequiresNoEngagement(db: Db, challengeId: Id, user: UserId, chatId: ChatId, now: Ms)
    requires UniqueMembers(db.participants)
    requires JoinRefusalOf(db, challengeId, user, chatId).None?
    ensures forall p :: p in db.participants ==> !Engaged(db, p, user)
  {
    if Engagement(db, user).Some? {
      var e := Engagement(db, user).value;
      AcceptedGuards(db, challengeId, user, chatId);
      assert e.userId == user;
      assert FindMember(db, challengeId, user).Some?;
      var m := FindMember(db, challengeId, user).value;
      assert e.status != Dropped;
      SameKeySameRow(db.participants, e, m);
      assert false;
    }
  }

  /** What an accepted press implies: the challenge exists, any engagement of the user is in
      this challenge, and a row of the user in it was dropped. */
  lemma AcceptedGuards(db: Db, challengeId: Id, user: UserId, chatId: ChatId)
    requires JoinRefusalOf(db, challengeId, user, chatId).None?
    ensures FindChallenge(db, challengeId).Some?
    ensures Engagement(db, user).Some? ==> Engagement(db, user).value.challengeId == challengeId
    ensures FindMember(db, challengeId, user).Some? ==> FindMember(db, challengeId, user).value.status == Dropped
  {
  }

  /** Under the one-row-per-user-and-challenge constraint, two rows of the same user in the
      same challenge are the same row. */
  lemma SameKeySameRow(ps: seq<Participant>, a: Participant, b: Participant)
    requires UniqueMembers(ps) && a in ps && b in ps
    ensures MemberKey(a) == MemberKey(b) ==> a == b
  {
    var i :| 0 <= i < |ps| && ps[i] == a;
    var j :| 0 <= j < |ps| && ps[j] == b;
    UniqueByRow(ps, (p: Participant) => (p.challengeId, p.userId), i, j);
  }

  /** A participant dropped by the onboarding sweep who joins again keeps the old join time
      under the code as written, so the very next sweep drops them again at once. */
  lemma RejoinedDroppedAgain(db: Db, challengeId: Id, user: UserId, chatId: ChatId, now: Ms, timeoutMs: int)
    requires JoinAsWritten(db, challengeId, user, chatId, now).Joined()
    requires FindMember(db, challengeId, user).Some?
    requires FindMember(db, challengeId, user).value.joinedAt <= now - timeoutMs
    ensures var p := FindMember(db, challengeId, user).value;
      var swept := Sweeps.OnboardingTimeouts(JoinAsWritten(db, challengeId, user, chatId, now).db, now, timeoutMs);
      forall i :: 0 <= i < |db.participants| && db.participants[i] == p ==> swept.participants[i].status == Dropped
  {
    var p := FindMember(db, challengeId, user).value;
    var joined := JoinAsWritten(db, challengeId, user, chatId, now).db;
    forall i | 0 <= i < |db.participants| && db.participants[i] == p
      ensures Sweeps.Stale(joined.participants[i], now, timeoutMs)
    {
      assert joined.participants[i] == ResetAsWritten(p);
    }
  }

  /** With the join time reset, a rejoined participant gets the full onboarding time again:
      no sweep before `now + timeoutMs` finds their row stale. */
  lemma RejoinedKeepsFullTimeout(db: Db, challengeId: Id, user: UserId, chatId: ChatId, now: Ms, later: Ms, timeoutMs: int)
    requires Join(db, challengeId, user, chatId, now).Joined()
    requires FindMember(db, challengeId, user).Some?
    requires later < now + timeoutMs
    ensures var joined := Join(db, challengeId, user, chatId, now).db;
      forall i :: 0 <= i < |db.participants| && db.participants[i] == FindMember(db, challengeId, user).value ==>
        joined.participants[i].status == Onboarding && !Sweeps.Stale(joined.participants[i], later, timeoutMs)
  {
  }

  // ---------------------------------------------------------------------------------------
  // The check-in button

  datatype ButtonRefusal = WindowNotOpen | WrongChat | NotActive

  function ButtonRefusalOf(db: Db, windowId: Id, user: UserId, chatId: ChatId): Option<ButtonRefusal> {
    match FindWindow(db, windowId)
    case None => Some(WindowNotOpen)
    case Some(w) =>
      if w.status != Open then Some(WindowNotOpen)
      else match FindChallenge(db, w.challengeId)
        case None => Some(WrongChat)
        case Some(c) =>
          if c.chatId != chatId then Some(WrongChat)
          else match FindMember(db, w.challengeId, user)
            case None => Some(NotActive)
            case Some(p) => if p.status != ParticipantStatus.Active then Some(NotActive) else None
  }

  /** The check-in button in the group: an active participant of the window's challenge gets
      the window as pending and is sent to the private chat. */
  function CheckinButton(db: Db, windowId: Id, user: UserId, chatId: ChatId, ts: Ms): (r: Result<Db, ButtonRefusal>)
    ensures r.Err? <==> ButtonRefusalOf(db, windowId, user, chatId).Some?
    ensures r.Ok? ==>
      var w := FindWindow(db, windowId).value;
      var p := FindMember(db, w.challengeId, user).value;
      && w.status == Open && p.status == ParticipantStatus.Active
      && FindChallenge(db, w.challengeId).value.chatId == chatId
      && r.value == db.(participants := r.value.participants, sent := db.sent + [Msg(user, StartCheckin(windowId))])
      && |r.value.participants| == |db.participants|
      && forall i :: 0 <= i < |db.participants| ==>
           r.value.participants[i] == (if db.participants[i].id == p.id
             then db.participants[i].(pendingCheckinWindowId := Some(windowId), pendingCheckinRequestedAt := Some(ts))
             else db.participants[i])
  {
    match ButtonRefusalOf(db, windowId, user, chatId)
    case Some(why) => Err(why)
    case None =>
      var w := FindWindow(db, windowId).value;
      var p := FindMember(db, w.challengeId, user).value;
      var db1 := MapParticipants(db, (q: Participant) =>
        if q.id == p.id then q.(pendingCheckinWindowId := Some(windowId), pendingCheckinRequestedAt := Some(ts)) else q);
      Ok(Send(db1, [Msg(user, StartCheckin(windowId))]))
  }

  // ---------------------------------------------------------------------------------------
  // Submitting a check-in

  datatype SubmitRefusal = NotPrivateChat | NoAccess | NoWindow | WindowClosed | NotActiveParticipant | Waiting

  /** The result of the check-in conversation. `AlreadySubmitted` only clears the pending
      window; `Recorded` stores the check-in. */
  datatype Submission = Refused(why: SubmitRefusal) | AlreadySubmitted(db: Db) | Recorded(db: Db)

  /** What the participant sends: the weight replies, the waist replies and the four photos,
      each `None` while it is still awaited (a message without a usable photo is asked again). */
  datatype Answers = Answers(weights: seq<Option<real>>, waists: seq<Option<real>>, photos: Photos)

  /** The guards checked before any question: the caller owns the participant row and the
      window belongs to its challenge and is open. */
  function EntryRefusal(db: Db, participantId: Id, windowId: Id, user: UserId, isPrivate: bool): Option<SubmitRefusal> {
    if !isPrivate then Some(NotPrivateChat)
    else match FindParticipant(db, participantId)
    case None => Some(NoAccess)
    case Some(p) =>
      if p.userId != user then Some(NoAccess)
      else match FindWindow(db, windowId)
        case None => Some(NoWindow)
        case Some(w) =>
          if w.challengeId != p.challengeId then Some(NoWindow)
          else if w.status != Open then Some(WindowClosed)
          else None
  }

  function ClearPending(p: Participant): Participant {
    p.(pendingCheckinWindowId := None, pendingCheckinRequestedAt := None)
  }

  /** One more completed check-in. */
  function Complete(p: Participant): (q: Participant)
    ensures q.completedCheckins == p.completedCheckins + 1 && q.totalCheckins == p.totalCheckins + 1
    ensures q.skippedCheckins == p.skippedCheckins && q.status == p.status
    ensures q == ClearPending(p).(completedCheckins := q.completedCheckins, totalCheckins := q.totalCheckins)
  {
    ClearPending(p).(completedCheckins := p.completedCheckins + 1, totalCheckins := p.totalCheckins + 1)
  }

  /** The answer to a repeated submission: the pending window of the participant is cleared. */
  function ClearPendingOf(db: Db, participantId: Id): (r: Db)
    ensures r == db.(participants := r.participants)
    ensures |r.participants| == |db.participants|
    ensures forall i :: 0 <= i < |db.participants| ==>
      r.participants[i] == (if db.participants[i].id == participantId then ClearPending(db.participants[i]) else db.participants[i])
  {
    MapParticipants(db, (q: Participant) => if q.id == participantId then ClearPending(q) else q)
  }

  /** Stores the check-in and counts it as completed for the participant. */
  function Record(db: Db, participantId: Id, windowId: Id, weight: real, waist: real, photos: Photos, ts: Ms): (r: Db)
    ensures r == db.(participants := r.participants, checkins := r.checkins, nextId := db.nextId + 1)
    ensures r.checkins == db.checkins + [Checkin(db.nextId, participantId, windowId, weight, waist, photos, ts)]
    ensures |r.participants| == |db.participants|
    ensures forall i :: 0 <= i < |db.participants| ==>
      r.participants[i] == (if db.participants[i].id == participantId then Complete(db.participants[i]) else db.participants[i])
    ensures HasCheckin(r, participantId, windowId)
    ensures CountersAgree(db.participants) ==> CountersAgree(r.participants)
    ensures !HasCheckin(db, participantId, windowId) && UniqueCheckins(db.checkins) ==> UniqueCheckins(r.checkins)
  {
    var c := Checkin(db.nextId, participantId, windowId, weight, waist, photos, ts);
    var db1 := db.(checkins := db.checkins + [c], nextId := db.nextId + 1);
    assert db1.checkins[|db.checkins|] == c;
    RecordedUnique(db.checkins, c);
    MapParticipants(db1, (q: Participant) => if q.id == participantId then Complete(q) else q)
  }

  /** The private check-in conversation, taken as one step. The entry guards come first; a
      repeated submission only clears the pending window, and only after that is the
      participant required to be active; a check-in is recorded once a weight and a waist in
      range and all four photos have been given. */
  function Submit(db: Db, participantId: Id, windowId: Id, user: UserId, isPrivate: bool, answers: Answers, ts: Ms): (r: Submission)
    ensures EntryRefusal(db, participantId, windowId, user, isPrivate).Some? ==>
      r == Refused(EntryRefusal(db, participantId, windowId, user, isPrivate).value)
    ensures r.AlreadySubmitted? <==> EntryRefusal(db, participantId, windowId, user, isPrivate).None? && HasCheckin(db, participantId, windowId)
    ensures r.AlreadySubmitted? ==> r.db == ClearPendingOf(db, participantId)
    ensures r == Refused(NotActiveParticipant) <==>
      && EntryRefusal(db, participantId, windowId, user, isPrivate).None? && !HasCheckin(db, participantId, windowId)
      && FindParticipant(db, participantId).value.status != ParticipantStatus.Active
    ensures r.Recorded? <==>
      && EntryRefusal(db, participantId, windowId, user, isPrivate).None? && !HasCheckin(db, participantId, windowId)
      && FindParticipant(db, participantId).value.status == ParticipantStatus.Active
      && ReadNumber(answers.weights, WeightMin, WeightMax).Some? && ReadNumber(answers.waists, WaistMin, WaistMax).Some?
      && AllPhotos(answers.photos)
    ensures r.Recorded? ==> r.db == Record(db, participantId, windowId,
      ReadNumber(answers.weights, WeightMin, WeightMax).value.0, ReadNumber(answers.waists, WaistMin, WaistMax).value.0, answers.photos, ts)
  {
    match EntryRefusal(db, participantId, windowId, user, isPrivate)
    case Some(why) => Refused(why)
    case None =>
      if HasCheckin(db, participantId, windowId) then AlreadySubmitted(ClearPendingOf(db, participantId))
      else if FindParticipant(db, participantId).value.status != ParticipantStatus.Active then Refused(NotActiveParticipant)
      else match (ReadNumber(answers.weights, WeightMin, WeightMax), ReadNumber(answers.waists, WaistMin, WaistMax))
        case (Some((weight, _)), Some((waist, _))) =>
          if AllPhotos(answers.photos) then Recorded(Record(db, participantId, windowId, weight, waist, answers.photos, ts))
          else Refused(Waiting)
        case _ => Refused(Waiting)
  }

  /** Appending a check-in for a pair that has none keeps check-ins unique per pair. */
  predicate NewPair(cs: seq<Checkin>, c: Checkin) {
    forall i :: 0 <= i < |cs| ==> !(cs[i].participantId == c.participantId && cs[i].windowId == c.windowId)
  }

  lemma RecordedUnique(cs: seq<Checkin>, c: Checkin)
    ensures NewPair(cs, c) && UniqueCheckins(cs) ==> UniqueCheckins(cs + [c])
  {
    if NewPair(cs, c) && UniqueCheckins(cs) {
      var key := (x: Checkin) => (x.participantId, x.windowId);
      forall i, j | 0 <= i < j < |cs + [c]| ensures key((cs + [c])[i]) != key((cs + [c])[j]) {
        if j == |cs| {
          assert (cs + [c])[i] == cs[i];
        } else {
          assert (cs + [c])[i] == cs[i] && (cs + [c])[j] == cs[j];
        }
      }
    }
  }

  /** Submitting again for the same window after a recorded check-in only clears the pending
      window: a window is counted as completed at most once. */
  lemma SubmitTwice(db: Db, participantId: Id, windowId: Id, user: UserId, answers: Answers, answers2: Answers, ts: Ms, ts2: Ms)
    requires Submit(db, participantId, windowId, user, true, answers, ts).Recorded?
    ensures Submit(Submit(db, participantId, windowId, user, true, answers, ts).db, participantId, windowId, user, true, answers2, ts2).AlreadySubmitted?
  {
    var r := Submit(db, participantId, windowId, user, true, answers, ts).db;
    forall i | 0 <= i < |db.participants|
      ensures r.participants[i].id == db.participants[i].id && r.participants[i].userId == db.participants[i].userId
      ensures r.participants[i].challengeId == db.participants[i].challengeId
    {
    }
    EntryRefusalKept(db, r, participantId, windowId, user);
  }

  /** The entry guard reads only the participants' keys and the windows. */
  lemma EntryRefusalKept(db: Db, r: Db, participantId: Id, windowId: Id, user: UserId)
    requires r.windows == db.windows && |r.participants| == |db.participants|
    requires forall i :: 0 <= i < |db.participants| ==>
      && r.participants[i].id == db.participants[i].id && r.participants[i].userId == db.participants[i].userId
      && r.participants[i].challengeId == db.participants[i].challengeId
    ensures EntryRefusal(r, participantId, windowId, user, true) == EntryRefusal(db, participantId, windowId, user, true)
  {
    FindSameIndex(db.participants, r.participants, (q: Participant) => q.id == participantId);
    assert FindWindow(r, windowId) == FindWindow(db, windowId);
  }

  /** A recorded check-in spares the participant the skip when its window closes, when, as
      in this model, the submission's guards and its insert happen in one step. */
  lemma RecordedNotCharged(db: Db, participantId: Id, windowId: Id, user: UserId, answers: Answers, ts: Ms, p: Participant, w: Window)
    requires Submit(db, participantId, windowId, user, true, answers, ts).Recorded?
    requires p.id == participantId && w.id == windowId
    ensures !WindowClosing.Misses(Submit(db, participantId, windowId, user, true, answers, ts).db, p, w)
  {
  }
}

=== FILE: payments.dfy ===
/** The payment gate: a participant marks their stake as paid, the bank holder confirms it,
    and a challenge whose participants have all been confirmed is activated and gets its
    check-in windows. */
module Payments {
  import opened Common
  import opened Schema
  import opened Duration
  import CheckinWindows

  /** Why a payment button was refused; a refused press changes nothing. */
  datatype Refusal = NotPrivateChat | NoAccess | AlreadyMarked | NoParticipant | NoChallenge | NotBankHolder | NotMarked

  /** Calendar month arithmetic in the server's time zone, taken as given. */
  type AddMonths = (Ms, int) -> Ms

  // ---------------------------------------------------------------------------------------
  // Activation

  /** When a challenge started at `startedAt` ends: `duration` hours, days or calendar months
      later, per the configured unit. */
  function EndsAt(unit: DurationUnit, startedAt: Ms, duration: int, addMonths: AddMonths): Ms {
    match unit
    case Hours => startedAt + duration * HourMs
    case Days => startedAt + duration * DayMs
    case Months => addMonths(startedAt, duration)
  }

  /** A positive duration in hours or days ends strictly after the start, on a whole hour
      after it. */
  lemma EndsAtAfterStart(unit: DurationUnit, startedAt: Ms, duration: int, addMonths: AddMonths)
    requires unit != Months && duration > 0
    ensures EndsAt(unit, startedAt, duration, addMonths) > startedAt
    ensures (EndsAt(unit, startedAt, duration, addMonths) - startedAt) % HourMs == 0
  {
    if unit == Days {
      assert duration * DayMs == (duration * 24) * HourMs;
    }
  }

  /** Participants of the challenge who have not finished paying. */
  function Blocking(db: Db, challengeId: Id): (r: seq<Participant>)
    ensures forall p :: p in r <==> p in db.participants && p.challengeId == challengeId && BlocksActivation(p.status)
  {
    Filter(db.participants, (p: Participant) => p.challengeId == challengeId && BlocksActivation(p.status))
  }

  /** The challenge exists, is neither active nor completed, and nobody is still onboarding
      or paying. */
  predicate Ready(db: Db, challengeId: Id) {
    && FindChallenge(db, challengeId).Some?
    && FindChallenge(db, challengeId).value.status !in {ChallengeStatus.Active, ChallengeStatus.Completed}
    && |Blocking(db, challengeId)| == 0
  }

  function WindowMs(env: Env): int {
    env.checkinWindowHours * HourMs
  }

  /** A challenge row once activated at `ts`. */
  function Started(x: Challenge, ts: Ms, env: Env, addMonths: AddMonths): Challenge {
    x.(status := ChallengeStatus.Active, startedAt := Some(ts),
       endsAt := Some(EndsAt(env.durationUnit, ts, x.durationMonths, addMonths)))
  }

  /** Activates `c` at `ts`: the challenge starts, its windows are generated and the group is
      told. */
  function Activate(db: Db, c: Challenge, ts: Ms, env: Env, addMonths: AddMonths): (r: Db)
    requires ValidEnv(env)
    ensures r == db.(challenges := r.challenges, windows := r.windows, nextId := r.nextId, sent := r.sent)
    ensures r.sent == db.sent + [Msg(c.chatId, ChallengeActivated(c.id))]
    ensures |r.challenges| == |db.challenges|
    ensures forall i :: 0 <= i < |db.challenges| ==>
      r.challenges[i] == (if db.challenges[i].id == c.id then Started(db.challenges[i], ts, env, addMonths) else db.challenges[i])
    ensures var endsAt := EndsAt(env.durationUnit, ts, c.durationMonths, addMonths);
      && CheckinWindows.Slots(CheckinWindows.WindowsOf(r.windows, c.id))
           == CheckinWindows.Plan(ts, endsAt, CheckinPeriodMs(env), WindowMs(env)).value
      && (forall w :: w in CheckinWindows.WindowsOf(r.windows, c.id) ==> w.status == Scheduled)
      && CheckinWindows.OtherWindows(r.windows, c.id) == CheckinWindows.OtherWindows(db.windows, c.id)
  {
    var endsAt := EndsAt(env.durationUnit, ts, c.durationMonths, addMonths);
    var db1 := SetChallenge(db, c.id, (x: Challenge) => x.(status := ChallengeStatus.Active, startedAt := Some(ts),
      endsAt := Some(EndsAt(env.durationUnit, ts, x.durationMonths, addMonths))));
    var gen := CheckinWindows.Regenerate(db1, c.id, ts, endsAt, CheckinPeriodMs(env), WindowMs(env));
    CheckinWindows.RegenerateResult(db1, c.id, ts, endsAt, CheckinPeriodMs(env), WindowMs(env));
    Send(gen.value.0, [Msg(c.chatId, ChallengeActivated(c.id))])
  }

  /** Activates the challenge when it is ready, and otherwise changes nothing. */
  function MaybeActivate(db: Db, challengeId: Id, ts: Ms, env: Env, addMonths: AddMonths): (r: Db)
    requires ValidEnv(env)
    ensures !Ready(db, challengeId) ==> r == db
    ensures Ready(db, challengeId) ==> r == Activate(db, FindChallenge(db, challengeId).value, ts, env, addMonths)
    ensures r.participants == db.participants && r.payments == db.payments && r.checkins == db.checkins
    ensures r.elections == db.elections && r.votes == db.votes && r.goals == db.goals && r.commitments == db.commitments
  {
    if Ready(db, challengeId) then Activate(db, FindChallenge(db, challengeId).value, ts, env, addMonths) else db
  }

  /** Activation happens once: after it, the challenge is active and a second attempt is a
      no-op. */
  lemma MaybeActivateIdempotent(db: Db, challengeId: Id, ts: Ms, ts2: Ms, env: Env, addMonths: AddMonths)
    requires ValidEnv(env)
    ensures var once := MaybeActivate(db, challengeId, ts, env, addMonths);
      MaybeActivate(once, challengeId, ts2, env, addMonths) == once
  {
    var once := MaybeActivate(db, challengeId, ts, env, addMonths);
    if Ready(db, challengeId) {
      var c := FindChallenge(db, challengeId).value;
      forall x | x in once.challenges && x.id == challengeId ensures x.status == ChallengeStatus.Active {
        var i :| 0 <= i < |once.challenges| && once.challenges[i] == x;
      }
      assert !Ready(once, challengeId);
    }
  }

  /** The activation test: a six-hour challenge started at 1 700 000 000 000 ends six hours
      later. */
  lemma SixHourChallengeEnds(addMonths: AddMonths)
    ensures EndsAt(Hours, 1_700_000_000_000, 6, addMonths) == 1_700_000_000_000 + 6 * 60 * 60 * 1000
  {
  }

  // ---------------------------------------------------------------------------------------
  // Row updates

  /** Sets the status of participant `id`. */
  function SetStatus(db: Db, id: Id, s: ParticipantStatus): (r: Db)
    ensures r == db.(participants := r.participants)
    ensures |r.participants| == |db.participants|
    ensures forall i :: 0 <= i < |db.participants| ==>
      r.participants[i] == (if db.participants[i].id == id then db.participants[i].(status := s) else db.participants[i])
  {
    MapParticipants(db, (p: Participant) => if p.id == id then p.(status := s) else p)
  }

  /** The payment row after the participant marks it paid: an insert, or on conflict an
      update of the status and the marking time only. */
  function MarkedRow(existing: Option<Payment>, ts: Ms): (pay: Payment)
    ensures pay.status == MarkedPaid && pay.markedPaidAt == Some(ts)
    ensures existing.Some? ==> pay.confirmedAt == existing.value.confirmedAt && pay.confirmedBy == existing.value.confirmedBy
    ensures existing.None? ==> pay.confirmedAt.None? && pay.confirmedBy.None?
  {
    match existing
    case Some(row) => row.(status := MarkedPaid, markedPaidAt := Some(ts))
    case None => Payment(MarkedPaid, Some(ts), None, None)
  }

  /** The payment row after the bank holder confirms it: the marking time is kept. */
  function ConfirmedRow(existing: Option<Payment>, ts: Ms, holder: UserId): (pay: Payment)
    ensures pay.status == PaymentStatus.Confirmed && pay.confirmedAt == Some(ts) && pay.confirmedBy == Some(holder)
    ensures existing.Some? ==> pay.markedPaidAt == existing.value.markedPaidAt
    ensures existing.None? ==> pay.markedPaidAt.None?
  {
    match existing
    case Some(row) => row.(status := PaymentStatus.Confirmed, confirmedAt := Some(ts), confirmedBy := Some(holder))
    case None => Payment(PaymentStatus.Confirmed, None, Some(ts), Some(holder))
  }

  function PaymentOf(db: Db, id: Id): Option<Payment> {
    if id in db.payments then Some(db.payments[id]) else None
  }

  // ---------------------------------------------------------------------------------------
  // Handlers

  /** Why a "paid" press by `from` on participant `participantId` is refused, if it is. */
  function MarkPaidRefusal(db: Db, participantId: Id, from: UserId, isPrivate: bool): Option<Refusal> {
    if !isPrivate then Some(NotPrivateChat)
    else match FindParticipant(db, participantId)
    case None => Some(NoAccess)
    case Some(p) =>
      if p.userId != from then Some(NoAccess)
      else if p.status != PendingPayment then Some(AlreadyMarked)
      else if FindChallenge(db, p.challengeId).None? then Some(NoChallenge)
      else None
  }

  /** The "paid" button. The bank holder's own payment is confirmed on the spot and may
      activate the challenge; anyone else's is marked and the bank holder, if there is one, is
      asked to confirm. */
  function MarkPaid(db: Db, participantId: Id, from: UserId, isPrivate: bool, ts: Ms, env: Env, addMonths: AddMonths): (r: Result<Db, Refusal>)
    requires ValidEnv(env)
    ensures r.Err? <==> MarkPaidRefusal(db, participantId, from, isPrivate).Some?
    ensures r.Err? ==> r.error == MarkPaidRefusal(db, participantId, from, isPrivate).value
    ensures r.Ok? ==> FindParticipant(db, participantId).value.userId == from
    ensures r.Ok? ==>
      && |r.value.participants| == |db.participants|
      && (forall i :: 0 <= i < |db.participants| && db.participants[i].id != participantId ==>
            r.value.participants[i] == db.participants[i])
      && participantId in r.value.payments
      && (forall k :: k in db.payments && k != participantId ==> k in r.value.payments && r.value.payments[k] == db.payments[k])
    ensures r.Ok? && FindChallenge(db, FindParticipant(db, participantId).value.challengeId).value.bankHolderId == Some(from) ==>
      && r.value.payments[participantId] == Payment(PaymentStatus.Confirmed, Some(ts), Some(ts), Some(from))
      && (forall i :: 0 <= i < |db.participants| && db.participants[i].id == participantId ==>
            r.value.participants[i] == db.participants[i].(status := ParticipantStatus.Active))
    ensures r.Ok? && FindChallenge(db, FindParticipant(db, participantId).value.challengeId).value.bankHolderId != Some(from) ==>
      && r.value.payments[participantId] == MarkedRow(PaymentOf(db, participantId), ts)
      && (forall i :: 0 <= i < |db.participants| && db.participants[i].id == participantId ==>
            r.value.participants[i] == db.participants[i].(status := PaymentMarked))
      && r.value.challenges == db.challenges && r.value.windows == db.windows
  {
    match MarkPaidRefusal(db, participantId, from, isPrivate)
    case Some(why) => Err(why)
    case None =>
      var p := FindParticipant(db, participantId).value;
      var c := FindChallenge(db, p.challengeId).value;
      if c.bankHolderId == Some(p.userId) then
        var paid := Payment(PaymentStatus.Confirmed, Some(ts), Some(ts), Some(p.userId));
        var db1 := SetStatus(db, participantId, ParticipantStatus.Active).(payments := db.payments[participantId := paid]);
        Ok(MaybeActivate(db1, c.id, ts, env, addMonths))
      else
        var db1 := SetStatus(db, participantId, PaymentMarked).(payments := db.payments[participantId := MarkedRow(PaymentOf(db, participantId), ts)]);
        Ok(if Truthy(c.bankHolderId) then Send(db1, [Msg(c.bankHolderId.value, ConfirmRequest(participantId))]) else db1)
  }

  /** Why a "confirm" press by `from` on participant `participantId` is refused, if it is. */
  function ConfirmRefusal(db: Db, participantId: Id, from: UserId, isPrivate: bool): Option<Refusal> {
    if !isPrivate then Some(NotPrivateChat)
    else match FindParticipant(db, participantId)
    case None => Some(NoParticipant)
    case Some(p) =>
      match FindChallenge(db, p.challengeId)
      case None => Some(NoChallenge)
      case Some(c) =>
        if !Truthy(c.bankHolderId) || c.bankHolderId.value != from then Some(NotBankHolder)
        else if p.status != PaymentMarked then Some(NotMarked)
        else None
  }

  /** The bank holder's "confirm" button: the payment is confirmed, the participant becomes
      active, participant and group are told, and the challenge may activate. */
  function Confirm(db: Db, participantId: Id, from: UserId, isPrivate: bool, ts: Ms, env: Env, addMonths: AddMonths): (r: Result<Db, Refusal>)
    requires ValidEnv(env)
    ensures r.Err? <==> ConfirmRefusal(db, participantId, from, isPrivate).Some?
    ensures r.Err? ==> r.error == ConfirmRefusal(db, participantId, from, isPrivate).value
    ensures r.Ok? ==>
      var p := FindParticipant(db, participantId).value;
      && p.status == PaymentMarked
      && FindChallenge(db, p.challengeId).value.bankHolderId == Some(from)
      && |r.value.participants| == |db.participants|
      && (forall i :: 0 <= i < |db.participants| ==>
            r.value.participants[i] == (if db.participants[i].id == participantId
              then db.participants[i].(status := ParticipantStatus.Active) else db.participants[i]))
      && participantId in r.value.payments
      && r.value.payments[participantId] == ConfirmedRow(PaymentOf(db, participantId), ts, from)
      && (forall k :: k in db.payments && k != participantId ==> k in r.value.payments && r.value.payments[k] == db.payments[k])
  {
    match ConfirmRefusal(db, participantId, from, isPrivate)
    case Some(why) => Err(why)
    case None =>
      var p := FindParticipant(db, participantId).value;
      var c := FindChallenge(db, p.challengeId).value;
      var db1 := SetStatus(db, participantId, ParticipantStatus.Active).(payments := db.payments[participantId := ConfirmedRow(PaymentOf(db, participantId), ts, from)]);
      var db2 := Send(db1, [Msg(p.userId, PaymentConfirmed(participantId)), Msg(c.chatId, PaymentConfirmed(participantId))]);
      Ok(MaybeActivate(db2, c.id, ts, env, addMonths))
  }

  /** The usual path: a participant owing their stake marks it paid and the bank holder
      confirms it; afterwards the payment is confirmed by the holder and the participant is
      active. */
  lemma MarkThenConfirm(db: Db, participantId: Id, holder: UserId, ts: Ms, ts2: Ms, env: Env, addMonths: AddMonths)
    requires ValidEnv(env)
    requires FindParticipant(db, participantId).Some?
    requires FindParticipant(db, participantId).value.status == PendingPayment
    requires FindChallenge(db, FindParticipant(db, participantId).value.challengeId).Some?
    requires FindChallenge(db, FindParticipant(db, participantId).value.challengeId).value.bankHolderId == Some(holder)
    requires holder != 0 && holder != FindParticipant(db, participantId).value.userId
    ensures var p := FindParticipant(db, participantId).value;
      var marked := MarkPaid(db, participantId, p.userId, true, ts, env, addMonths);
      && marked.Ok?
      && Confirm(marked.value, participantId, holder, true, ts2, env, addMonths).Ok?
      && Confirm(marked.value, participantId, holder, true, ts2, env, addMonths).value.payments[participantId]
           == Payment(PaymentStatus.Confirmed, Some(ts), Some(ts2), Some(holder))
  {
    var p := FindParticipant(db, participantId).value;
    var c := FindChallenge(db, p.challengeId).value;
    assert MarkPaidRefusal(db, participantId, p.userId, true).None?;
    var marked := MarkPaid(db, participantId, p.userId, true, ts, env, addMonths).value;
    var before := PaymentOf(db, participantId);
    assert marked == SetStatus(db, participantId, PaymentMarked).(payments := db.payments[participantId := MarkedRow(before, ts)])
      || marked == Send(SetStatus(db, participantId, PaymentMarked).(payments := db.payments[participantId := MarkedRow(before, ts)]),
           [Msg(holder, ConfirmRequest(participantId))]);
    FindSameIndex(db.participants, marked.participants, (x: Participant) => x.id == participantId);
    var q := FindParticipant(marked, participantId).value;
    assert q == p.(status := PaymentMarked);
    assert FindChallenge(marked, q.challengeId) == Some(c);
    assert ConfirmRefusal(marked, participantId, holder, true).None?;
    assert PaymentOf(marked, participantId) == Some(MarkedRow(before, ts));
  }
}

=== FILE: replies.dfy ===
/** Reading a number from a private conversation: the bot keeps asking until a reply parses to
    a finite number inside the inclusive range. A reply is given here as the number it parses
    to, `None` when it does not parse to a finite number. */
module Replies {
  import opened Common

  predicate InRange(x: real, lo: real, hi: real) {
    lo <= x <= hi
  }

  predicate Accepted(reply: Option<real>, lo: real, hi: real) {
    reply.Some? && InRange(reply.value, lo, hi)
  }

  /** The first acceptable reply and its position; `None` while no reply is acceptable, when
      the conversation is still waiting. */
  function ReadNumber(replies: seq<Option<real>>, lo: real, hi: real): (r: Option<(real, nat)>)
    ensures r.None? <==> forall i :: 0 <= i < |replies| ==> !Accepted(replies[i], lo, hi)
    ensures r.Some? ==>
      && r.value.1 < |replies|
      && replies[r.value.1] == Some(r.value.0)
      && InRange(r.value.0, lo, hi)
      && forall i :: 0 <= i < r.value.1 ==> !Accepted(replies[i], lo, hi)
  {
    if |replies| == 0 then None
    else if Accepted(replies[0], lo, hi) then Some((replies[0].value, 0))
    else match ReadNumber(replies[1..], lo, hi)
      case None => None
      case Some((x, k)) => Some((x, k + 1))
  }

  /** Rejected replies before an acceptable one do not change the answer. */
  lemma {:induction false} ReadNumberSkipsRejected(rejected: seq<Option<real>>, rest: seq<Option<real>>, lo: real, hi: real)
    requires forall i :: 0 <= i < |rejected| ==> !Accepted(rejected[i], lo, hi)
    requires ReadNumber(rest, lo, hi).Some?
    ensures ReadNumber(rejected + rest, lo, hi).Some?
    ensures ReadNumber(rejected + rest, lo, hi).value.0 == ReadNumber(rest, lo, hi).value.0
    ensures ReadNumber(rejected + rest, lo, hi).value.1 == |rejected| + ReadNumber(rest, lo, hi).value.1
  {
    if |rejected| == 0 {
      assert rejected + rest == rest;
    } else {
      var s := rejected + rest;
      assert s[0] == rejected[0];
      assert s[1..] == rejected[1..] + rest;
      ReadNumberSkipsRejected(rejected[1..], rest, lo, hi);
    }
  }

  /** The ranges the bot asks for. */
  const WeightMin: real := 30.0
  const WeightMax: real := 150.0
  const WaistMin: real := 40.0
  const WaistMax: real := 150.0
  const HeightMin: real := 140.0
  const HeightMax: real := 220.0

  /** Bounds are inclusive: 30 kg is accepted as a weight and 29.9 kg is asked again. */
  lemma WeightBoundsInclusive()
    ensures ReadNumber([Some(30.0)], WeightMin, WeightMax) == Some((30.0, 0))
    ensures ReadNumber([Some(29.9), None, Some(150.0)], WeightMin, WeightMax) == Some((150.0, 2))
  {
  }
}

=== FILE: scheduler.dfy ===
/** The scheduler's tick: the sweeps in a fixed order, each reading the clock once, an
    exception in one skipping the rest of the tick and being swallowed; and the choice of how
    often ticks run. */
module Scheduler {
  import opened Common
  import opened Schema
  import Sweeps
  import Finale

  datatype Sweep =
    | OnboardingTimeouts
    | OverdueElections
    | OpenWindows
    | CheckinReminders
    | HabitReminders
    | CloseWindows
    | FinalizeChallenges

  /** The order in which a tick runs its sweeps. */
  const TickOrder: seq<Sweep> := [OnboardingTimeouts, OverdueElections, OpenWindows, CheckinReminders,
                                  HabitReminders, CloseWindows, FinalizeChallenges]

  /** One sweep at time `now`, with the sweeps' default timeouts. The habit-reminder sweep only
      sends messages and writes to a table outside the model, so it leaves the store as is. */
  function RunSweep(db: Db, s: Sweep, now: Ms, env: Env): (r: Db)
    ensures CountersAgree(db.participants) ==> CountersAgree(r.participants)
    ensures r.nextId == db.nextId
  {
    match s
    case OnboardingTimeouts => Sweeps.OnboardingTimeouts(db, now, Sweeps.OnboardingTimeoutMs)
    case OverdueElections => Sweeps.ElectionSweep(db, now, Sweeps.Holder.DefaultTimeoutMs)
    case OpenWindows => Sweeps.OpenSweep(db, now)
    case CheckinReminders => Sweeps.Reminders(db, now, env)
    case HabitReminders => db
    case CloseWindows => Sweeps.CloseSweep(db, now)
    case FinalizeChallenges => Finale.FinalizeEnded(db, now)
  }

  /** What a tick did: the store afterwards, the sweeps that completed, and the sweep whose
      exception ended the tick early, if any. */
  datatype TickOutcome = TickOutcome(db: Db, ran: seq<Sweep>, failed: Option<Sweep>)

  /** Runs the sweeps `TickOrder[k..]`; sweep `k` reads `clock(k)`. The sweep numbered
      `fault` (if any) throws before changing anything, and the sweeps after it do not run. */
  function RunFrom(db: Db, env: Env, clock: nat -> Ms, fault: Option<nat>, k: nat): (r: TickOutcome)
    requires k <= |TickOrder|
    ensures k + |r.ran| <= |TickOrder|
    ensures r.ran == TickOrder[k..k + |r.ran|]
    ensures fault.Some? && k <= fault.value < |TickOrder| ==>
      |r.ran| == fault.value - k && r.failed == Some(TickOrder[fault.value])
    ensures !(fault.Some? && k <= fault.value < |TickOrder|) ==> |r.ran| == |TickOrder| - k && r.failed.None?
    ensures CountersAgree(db.participants) ==> CountersAgree(r.db.participants)
    decreases |TickOrder| - k
  {
    if k == |TickOrder| then TickOutcome(db, [], None)
    else if fault == Some(k) then TickOutcome(db, [], Some(TickOrder[k]))
    else
      var db1 := RunSweep(db, TickOrder[k], clock(k), env);
      var rest := RunFrom(db1, env, clock, fault, k + 1);
      SliceCons(TickOrder, k, |rest.ran|);
      TickOutcome(rest.db, [TickOrder[k]] + rest.ran, rest.failed)
  }

  /** A slice is its first element followed by the rest of it. */
  lemma SliceCons<T>(s: seq<T>, k: nat, n: nat)
    requires k + 1 + n <= |s|
    ensures [s[k]] + s[k + 1..k + 1 + n] == s[k..k + 1 + n]
  {
  }

  /** One tick. It always returns: an exception is caught and recorded, never propagated. */
  function Tick(db: Db, env: Env, clock: nat -> Ms, fault: Option<nat>): (r: TickOutcome)
    ensures |r.ran| <= |TickOrder|
    ensures r.ran == TickOrder[..|r.ran|]
    ensures r.failed.None? <==> !(fault.Some? && fault.value < |TickOrder|)
    ensures r.failed.Some? ==> |r.ran| == fault.value && r.failed.value == TickOrder[fault.value]
    ensures r.failed.None? ==> r.ran == TickOrder
    ensures CountersAgree(db.participants) ==> CountersAgree(r.db.participants)
  {
    RunFrom(db, env, clock, fault, 0)
  }

  /** One step of a tick without exceptions: sweep `k` at `clock(k)`, then the rest. */
  lemma RunFromStep(db: Db, env: Env, clock: nat -> Ms, k: nat)
    requires k < |TickOrder|
    ensures RunFrom(db, env, clock, None, k).db == RunFrom(RunSweep(db, TickOrder[k], clock(k), env), env, clock, None, k + 1).db
  {
  }

  /** Without an exception, a tick is the seven sweeps composed in order, the `k`-th at
      `clock(k)`. */
  lemma {:induction false} TickComposesSweeps(db: Db, env: Env, clock: nat -> Ms)
    ensures Tick(db, env, clock, None).db ==
      RunSweep(RunSweep(RunSweep(RunSweep(RunSweep(RunSweep(RunSweep(db,
        OnboardingTimeouts, clock(0), env), OverdueElections, clock(1), env), OpenWindows, clock(2), env),
        CheckinReminders, clock(3), env), HabitReminders, clock(4), env), CloseWindows, clock(5), env),
        FinalizeChallenges, clock(6), env)
  {
    var d1 := RunSweep(db, OnboardingTimeouts, clock(0), env);
    var d2 := RunSweep(d1, OverdueElections, clock(1), env);
    var d3 := RunSweep(d2, OpenWindows, clock(2), env);
    var d4 := RunSweep(d3, CheckinReminders, clock(3), env);
    var d5 := RunSweep(d4, HabitReminders, clock(4), env);
    var d6 := RunSweep(d5, CloseWindows, clock(5), env);
    var d7 := RunSweep(d6, FinalizeChallenges, clock(6), env);
    RunFromStep(db, env, clock, 0);
    RunFromStep(d1, env, clock, 1);
    RunFromStep(d2, env, clock, 2);
    RunFromStep(d3, env, clock, 3);
    RunFromStep(d4, env, clock, 4);
    RunFromStep(d5, env, clock, 5);
    RunFromStep(d6, env, clock, 6);
    assert RunFrom(d7, env, clock, None, 7).db == d7;
  }

  /** An exception in the first sweep leaves the store untouched. */
  lemma FirstSweepFailureChangesNothing(db: Db, env: Env, clock: nat -> Ms)
    ensures Tick(db, env, clock, Some(0)).db == db
    ensures Tick(db, env, clock, Some(0)).ran == []
  {
  }

  /** The cron schedule: every minute when check-in periods are given in minutes below an
      hour, otherwise at the top of every hour. */
  function CronExpression(checkinPeriodMinutes: int): (e: string)
    ensures e == "* * * * *" <==> 0 < checkinPeriodMinutes < 60
    ensures e == "0 * * * *" <==> !(0 < checkinPeriodMinutes < 60)
  {
    if 0 < checkinPeriodMinutes < 60 then "* * * * *" else "0 * * * *"
  }
}

=== FILE: schema.dfy ===
/** The persisted state of the bot: one row datatype per table, closed enumerations for the
    status columns, and the uniqueness constraints the tables declare. The store is an
    immutable value; every handler and sweep of the model is a function from one store to
    the next. */
module Schema {
  import opened Common
  import opened Duration

  type Id = nat          // primary keys (AUTOINCREMENT)
  type UserId = int      // Telegram user ids
  type ChatId = int      // Telegram chat ids (negative for groups)
  type Ms = int          // milliseconds since the epoch

  datatype ChallengeStatus = Draft | PendingPayments | Active | Completed | Cancelled

  datatype ParticipantStatus =
    | Onboarding | PendingPayment | PaymentMarked | Active | Dropped | Disqualified | Completed

  datatype WindowStatus = Scheduled | Open | Closed

  datatype PaymentStatus = Pending | MarkedPaid | Confirmed | Refunded

  datatype ElectionStatus = InProgress | Completed | Cancelled

  datatype Track = Cut | Bulk

  datatype GoalVerdict = Realistic | TooAggressive | TooEasy

  /** The four photo file ids of a start measurement or a check-in. */
  datatype Photos = Photos(front: Option<string>, left: Option<string>, right: Option<string>, back: Option<string>)

  const NoPhotos := Photos(None, None, None, None)

  /** All four photos (front, left, right, back) have arrived. */
  predicate AllPhotos(ph: Photos) {
    ph.front.Some? && ph.left.Some? && ph.right.Some? && ph.back.Some?
  }

  datatype Challenge = Challenge(
    id: Id,
    chatId: ChatId,
    creatorId: UserId,
    durationMonths: int,
    stakeAmount: real,
    disciplineThreshold: real,
    maxSkips: int,
    bankHolderId: Option<UserId>,
    status: ChallengeStatus,
    createdAt: Ms,
    startedAt: Option<Ms>,
    endsAt: Option<Ms>)

  datatype Participant = Participant(
    id: Id,
    challengeId: Id,
    userId: UserId,
    track: Option<Track>,
    startWeight: Option<real>,
    startWaist: Option<real>,
    height: Option<real>,
    startPhotos: Photos,
    totalCheckins: int,
    completedCheckins: int,
    skippedCheckins: int,
    pendingCheckinWindowId: Option<Id>,
    pendingCheckinRequestedAt: Option<Ms>,
    status: ParticipantStatus,
    joinedAt: Ms,
    onboardingCompletedAt: Option<Ms>)

  datatype Window = Window(
    id: Id,
    challengeId: Id,
    windowNumber: int,
    opensAt: Ms,
    closesAt: Ms,
    reminderSentAt: Option<Ms>,
    status: WindowStatus)

  datatype Checkin = Checkin(
    id: Id,
    participantId: Id,
    windowId: Id,
    weight: real,
    waist: real,
    photos: Photos,
    submittedAt: Ms)

  /** A payment row; the table holds at most one per participant, so the store keys it by
      participant id. */
  datatype Payment = Payment(
    status: PaymentStatus,
    markedPaidAt: Option<Ms>,
    confirmedAt: Option<Ms>,
    confirmedBy: Option<UserId>)

  /** A goal row; `participantId` is the table's primary key, so the store keys it by it. */
  datatype Goal = Goal(
    targetWeight: real,
    targetWaist: real,
    isValidated: bool,
    validationResult: Option<GoalVerdict>)

  datatype Commitment = Commitment(participantId: Id, templateId: Id)

  datatype Election = Election(
    id: Id,
    challengeId: Id,
    initiatedBy: UserId,
    status: ElectionStatus,
    createdAt: Ms,
    completedAt: Option<Ms>)

  datatype Vote = Vote(electionId: Id, voterId: UserId, votedForId: UserId, votedAt: Ms)

  /** What a notification is about; the Russian text and keyboards are not modelled. */
  datatype Note =
    | WindowOpened(windowId: Id, windowNumber: int, length: string)
    | WindowClosedRoster(windowId: Id)
    | CheckinReminder(windowId: Id)
    | OnboardingDropped(participantId: Id)
    | HolderChosen(holder: UserId)
    | YouAreHolder
    | PleasePay(participantId: Id)
    | PaymentSelfConfirmed(participantId: Id)
    | ConfirmRequest(participantId: Id)
    | PaymentConfirmed(participantId: Id)
    | ChallengeActivated(challengeId: Id)
    | Ranking(challengeId: Id, order: seq<Id>)
    | FinalResult(participantId: Id, isWinner: bool, payout: real)
    | Ballot(electionId: Id)
    | JoinedPleaseStart(challengeId: Id)
    | ContinueOnboarding
    | StartCheckin(windowId: Id)

  /** One message handed to the messaging channel: recipient chat (a user id for a direct
      message) and subject. */
  datatype Msg = Msg(to: int, note: Note)

  /** The whole store, plus the log of messages the bot has sent on its own initiative (with
      the messaging API's send call: group notices and direct messages) and the next fresh
      row id. Answers in the chat an update came from and alerts on button presses are not
      logged. */
  datatype Db = Db(
    challenges: seq<Challenge>,
    participants: seq<Participant>,
    windows: seq<Window>,
    checkins: seq<Checkin>,
    payments: map<Id, Payment>,
    goals: map<Id, Goal>,
    commitments: seq<Commitment>,
    elections: seq<Election>,
    votes: seq<Vote>,
    sent: seq<Msg>,
    nextId: Id)

  /** Deployment settings the engine reads. `checkinWindowHours` and
      `reminderHoursBeforeClose` are constants of the program; the rest are environment
      variables. */
  datatype Env = Env(
    durationUnit: DurationUnit,
    checkinPeriodMinutes: int,
    checkinPeriodDays: int,
    checkinWindowHours: int,
    reminderHoursBeforeClose: int)

  /** The environment schema admits a non-negative minute period and a positive day period. */
  predicate ValidEnv(env: Env) {
    env.checkinPeriodMinutes >= 0 && env.checkinPeriodDays > 0
  }

  const HourMs: int := 60 * 60 * 1000
  const DayMs: int := 24 * HourMs

  /** The spacing between consecutive check-in windows: minutes when configured, else days. */
  function CheckinPeriodMs(env: Env): (p: int)
    ensures ValidEnv(env) ==> p > 0
    ensures env.checkinPeriodMinutes > 0 ==> p == env.checkinPeriodMinutes * 60000
    ensures env.checkinPeriodMinutes <= 0 ==> p == env.checkinPeriodDays * DayMs
  {
    if env.checkinPeriodMinutes > 0 then env.checkinPeriodMinutes * 60 * 1000
    else env.checkinPeriodDays * 24 * 60 * 60 * 1000
  }

  // ---------------------------------------------------------------------------------------
  // Status groups used by several queries

  /** Participants who may vote in, be elected by, and are counted by the bank-holder election. */
  predicate ElectionEligible(s: ParticipantStatus) {
    s == PendingPayment || s == PaymentMarked || s == ParticipantStatus.Active
  }

  /** Participant statuses that hold back activation of a challenge. */
  predicate BlocksActivation(s: ParticipantStatus) {
    s == Onboarding || s == PendingPayment || s == PaymentMarked
  }

  /** Participant statuses that count as a live participation for the join guard. */
  predicate LiveParticipation(s: ParticipantStatus) {
    BlocksActivation(s) || s == ParticipantStatus.Active
  }

  /** Challenge statuses that count as live for the join guard and the chat commands. */
  predicate LiveChallenge(s: ChallengeStatus) {
    s == Draft || s == PendingPayments || s == ChallengeStatus.Active
  }

  // ---------------------------------------------------------------------------------------
  // Point lookups

  function FindChallenge(db: Db, id: Id): (r: Option<Challenge>)
    ensures r.Some? ==> r.value in db.challenges && r.value.id == id
    ensures r.None? ==> forall c :: c in db.challenges ==> c.id != id
  {
    Find(db.challenges, (c: Challenge) => c.id == id)
  }

  function FindParticipant(db: Db, id: Id): (r: Option<Participant>)
    ensures r.Some? ==> r.value in db.participants && r.value.id == id
    ensures r.None? ==> forall p :: p in db.participants ==> p.id != id
  {
    Find(db.participants, (p: Participant) => p.id == id)
  }

  /** The participant row of `userId` in challenge `challengeId`. */
  function FindMember(db: Db, challengeId: Id, userId: UserId): (r: Option<Participant>)
    ensures r.Some? ==> r.value in db.participants && r.value.challengeId == challengeId && r.value.userId == userId
    ensures r.None? ==> forall p :: p in db.participants ==> !(p.challengeId == challengeId && p.userId == userId)
  {
    Find(db.participants, (p: Participant) => p.challengeId == challengeId && p.userId == userId)
  }

  /** The chat's live challenge: the first one in a draft, pending-payments or active state. */
  function LiveChallengeOf(db: Db, chatId: ChatId): (r: Option<Challenge>)
    ensures r.Some? ==> r.value in db.challenges && r.value.chatId == chatId && LiveChallenge(r.value.status)
    ensures r.None? ==> forall c :: c in db.challenges ==> !(c.chatId == chatId && LiveChallenge(c.status))
  {
    Find(db.challenges, (c: Challenge) => c.chatId == chatId && LiveChallenge(c.status))
  }

  function FindWindow(db: Db, id: Id): (r: Option<Window>)
    ensures r.Some? ==> r.value in db.windows && r.value.id == id
    ensures r.None? ==> forall w :: w in db.windows ==> w.id != id
  {
    Find(db.windows, (w: Window) => w.id == id)
  }

  function FindElection(db: Db, id: Id): (r: Option<Election>)
    ensures r.Some? ==> r.value in db.elections && r.value.id == id
    ensures r.None? ==> forall e :: e in db.elections ==> e.id != id
  {
    Find(db.elections, (e: Election) => e.id == id)
  }

  /** Whether `participantId` has a check-in for `windowId`. */
  predicate HasCheckin(db: Db, participantId: Id, windowId: Id) {
    exists i :: 0 <= i < |db.checkins| && db.checkins[i].participantId == participantId && db.checkins[i].windowId == windowId
  }

  /** Participants of a challenge with a given status, in storage order. */
  function MembersWithStatus(db: Db, challengeId: Id, s: ParticipantStatus): (r: seq<Participant>)
    ensures forall p :: p in r <==> p in db.participants && p.challengeId == challengeId && p.status == s
  {
    Filter(db.participants, (p: Participant) => p.challengeId == challengeId && p.status == s)
  }

  // ---------------------------------------------------------------------------------------
  // Row updates by primary key

  function SetChallenge(db: Db, id: Id, f: Challenge -> Challenge): (r: Db)
    ensures r.participants == db.participants && r.windows == db.windows && r.checkins == db.checkins
    ensures r.payments == db.payments && r.elections == db.elections && r.votes == db.votes
    ensures r.sent == db.sent && r.nextId == db.nextId && r.goals == db.goals && r.commitments == db.commitments
    ensures |r.challenges| == |db.challenges|
    ensures forall i :: 0 <= i < |db.challenges| ==>
      r.challenges[i] == (if db.challenges[i].id == id then f(db.challenges[i]) else db.challenges[i])
  {
    db.(challenges := seq(|db.challenges|, i requires 0 <= i < |db.challenges| =>
      if db.challenges[i].id == id then f(db.challenges[i]) else db.challenges[i]))
  }

  /** Applies `f` to every participant row; `f` returns the row unchanged where the update's
      `where` clause does not match. */
  function MapParticipants(db: Db, f: Participant -> Participant): (r: Db)
    ensures r.challenges == db.challenges && r.windows == db.windows && r.checkins == db.checkins
    ensures r.payments == db.payments && r.elections == db.elections && r.votes == db.votes
    ensures r.sent == db.sent && r.nextId == db.nextId && r.goals == db.goals && r.commitments == db.commitments
    ensures |r.participants| == |db.participants|
    ensures forall i :: 0 <= i < |db.participants| ==> r.participants[i] == f(db.participants[i])
  {
    db.(participants := seq(|db.participants|, i requires 0 <= i < |db.participants| => f(db.participants[i])))
  }

  /** An update that keeps primary keys: the lookup by id finds the updated version of the
      row it found before. */
  lemma FindParticipantAfterMap(db: Db, f: Participant -> Participant, id: Id)
    requires forall p :: f(p).id == p.id
    ensures FindParticipant(MapParticipants(db, f), id).Some? <==> FindParticipant(db, id).Some?
    ensures FindParticipant(db, id).Some? ==> FindParticipant(MapParticipants(db, f), id).value == f(FindParticipant(db, id).value)
  {
    var t := MapParticipants(db, f).participants;
    FindSameIndex(db.participants, t, (p: Participant) => p.id == id);
  }

  function SetWindow(db: Db, id: Id, f: Window -> Window): (r: Db)
    ensures r.challenges == db.challenges && r.participants == db.participants && r.checkins == db.checkins
    ensures r.payments == db.payments && r.elections == db.elections && r.votes == db.votes
    ensures r.sent == db.sent && r.nextId == db.nextId && r.goals == db.goals && r.commitments == db.commitments
    ensures |r.windows| == |db.windows|
    ensures forall i :: 0 <= i < |db.windows| ==>
      r.windows[i] == (if db.windows[i].id == id then f(db.windows[i]) else db.windows[i])
  {
    db.(windows := seq(|db.windows|, i requires 0 <= i < |db.windows| =>
      if db.windows[i].id == id then f(db.windows[i]) else db.windows[i]))
  }

  function SetElection(db: Db, id: Id, f: Election -> Election): (r: Db)
    ensures r.challenges == db.challenges && r.participants == db.participants && r.checkins == db.checkins
    ensures r.payments == db.payments && r.windows == db.windows && r.votes == db.votes
    ensures r.sent == db.sent && r.nextId == db.nextId && r.goals == db.goals && r.commitments == db.commitments
    ensures |r.elections| == |db.elections|
    ensures forall i :: 0 <= i < |db.elections| ==>
      r.elections[i] == (if db.elections[i].id == id then f(db.elections[i]) else db.elections[i])
  {
    db.(elections := seq(|db.elections|, i requires 0 <= i < |db.elections| =>
      if db.elections[i].id == id then f(db.elections[i]) else db.elections[i]))
  }

  /** The same notice sent privately to each of `ps`, in order. */
  function DirectMessages(ps: seq<Participant>, note: Note): (ms: seq<Msg>)
    ensures |ms| == |ps|
    ensures forall k :: 0 <= k < |ps| ==> ms[k] == Msg(ps[k].userId, note)
  {
    seq(|ps|, k requires 0 <= k < |ps| => Msg(ps[k].userId, note))
  }

  function Send(db: Db, msgs: seq<Msg>): (r: Db)
    ensures r == db.(sent := db.sent + msgs)
  {
    db.(sent := db.sent + msgs)
  }

  // ---------------------------------------------------------------------------------------
  // The store's declared constraints

  /** participants_challenge_user_uniq. */
  predicate UniqueMembers(ps: seq<Participant>) {
    UniqueBy(ps, (p: Participant) => (p.challengeId, p.userId))
  }

  /** checkin_windows_challenge_number_uniq. */
  predicate UniqueWindowNumbers(ws: seq<Window>) {
    UniqueBy(ws, (w: Window) => (w.challengeId, w.windowNumber))
  }

  /** checkins_participant_window_uniq. */
  predicate UniqueCheckins(cs: seq<Checkin>) {
    UniqueBy(cs, (c: Checkin) => (c.participantId, c.windowId))
  }

  /** bank_holder_elections_challenge_uniq: one election per challenge, whatever its status. */
  predicate UniqueElections(es: seq<Election>) {
    UniqueBy(es, (e: Election) => e.challengeId)
  }

  /** bank_holder_votes_election_voter_uniq. */
  predicate UniqueVotes(vs: seq<Vote>) {
    UniqueBy(vs, (v: Vote) => (v.electionId, v.voterId))
  }

  /** participant_commitments_uniq. */
  predicate UniqueCommitments(cs: seq<Commitment>) {
    UniqueBy(cs, (c: Commitment) => (c.participantId, c.templateId))
  }

  /** Primary keys are below the next fresh id. */
  predicate KeysBelow(db: Db) {
    && (forall i :: 0 <= i < |db.challenges| ==> db.challenges[i].id < db.nextId)
    && (forall i :: 0 <= i < |db.participants| ==> db.participants[i].id < db.nextId)
    && (forall i :: 0 <= i < |db.windows| ==> db.windows[i].id < db.nextId)
    && (forall i :: 0 <= i < |db.checkins| ==> db.checkins[i].id < db.nextId)
    && (forall i :: 0 <= i < |db.elections| ==> db.elections[i].id < db.nextId)
  }

  /** Primary keys are unique within each table. */
  predicate UniqueIds(db: Db) {
    && UniqueBy(db.challenges, (c: Challenge) => c.id)
    && UniqueBy(db.participants, (p: Participant) => p.id)
    && UniqueBy(db.windows, (w: Window) => w.id)
    && UniqueBy(db.checkins, (c: Checkin) => c.id)
    && UniqueBy(db.elections, (e: Election) => e.id)
  }

  /** Every participant's counters agree: each closed window counted once, as completed or as
      skipped. Counters start at zero and never go below it. */
  predicate CountersAgree(ps: seq<Participant>) {
    forall i :: 0 <= i < |ps| ==>
      && ps[i].totalCheckins == ps[i].completedCheckins + ps[i].skippedCheckins
      && ps[i].completedCheckins >= 0
      && ps[i].skippedCheckins >= 0
  }

  /** All declared constraints of the store together. */
  predicate Valid(db: Db) {
    && UniqueIds(db)
    && KeysBelow(db)
    && UniqueMembers(db.participants)
    && UniqueWindowNumbers(db.windows)
    && UniqueCheckins(db.checkins)
    && UniqueElections(db.elections)
    && UniqueVotes(db.votes)
    && UniqueCommitments(db.commitments)
    && CountersAgree(db.participants)
  }

  /** The empty store satisfies every constraint. */
  lemma EmptyIsValid()
    ensures Valid(Db([], [], [], [], map[], map[], [], [], [], [], 1))
  {
  }

  /** A freshly joined participant: counters at zero, no metrics, `onboarding`. */
  function NewParticipant(id: Id, challengeId: Id, userId: UserId, now: Ms): (p: Participant)
    ensures p.totalCheckins == 0 && p.completedCheckins == 0 && p.skippedCheckins == 0
    ensures p.status == Onboarding && p.joinedAt == now && p.onboardingCompletedAt.None?
    ensures p.track.None? && p.startWeight.None? && p.startWaist.None? && p.height.None?
  {
    Participant(id, challengeId, userId, None, None, None, None, NoPhotos, 0, 0, 0, None, None, Onboarding, now, None)
  }

  // ---------------------------------------------------------------------------------------
  // Status column values as stored

  function ParticipantStatusName(s: ParticipantStatus): string {
    match s
    case Onboarding => "onboarding"
    case PendingPayment => "pending_payment"
    case PaymentMarked => "payment_marked"
    case Active => "active"
    case Dropped => "dropped"
    case Disqualified => "disqualified"
    case Completed => "completed"
  }

  function ParseParticipantStatus(name: string): (r: Option<ParticipantStatus>)
    ensures r.Some? ==> ParticipantStatusName(r.value) == name
  {
    if name == "onboarding" then Some(Onboarding)
    else if name == "pending_payment" then Some(PendingPayment)
    else if name == "payment_marked" then Some(PaymentMarked)
    else if name == "active" then Some(ParticipantStatus.Active)
    else if name == "dropped" then Some(Dropped)
    else if name == "disqualified" then Some(Disqualified)
    else if name == "completed" then Some(ParticipantStatus.Completed)
    else None
  }

  function ChallengeStatusName(s: ChallengeStatus): string {
    match s
    case Draft => "draft"
    case PendingPayments => "pending_payments"
    case Active => "active"
    case Completed => "completed"
    case Cancelled => "cancelled"
  }

  function ParseChallengeStatus(name: string): (r: Option<ChallengeStatus>)
    ensures r.Some? ==> ChallengeStatusName(r.value) == name
  {
    if name == "draft" then Some(Draft)
    else if name == "pending_payments" then Some(PendingPayments)
    else if name == "active" then Some(ChallengeStatus.Active)
    else if name == "completed" then Some(ChallengeStatus.Completed)
    else if name == "cancelled" then Some(ChallengeStatus.Cancelled)
    else None
  }

  /** The stored status strings name the enumerations one-to-one. */
  lemma StatusNamesRoundTrip(p: ParticipantStatus, c: ChallengeStatus)
    ensures ParseParticipantStatus(ParticipantStatusName(p)) == Some(p)
    ensures ParseChallengeStatus(ChallengeStatusName(c)) == Some(c)
  {
  }
}

=== FILE: settlement.dfy ===
/** Scoring and stake redistribution at the end of a challenge. Scores and money are exact
    reals. */
module Settlement {
  import opened Common
  import opened Schema

  function Clamp0(x: real): (r: real)
    ensures r >= 0.0 && r >= x
    ensures x >= 0.0 ==> r == x
    ensures x <= 0.0 ==> r == 0.0
  {
    if x < 0.0 then 0.0 else x
  }

  /** What goal achievement is computed from: the track, start and target measurements, and
      the latest measurements. */
  datatype GoalInputs = GoalInputs(
    track: Track,
    startWeight: real, startWaist: real,
    targetWeight: real, targetWaist: real,
    currentWeight: real, currentWaist: real)

  /** Progress towards a target in percent; 0 when the target is not ahead of the start. */
  function Progress(moved: real, needed: real): (r: real)
    ensures needed <= 0.0 ==> r == 0.0
    ensures needed > 0.0 && moved >= needed ==> r >= 100.0
    ensures needed > 0.0 && moved <= 0.0 ==> r <= 0.0
  {
    if needed > 0.0 then
      DivAtLeastOne(moved, needed);
      moved / needed * 100.0
    else 0.0
  }

  lemma DivAtLeastOne(x: real, d: real)
    requires d > 0.0
    ensures x >= d ==> x / d >= 1.0
    ensures x <= 0.0 ==> x / d <= 0.0
  {
    if x >= d {
      assert x / d * d == x;
    }
    if x <= 0.0 {
      assert x / d * d == x;
    }
  }

  lemma DivMono(x: real, y: real, d: real)
    requires d > 0.0 && x <= y
    ensures x / d <= y / d
  {
    assert x / d * d == x && y / d * d == y;
  }

  /** Goal achievement in percent. Bulk counts weight gain, 70 percent weight, plus a flat 30;
      cut counts weight loss and waist loss, 70 and 30 percent. Negative progress counts as
      none. */
  function GoalAchievement(g: GoalInputs): (a: real)
    ensures a >= 0.0
    ensures g.track == Bulk ==> a >= 30.0
    ensures g.track == Bulk && g.targetWeight <= g.startWeight ==> a == 30.0
    ensures g.track == Bulk && g.startWeight < g.targetWeight <= g.currentWeight ==> a >= 100.0
    ensures g.track == Cut && g.startWeight <= g.targetWeight && g.startWaist <= g.targetWaist ==> a == 0.0
    ensures (g.track == Cut && g.currentWeight <= g.targetWeight < g.startWeight
             && g.currentWaist <= g.targetWaist < g.startWaist) ==> a >= 100.0
  {
    match g.track
    case Bulk =>
      0.7 * Clamp0(Progress(g.currentWeight - g.startWeight, g.targetWeight - g.startWeight)) + 0.3 * 100.0
    case Cut =>
      0.7 * Clamp0(Progress(g.startWeight - g.currentWeight, g.startWeight - g.targetWeight))
        + 0.3 * Clamp0(Progress(g.startWaist - g.currentWaist, g.startWaist - g.targetWaist))
  }

  /** Moving the current measurements in the goal's direction never lowers the achievement:
      losing weight or waist on a cut, gaining weight on a bulk. */
  lemma {:induction false} GoalAchievementMonotone(g: GoalInputs, weight: real, waist: real)
    requires g.track == Cut ==> weight <= g.currentWeight && waist <= g.currentWaist
    requires g.track == Bulk ==> weight >= g.currentWeight
    ensures GoalAchievement(g.(currentWeight := weight, currentWaist := waist)) >= GoalAchievement(g)
  {
    match g.track
    case Bulk =>
      if g.targetWeight - g.startWeight > 0.0 {
        DivMono(g.currentWeight - g.startWeight, weight - g.startWeight, g.targetWeight - g.startWeight);
      }
    case Cut =>
      if g.startWeight - g.targetWeight > 0.0 {
        DivMono(g.startWeight - g.currentWeight, g.startWeight - weight, g.startWeight - g.targetWeight);
      }
      if g.startWaist - g.targetWaist > 0.0 {
        DivMono(g.startWaist - g.currentWaist, g.startWaist - waist, g.startWaist - g.targetWaist);
      }
  }

  /** Share of closed windows with a check-in, in percent; 100 before any window closed. */
  function Discipline(total: int, completed: int): (d: real)
    ensures total <= 0 ==> d == 100.0
    ensures 0 <= completed <= total && total > 0 ==> 0.0 <= d <= 100.0
    ensures 0 <= completed <= total && total > 0 ==> (d == 100.0 <==> completed == total)
  {
    if total > 0 then
      assert (completed as real) / (total as real) * (total as real) == completed as real;
      (completed as real) / (total as real) * 100.0
    else 100.0
  }

  function TotalScore(goal: real, discipline: real): real {
    0.7 * goal + 0.3 * discipline
  }

  /** Who wins: still in the challenge (active or completed), disciplined enough and at least
      at the goal. */
  predicate IsWinner(status: ParticipantStatus, discipline: real, threshold: real, goal: real) {
    (status == ParticipantStatus.Active || status == ParticipantStatus.Completed)
    && discipline >= threshold * 100.0
    && goal >= 100.0
  }

  /** One participant's final standing. */
  datatype Standing = Standing(
    participantId: Id,
    userId: UserId,
    isWinner: bool,
    discipline: real,
    goal: real,
    total: real)

  function Winners(rs: seq<Standing>): (n: nat)
    ensures n <= |rs|
  {
    if |rs| == 0 then 0 else (if rs[0].isWinner then 1 else 0) + Winners(rs[1..])
  }

  /** What a participant is paid: the stake back to everyone when nobody or everybody won,
      otherwise the stake plus an equal share of the losers' stakes to each winner and nothing
      to the losers. */
  function PayoutFor(winners: nat, losers: nat, isWinner: bool, stake: real): (m: real)
    ensures winners == 0 || losers == 0 ==> m == stake
    ensures winners > 0 && losers > 0 && !isWinner ==> m == 0.0
    ensures winners > 0 && losers > 0 && isWinner && stake >= 0.0 ==> m >= stake
  {
    var pool := (losers as real) * stake;
    var extraPerWinner := if winners > 0 then pool / (winners as real) else 0.0;
    if winners == 0 then stake
    else if losers == 0 then stake
    else if isWinner then
      assert extraPerWinner * (winners as real) == pool;
      stake + extraPerWinner
    else 0.0
  }

  /** `a` for each winner and `b` for each loser, in order. */
  function Picks(rs: seq<Standing>, a: real, b: real): (ms: seq<real>)
    ensures |ms| == |rs|
    ensures forall i :: 0 <= i < |rs| ==> ms[i] == (if rs[i].isWinner then a else b)
  {
    if |rs| == 0 then [] else [if rs[0].isWinner then a else b] + Picks(rs[1..], a, b)
  }

  /** Each standing's payout. */
  function Payouts(rs: seq<Standing>, stake: real): (ms: seq<real>)
    ensures |ms| == |rs|
    ensures forall i :: 0 <= i < |rs| ==> ms[i] == PayoutFor(Winners(rs), |rs| - Winners(rs), rs[i].isWinner, stake)
  {
    var w := Winners(rs);
    Picks(rs, PayoutFor(w, |rs| - w, true, stake), PayoutFor(w, |rs| - w, false, stake))
  }

  function Sum(xs: seq<real>): real {
    if |xs| == 0 then 0.0 else xs[0] + Sum(xs[1..])
  }

  /** `n` copies of `a` added up. */
  function Times(n: nat, a: real): real {
    if n == 0 then 0.0 else a + Times(n - 1, a)
  }

  lemma {:induction false} TimesIsProduct(n: nat, a: real)
    ensures Times(n, a) == (n as real) * a
  {
    if n > 0 {
      TimesIsProduct(n - 1, a);
      assert (n as real) * a == ((n - 1) as real) * a + a;
    }
  }

  /** Summing a fixed winner amount `a` and loser amount `b` over the standings. */
  lemma {:induction false} SumPicks(rs: seq<Standing>, a: real, b: real)
    ensures Sum(Picks(rs, a, b)) == Times(Winners(rs), a) + Times(|rs| - Winners(rs), b)
  {
    if |rs| > 0 {
      assert Picks(rs, a, b)[1..] == Picks(rs[1..], a, b);
      SumPicks(rs[1..], a, b);
      if rs[0].isWinner {
        assert Winners(rs) == Winners(rs[1..]) + 1;
      } else {
        assert Winners(rs) == Winners(rs[1..]);
        assert |rs| - Winners(rs) == (|rs[1..]| - Winners(rs[1..])) + 1;
      }
    }
  }

  /** The payouts always add up to the money collected: one stake per confirmed participant. */
  lemma PayoutConservation(rs: seq<Standing>, stake: real)
    ensures Sum(Payouts(rs, stake)) == (|rs| as real) * stake
  {
    var w := Winners(rs);
    var l := |rs| - w;
    var a := PayoutFor(w, l, true, stake);
    var b := PayoutFor(w, l, false, stake);
    SumPicks(rs, a, b);
    TimesIsProduct(w, a);
    TimesIsProduct(l, b);
    if w > 0 && l > 0 {
      var extra := (l as real) * stake / (w as real);
      assert a == stake + extra && b == 0.0;
      assert extra * (w as real) == (l as real) * stake;
      assert (w as real) * (stake + extra) == (w as real) * stake + (l as real) * stake;
    } else {
      assert a == stake && b == stake;
      assert (w as real) * stake + (l as real) * stake == ((w + l) as real) * stake;
    }
  }

  /** With a goal of 10 kg and 10 cm lost on a cut, meeting both targets exactly is a win for
      an active participant with a full check-in record at any threshold up to 100 percent. */
  lemma CutTargetMetExample(threshold: real)
    requires threshold <= 1.0
    ensures var g := GoalAchievement(GoalInputs(Cut, 100.0, 100.0, 90.0, 90.0, 90.0, 90.0));
      g == 100.0 && IsWinner(ParticipantStatus.Active, Discipline(2, 2), threshold, g)
  {
  }
}

=== FILE: status_labels.dfy ===
/** Russian labels for participant and challenge statuses as shown in messages: a fixed label
    for each stored status, a dash for a missing one, and any other value shown with its
    underscores turned into spaces. */
module StatusLabels {
  import opened Common
  import opened Schema
  import Md = TelegramMarkdown

  const ParticipantLabels: map<string, string> := map[
    "onboarding" := "Онбординг",
    "pending_payment" := "Ожидает оплату",
    "payment_marked" := "Оплата отмечена",
    "active" := "Активно",
    "dropped" := "Вышел",
    "disqualified" := "Дисквалифицирован",
    "completed" := "Завершено"
  ]

  const ChallengeLabels: map<string, string> := map[
    "draft" := "Набор участников",
    "pending_payments" := "Сбор оплат",
    "active" := "Активен",
    "completed" := "Завершён",
    "cancelled" := "Отменён"
  ]

  const Dash: string := "—"

  /** A value without a label is shown with its underscores as spaces. */
  function Fallback(status: string): (r: string)
    ensures |r| == |status|
    ensures forall i :: 0 <= i < |r| ==> r[i] != '_'
    ensures forall i :: 0 <= i < |r| ==> status[i] != '_' ==> r[i] == status[i]
    ensures forall i :: 0 <= i < |r| ==> status[i] == '_' ==> r[i] == ' '
  {
    FallbackPointwise(status);
    Md.ReplaceAll(status, '_', " ")
  }

  lemma {:induction false} FallbackPointwise(s: string)
    ensures |Md.ReplaceAll(s, '_', " ")| == |s|
    ensures forall i :: 0 <= i < |s| ==> Md.ReplaceAll(s, '_', " ")[i] == (if s[i] == '_' then ' ' else s[i])
  {
    if |s| > 0 {
      FallbackPointwise(s[1..]);
      var r := Md.ReplaceAll(s, '_', " ");
      var tail := Md.ReplaceAll(s[1..], '_', " ");
      assert r == [if s[0] == '_' then ' ' else s[0]] + tail;
      forall i | 1 <= i < |s| ensures r[i] == (if s[i] == '_' then ' ' else s[i]) {
        assert r[i] == tail[i - 1] && s[1..][i - 1] == s[i];
      }
    }
  }

  /** A status label: `null`, `undefined` and `""` are all falsy and give the dash. */
  function Label(labels: map<string, string>, status: Option<string>): (r: string)
    ensures status.None? || |status.value| == 0 ==> r == Dash
    ensures status.Some? && status.value in labels ==> |status.value| == 0 || r == labels[status.value]
    ensures status.Some? && |status.value| > 0 && status.value !in labels ==> r == Fallback(status.value)
  {
    match status
    case None => Dash
    case Some(s) =>
      if |s| == 0 then Dash
      else if s in labels then labels[s]
      else Fallback(s)
  }

  /** `formatParticipantStatusRu`. */
  function ParticipantStatusLabel(status: Option<string>): (r: string)
    ensures status.None? || |status.value| == 0 ==> r == Dash
    ensures status.Some? && |status.value| > 0 && status.value !in ParticipantLabels ==> r == Fallback(status.value)
  {
    Label(ParticipantLabels, status)
  }

  /** `formatChallengeStatusRu`. */
  function ChallengeStatusLabel(status: Option<string>): (r: string)
    ensures status.None? || |status.value| == 0 ==> r == Dash
    ensures status.Some? && |status.value| > 0 && status.value !in ChallengeLabels ==> r == Fallback(status.value)
  {
    Label(ChallengeLabels, status)
  }

  /** Every stored participant status has its own fixed label: none is the dash, none is a
      fallback, and no two statuses share one. */
  lemma ParticipantLabelsFixed(s: ParticipantStatus, t: ParticipantStatus)
    ensures ParticipantStatusName(s) in ParticipantLabels
    ensures ParticipantStatusLabel(Some(ParticipantStatusName(s))) == ParticipantLabels[ParticipantStatusName(s)]
    ensures ParticipantStatusLabel(Some(ParticipantStatusName(s))) != Dash
    ensures s != t ==> ParticipantStatusLabel(Some(ParticipantStatusName(s))) != ParticipantStatusLabel(Some(ParticipantStatusName(t)))
  {
  }

  /** Every stored challenge status has its own fixed label. */
  lemma ChallengeLabelsFixed(s: ChallengeStatus, t: ChallengeStatus)
    ensures ChallengeStatusName(s) in ChallengeLabels
    ensures ChallengeStatusLabel(Some(ChallengeStatusName(s))) == ChallengeLabels[ChallengeStatusName(s)]
    ensures ChallengeStatusLabel(Some(ChallengeStatusName(s))) != Dash
    ensures s != t ==> ChallengeStatusLabel(Some(ChallengeStatusName(s))) != ChallengeStatusLabel(Some(ChallengeStatusName(t)))
  {
  }

  /** The labels are keyed exactly by the stored statuses. */
  lemma LabelKeysAreStatuses(k: string)
    ensures k in ParticipantLabels <==> exists s: ParticipantStatus :: ParticipantStatusName(s) == k
    ensures k in ChallengeLabels <==> exists s: ChallengeStatus :: ChallengeStatusName(s) == k
  {
    if k in ParticipantLabels {
      var s: ParticipantStatus :|
        s in {Onboarding, PendingPayment, PaymentMarked, ParticipantStatus.Active, Dropped, Disqualified, ParticipantStatus.Completed}
        && ParticipantStatusName(s) == k;
    }
    if k in ChallengeLabels {
      var s: ChallengeStatus :|
        s in {ChallengeStatus.Draft, PendingPayments, ChallengeStatus.Active, ChallengeStatus.Completed, ChallengeStatus.Cancelled}
        && ChallengeStatusName(s) == k;
    }
  }

  /** An unknown value such as "on_hold" reads "on hold". */
  lemma UnknownStatusSpaced()
    ensures ParticipantStatusLabel(Some("on_hold")) == "on hold"
  {
    var s := "on_hold";
    assert s[0] == 'o' && s[1] == 'n' && s[2] == '_';
    assert s !in ParticipantLabels.Keys;
    var r := ParticipantStatusLabel(Some(s));
    assert r == Fallback(s);
    assert |r| == 7;
    assert r[0] == 'o' && r[1] == 'n' && r[2] == ' ' && r[3] == 'h' && r[4] == 'o' && r[5] == 'l' && r[6] == 'd';
  }
}

=== FILE: sweeps.dfy ===
/** The periodic sweeps of the scheduler, each a fold over the rows it selects when it starts:
    opening due windows, check-in reminders, closing due windows, dropping participants stuck
    in onboarding and finalising overdue bank-holder elections. */
module Sweeps {
  import opened Common
  import opened Schema
  import opened WindowClosing
  import opened WindowLabels
  import Holder = Election

  function OpensAtKey(w: Window): int {
    w.opensAt
  }

  function IdsOf(ws: seq<Window>): set<Id> {
    set w | w in ws :: w.id
  }

  /** Window ids are distinct (the table's primary key). */
  predicate DistinctIds(ws: seq<Window>) {
    forall i, j :: 0 <= i < j < |ws| ==> ws[i].id != ws[j].id
  }

  /** With distinct ids a row is identified by its id. */
  lemma RowOfId(ws: seq<Window>, i: int, j: int)
    requires DistinctIds(ws) && 0 <= i < |ws| && 0 <= j < |ws|
    ensures ws[i].id == ws[j].id ==> i == j
  {
  }

  lemma SameSlotsTrans(a: seq<Window>, b: seq<Window>, c: seq<Window>)
    requires SameSlots(a, b) && SameSlots(b, c)
    ensures SameSlots(a, c)
    ensures NoneRescheduled(a, b) && NoneRescheduled(b, c) ==> NoneRescheduled(a, c)
  {
  }

  lemma SameSlotsKeepIds(a: seq<Window>, b: seq<Window>)
    requires SameSlots(a, b) && DistinctIds(a)
    ensures DistinctIds(b)
  {
    forall i, j | 0 <= i < j < |b| ensures b[i].id != b[j].id {
      assert a[i].id != a[j].id;
    }
  }

  // ---------------------------------------------------------------------------------------
  // Closing several windows

  /** Closes each window of `ws` in turn. */
  function CloseEach(db: Db, ws: seq<Window>, notify: bool, override: Option<Ms>): (r: Db)
    ensures r == db.(windows := r.windows, participants := r.participants, sent := r.sent)
    ensures |r.participants| == |db.participants|
    ensures !notify ==> r.sent == db.sent
    ensures SameSlots(db.windows, r.windows) && NoneRescheduled(db.windows, r.windows)
    ensures forall i :: 0 <= i < |db.windows| && db.windows[i].id !in IdsOf(ws) ==> r.windows[i] == db.windows[i]
    ensures forall i :: 0 <= i < |db.windows| && db.windows[i].id in IdsOf(ws) ==> r.windows[i].status == Closed
    ensures override.Some? ==> forall i :: 0 <= i < |db.windows| && db.windows[i].id in IdsOf(ws) ==>
      r.windows[i].closesAt <= override.value
    ensures CountersAgree(db.participants) ==> CountersAgree(r.participants)
    decreases |ws|
  {
    if |ws| == 0 then db
    else
      var db1 := CloseWindow(db, ws[0], notify, override);
      CloseWindowStatuses(db, ws[0], notify, override);
      assert IdsOf(ws) == {ws[0].id} + IdsOf(ws[1..]);
      CloseEach(db1, ws[1..], notify, override)
  }

  // ---------------------------------------------------------------------------------------
  // Opening windows

  /** Scheduled windows whose opening time has come, earliest first. */
  function DueToOpen(db: Db, now: Ms): (due: seq<Window>)
    ensures SortedBy(due, OpensAtKey)
    ensures forall w :: w in due <==> w in db.windows && w.status == Scheduled && w.opensAt <= now
  {
    var s := Filter(db.windows, (w: Window) => w.status == Scheduled && w.opensAt <= now);
    SortByElements(s, OpensAtKey);
    SortBy(s, OpensAtKey)
  }

  /** The first window of the same challenge opening after `w`. */
  function NextWindow(db: Db, w: Window): (r: Option<Window>)
    ensures r.Some? ==> r.value in db.windows && r.value.challengeId == w.challengeId && r.value.opensAt > w.opensAt
    ensures r.Some? ==> forall x :: x in db.windows && x.challengeId == w.challengeId && x.opensAt > w.opensAt ==>
      r.value.opensAt <= x.opensAt
    ensures r.None? ==> forall x :: x in db.windows && x.challengeId == w.challengeId ==> x.opensAt <= w.opensAt
  {
    var later := Later(db.windows, w);
    SortByElements(later, OpensAtKey);
    var sorted := SortBy(later, OpensAtKey);
    if |sorted| == 0 then None
    else
      assert sorted[0] in later;
      Some(sorted[0])
  }

  /** The windows of `w`'s challenge opening after it. */
  function Later(ws: seq<Window>, w: Window): (r: seq<Window>)
    ensures forall x :: x in r <==> x in ws && x.challengeId == w.challengeId && x.opensAt > w.opensAt
  {
    Filter(ws, (x: Window) => x.challengeId == w.challengeId && x.opensAt > w.opensAt)
  }

  /** The closing time `w` gets when it opens: cut back to the next window's opening when the
      two would overlap. */
  function ClampedCloses(db: Db, w: Window): (t: Ms)
    ensures t <= w.closesAt
    ensures NextWindow(db, w).Some? ==> t <= NextWindow(db, w).value.opensAt
    ensures t == w.closesAt || (NextWindow(db, w).Some? && t == NextWindow(db, w).value.opensAt)
  {
    match NextWindow(db, w)
    case Some(n) => if w.closesAt > n.opensAt then n.opensAt else w.closesAt
    case None => w.closesAt
  }

  /** Windows of `w`'s challenge still open although they opened before `w`. */
  function EarlierOpen(db: Db, w: Window): (r: seq<Window>)
    ensures forall x :: x in r <==> x in db.windows && x.challengeId == w.challengeId && x.status == Open && x.opensAt < w.opensAt
  {
    Filter(db.windows, (x: Window) => x.challengeId == w.challengeId && x.status == Open && x.opensAt < w.opensAt)
  }

  /** Whether `x` is closed as a leftover when `w` opens. */
  predicate Superseded(x: Window, w: Window) {
    x.id != w.id && x.challengeId == w.challengeId && x.status == Open && x.opensAt < w.opensAt
  }

  /** The notice sent when `w` opens with closing time `closesAt`. */
  function OpenedNote(w: Window, closesAt: Ms): Note {
    WindowOpened(w.id, w.windowNumber, FormatWindowDuration(closesAt - w.opensAt))
  }

  /** Cuts `w`'s closing time back to the next window's opening when the two overlap. */
  function Clamp(db: Db, w: Window): (r: Db)
    ensures r == db.(windows := r.windows)
    ensures SameSlots(db.windows, r.windows)
    ensures forall i :: 0 <= i < |db.windows| ==> r.windows[i].status == db.windows[i].status
    ensures forall i :: 0 <= i < |db.windows| ==>
      r.windows[i] == (if db.windows[i].id == w.id && ClampedCloses(db, w) != w.closesAt
        then db.windows[i].(closesAt := ClampedCloses(db, w)) else db.windows[i])
  {
    var closesAt := ClampedCloses(db, w);
    if closesAt != w.closesAt then SetWindow(db, w.id, (x: Window) => x.(closesAt := closesAt))
    else db
  }

  function SetOpen(db: Db, id: Id): (r: Db)
    ensures r == db.(windows := r.windows)
    ensures SameSlots(db.windows, r.windows) && NoneRescheduled(db.windows, r.windows)
    ensures forall i :: 0 <= i < |db.windows| ==>
      r.windows[i] == (if db.windows[i].id == id then db.windows[i].(status := Open) else db.windows[i])
  {
    SetWindow(db, id, (x: Window) => x.(status := Open))
  }

  /** The row changes of opening `w`: cut its closing time back to the next window's
      opening, silently close the earlier windows still open at its opening time, mark it
      open. */
  function MarkOpen(db: Db, w: Window): (r: Db)
    ensures r == db.(windows := r.windows, participants := r.participants)
    ensures |r.participants| == |db.participants|
    ensures SameSlots(db.windows, r.windows) && NoneRescheduled(db.windows, r.windows)
    ensures forall i :: 0 <= i < |db.windows| && db.windows[i].id == w.id ==> r.windows[i].status == Open
    ensures CountersAgree(db.participants) ==> CountersAgree(r.participants)
  {
    var db1 := Clamp(db, w);
    var db2 := CloseEach(db1, EarlierOpen(db1, w), false, Some(w.opensAt));
    var r := SetOpen(db2, w.id);
    MarkOpenSteps(db, db1, db2, r, w.id);
    r
  }

  /** The three steps of opening compose: the slots and the closed rows stay, the window
      ends open. */
  lemma MarkOpenSteps(db: Db, db1: Db, db2: Db, r: Db, id: Id)
    requires db1 == db.(windows := db1.windows) && SameSlots(db.windows, db1.windows)
    requires forall i :: 0 <= i < |db.windows| ==> db1.windows[i].status == db.windows[i].status
    requires db2 == db1.(windows := db2.windows, participants := db2.participants) && |db2.participants| == |db1.participants|
    requires SameSlots(db1.windows, db2.windows) && NoneRescheduled(db1.windows, db2.windows)
    requires CountersAgree(db1.participants) ==> CountersAgree(db2.participants)
    requires r == db2.(windows := r.windows)
    requires SameSlots(db2.windows, r.windows) && NoneRescheduled(db2.windows, r.windows)
    requires forall i :: 0 <= i < |db2.windows| && db2.windows[i].id == id ==> r.windows[i].status == Open
    ensures r == db.(windows := r.windows, participants := r.participants)
    ensures |r.participants| == |db.participants|
    ensures SameSlots(db.windows, r.windows) && NoneRescheduled(db.windows, r.windows)
    ensures forall i :: 0 <= i < |db.windows| && db.windows[i].id == id ==> r.windows[i].status == Open
    ensures CountersAgree(db.participants) ==> CountersAgree(r.participants)
  {
    SameSlotsTrans(db.windows, db1.windows, db2.windows);
    SameSlotsTrans(db.windows, db2.windows, r.windows);
  }

  /** Announces the opening of `w` to the group of its challenge, then privately to every
      active participant; nothing is sent for a vanished challenge. */
  function Announce(db: Db, w: Window, closesAt: Ms): (r: Db)
    ensures r == db.(sent := r.sent)
    ensures FindChallenge(db, w.challengeId).None? ==> r.sent == db.sent
    ensures FindChallenge(db, w.challengeId).Some? ==>
      var note := OpenedNote(w, closesAt);
      r.sent == db.sent + [Msg(FindChallenge(db, w.challengeId).value.chatId, note)]
                        + DirectMessages(MembersWithStatus(db, w.challengeId, ParticipantStatus.Active), note)
  {
    match FindChallenge(db, w.challengeId)
    case None => db
    case Some(c) =>
      var note := OpenedNote(w, closesAt);
      var active := MembersWithStatus(db, w.challengeId, ParticipantStatus.Active);
      Send(db, [Msg(c.chatId, note)] + DirectMessages(active, note))
  }

  /** Opens one due window and announces it with its clamped length. */
  function OpenOne(db: Db, w: Window): (r: Db)
    ensures r.challenges == db.challenges && r.nextId == db.nextId
    ensures db.sent <= r.sent
  {
    Announce(MarkOpen(db, w), w, ClampedCloses(db, w))
  }

  /** What opening `w` does to the window rows, with distinct window ids: `w` becomes open
      with its clamped closing time, the earlier windows of its challenge still open are
      closed no later than `w`'s opening, every other row is untouched. */
  lemma OpenOneWindows(db: Db, w: Window)
    requires DistinctIds(db.windows)
    requires w in db.windows
    ensures var r := MarkOpen(db, w);
      forall i :: 0 <= i < |db.windows| ==>
        && (db.windows[i].id == w.id ==> r.windows[i] == db.windows[i].(status := Open, closesAt := ClampedCloses(db, w)))
        && (Superseded(db.windows[i], w) ==> r.windows[i].status == Closed && r.windows[i].closesAt <= w.opensAt)
        && (db.windows[i].id != w.id && !Superseded(db.windows[i], w) ==> r.windows[i] == db.windows[i])
  {
    forall i | 0 <= i < |db.windows| {
      OpenOneWindowAt(db, w, i);
    }
  }

  /** `OpenOneWindows` for the row at index `i`. */
  lemma OpenOneWindowAt(db: Db, w: Window, i: int)
    requires DistinctIds(db.windows)
    requires w in db.windows
    requires 0 <= i < |db.windows|
    ensures var r := MarkOpen(db, w);
      && (db.windows[i].id == w.id ==> r.windows[i] == db.windows[i].(status := Open, closesAt := ClampedCloses(db, w)))
      && (Superseded(db.windows[i], w) ==> r.windows[i].status == Closed && r.windows[i].closesAt <= w.opensAt)
      && (db.windows[i].id != w.id && !Superseded(db.windows[i], w) ==> r.windows[i] == db.windows[i])
  {
    var db1 := Clamp(db, w);
    var prevs := EarlierOpen(db1, w);
    var db2 := CloseEach(db1, prevs, false, Some(w.opensAt));
    assert MarkOpen(db, w) == SetOpen(db2, w.id);
    var x := db.windows[i];
    EarlierOpenIds(db, w, i);
    if x.id == w.id {
      var k :| 0 <= k < |db.windows| && db.windows[k] == w;
      RowOfId(db.windows, i, k);
    }
  }

  /** The rows closed as leftovers when `w` opens are exactly those it supersedes. */
  lemma EarlierOpenIds(db: Db, w: Window, i: int)
    requires DistinctIds(db.windows)
    requires w in db.windows
    requires 0 <= i < |db.windows|
    ensures db.windows[i].id in IdsOf(EarlierOpen(Clamp(db, w), w)) <==> Superseded(db.windows[i], w)
  {
    var db1 := Clamp(db, w);
    forall j | 0 <= j < |db.windows| && db.windows[j].id != w.id ensures db1.windows[j] == db.windows[j] {
    }
    SupersededIds(db.windows, db1.windows, w, EarlierOpen(db1, w), i);
  }

  /** Rows `b` that differ from `a` at most in the closing time of `w`: those of `b` still
      open before `w` in its challenge carry the ids of the rows of `a` that `w` supersedes. */
  lemma SupersededIds(a: seq<Window>, b: seq<Window>, w: Window, prevs: seq<Window>, i: int)
    requires DistinctIds(a) && w in a && 0 <= i < |a|
    requires SameSlots(a, b)
    requires forall j :: 0 <= j < |a| ==> b[j].status == a[j].status
    requires forall j :: 0 <= j < |a| && a[j].id != w.id ==> b[j] == a[j]
    requires forall x :: x in prevs <==> x in b && x.challengeId == w.challengeId && x.status == Open && x.opensAt < w.opensAt
    ensures a[i].id in IdsOf(prevs) <==> Superseded(a[i], w)
  {
    var x := a[i];
    var k :| 0 <= k < |a| && a[k] == w;
    RowOfId(a, i, k);
    if Superseded(x, w) {
      assert b[i] == x;
      assert x in prevs;
    }
    if x.id in IdsOf(prevs) {
      var y :| y in prevs && y.id == x.id;
      var j :| 0 <= j < |b| && b[j] == y;
      RowOfId(a, i, j);
    }
  }

  /** Opens each window of `ws` in turn. */
  function OpenEach(db: Db, ws: seq<Window>): (r: Db)
    ensures r.challenges == db.challenges && r.checkins == db.checkins && r.payments == db.payments
    ensures r.elections == db.elections && r.votes == db.votes && r.goals == db.goals
    ensures r.commitments == db.commitments && r.nextId == db.nextId
    ensures SameSlots(db.windows, r.windows) && NoneRescheduled(db.windows, r.windows)
    ensures forall i :: 0 <= i < |db.windows| && db.windows[i].id in IdsOf(ws) ==> r.windows[i].status != Scheduled
    ensures CountersAgree(db.participants) ==> CountersAgree(r.participants)
    ensures db.sent <= r.sent
    decreases |ws|
  {
    if |ws| == 0 then db
    else
      var db1 := OpenOne(db, ws[0]);
      assert db1 == MarkOpen(db, ws[0]).(sent := db1.sent);
      assert IdsOf(ws) == {ws[0].id} + IdsOf(ws[1..]);
      OpenEach(db1, ws[1..])
  }

  /** The opening sweep: after it no window whose opening time has come is still
      scheduled. */
  function OpenSweep(db: Db, now: Ms): (r: Db)
    ensures SameSlots(db.windows, r.windows) && NoneRescheduled(db.windows, r.windows)
    ensures forall i :: 0 <= i < |db.windows| && db.windows[i].status == Scheduled && db.windows[i].opensAt <= now ==>
      r.windows[i].status != Scheduled
    ensures r.challenges == db.challenges && r.nextId == db.nextId
    ensures CountersAgree(db.participants) ==> CountersAgree(r.participants)
  {
    var due := DueToOpen(db, now);
    var r := OpenEach(db, due);
    assert forall i :: 0 <= i < |db.windows| && db.windows[i].status == Scheduled && db.windows[i].opensAt <= now ==>
      db.windows[i] in due;
    r
  }

  // ---------------------------------------------------------------------------------------
  // Reminders

  /** Open windows closing within the reminder lead time and not yet reminded. */
  function ReminderDue(db: Db, now: Ms, leadMs: int): (due: seq<Window>)
    ensures forall w :: w in due <==>
      w in db.windows && w.status == Open && w.closesAt <= now + leadMs && w.reminderSentAt.None?
  {
    Filter(db.windows, (w: Window) => w.status == Open && w.closesAt <= now + leadMs && w.reminderSentAt.None?)
  }

  function MarkReminded(db: Db, w: Window, now: Ms): (r: Db)
    ensures r == SetWindow(db, w.id, (x: Window) => x.(reminderSentAt := Some(now)))
  {
    SetWindow(db, w.id, (x: Window) => x.(reminderSentAt := Some(now)))
  }

  /** Every row of window `id` records a reminder. */
  predicate Reminded(ws: seq<Window>, id: Id) {
    forall x :: x in ws && x.id == id ==> x.reminderSentAt.Some?
  }

  /** Active participants of `w`'s challenge without a check-in for it, in storage order. */
  function Missing(db: Db, w: Window): (ps: seq<Participant>)
    ensures forall p :: p in ps <==> p in db.participants && Misses(db, p, w)
    ensures |ps| <= |MembersWithStatus(db, w.challengeId, ParticipantStatus.Active)|
  {
    Filter(MembersWithStatus(db, w.challengeId, ParticipantStatus.Active), (p: Participant) => !HasCheckin(db, p.id, w.id))
  }

  /** The sweep passes over `w` without marking it: `w` is longer than the lead time and its
      challenge is gone or has no active participant. */
  predicate Passed(db: Db, w: Window, leadMs: int) {
    && w.closesAt - w.opensAt > leadMs
    && (FindChallenge(db, w.challengeId).None? || |MembersWithStatus(db, w.challengeId, ParticipantStatus.Active)| == 0)
  }

  /** The ids a reminder sweep over `ws` marks as reminded. */
  function MarkedIds(db: Db, ws: seq<Window>, leadMs: int): set<Id> {
    set w | w in ws && !Passed(db, w, leadMs) :: w.id
  }

  /** Reminds about one window: windows no longer than the lead time are only marked; a
      window of a vanished challenge or with no active participant is left unmarked; the
      group and every active participant without a check-in are reminded, then the window is
      marked. */
  function RemindOne(db: Db, w: Window, now: Ms, leadMs: int): (r: Db)
    ensures r.challenges == db.challenges && r.participants == db.participants && r.checkins == db.checkins
    ensures r.payments == db.payments && r.elections == db.elections && r.votes == db.votes
    ensures r.goals == db.goals && r.commitments == db.commitments && r.nextId == db.nextId
    ensures r.windows == (if Passed(db, w, leadMs) then db.windows else MarkReminded(db, w, now).windows)
    ensures w.closesAt - w.opensAt <= leadMs ==> r.sent == db.sent && r.windows == MarkReminded(db, w, now).windows
    ensures r.sent != db.sent ==> r.windows == MarkReminded(db, w, now).windows
    ensures r.sent != db.sent ==>
      && FindChallenge(db, w.challengeId).Some?
      && r.sent == db.sent + [Msg(FindChallenge(db, w.challengeId).value.chatId, CheckinReminder(w.id))]
                           + DirectMessages(Missing(db, w), CheckinReminder(w.id))
    ensures w.closesAt - w.opensAt > leadMs && FindChallenge(db, w.challengeId).Some? && |Missing(db, w)| > 0 ==>
      r.sent != db.sent
  {
    if w.closesAt - w.opensAt <= leadMs then MarkReminded(db, w, now)
    else match FindChallenge(db, w.challengeId)
    case None => db
    case Some(c) =>
      var active := MembersWithStatus(db, w.challengeId, ParticipantStatus.Active);
      if |active| == 0 then
        db
      else
        var missing := Missing(db, w);
        if |missing| == 0 then MarkReminded(db, w, now)
        else
          var note := CheckinReminder(w.id);
          MarkReminded(Send(db, [Msg(c.chatId, note)] + DirectMessages(missing, note)), w, now)
  }

  /** A reminder goes out at most once per window: once messages were sent for `w`, no row
      of `w` is selected by a later reminder sweep, whatever its time or lead. */
  lemma {:induction false} RemindedNotDueAgain(db: Db, w: Window, now: Ms, leadMs: int, later: Ms, leadMs2: int)
    requires RemindOne(db, w, now, leadMs).sent != db.sent
    ensures forall x :: x in ReminderDue(RemindOne(db, w, now, leadMs), later, leadMs2) ==> x.id != w.id
  {
    MarkedAreReminded(db, w, now);
  }

  /** After marking, every row of the window records a reminder. */
  lemma MarkedAreReminded(db: Db, w: Window, now: Ms)
    ensures Reminded(MarkReminded(db, w, now).windows, w.id)
  {
    var r := MarkReminded(db, w, now);
    forall x | x in r.windows && x.id == w.id ensures x.reminderSentAt.Some? {
      var i :| 0 <= i < |r.windows| && r.windows[i] == x;
      assert i < |db.windows| && r.windows[i].id == db.windows[i].id;
    }
  }

  /** With distinct window ids, a row's id is marked by a sweep over rows of the table
      exactly when the row itself is swept and not passed over. */
  lemma MarkedIdsOfRows(db: Db, ws: seq<Window>, leadMs: int)
    requires forall w :: w in ws ==> w in db.windows
    ensures DistinctIds(db.windows) ==> forall i :: 0 <= i < |db.windows| ==>
      (db.windows[i].id in MarkedIds(db, ws, leadMs) <==> db.windows[i] in ws && !Passed(db, db.windows[i], leadMs))
  {
    if DistinctIds(db.windows) {
      forall i | 0 <= i < |db.windows|
        ensures db.windows[i].id in MarkedIds(db, ws, leadMs) <==> db.windows[i] in ws && !Passed(db, db.windows[i], leadMs)
      {
        if db.windows[i].id in MarkedIds(db, ws, leadMs) {
          var w :| w in ws && !Passed(db, w, leadMs) && w.id == db.windows[i].id;
          var j :| 0 <= j < |db.windows| && db.windows[j] == w;
          RowOfId(db.windows, i, j);
        }
      }
    }
  }

  /** Reminds about each window of `ws` in turn. */
  function RemindEach(db: Db, ws: seq<Window>, now: Ms, leadMs: int): (r: Db)
    ensures r.challenges == db.challenges && r.participants == db.participants && r.checkins == db.checkins
    ensures r.payments == db.payments && r.elections == db.elections && r.votes == db.votes
    ensures r.goals == db.goals && r.commitments == db.commitments && r.nextId == db.nextId
    ensures |r.windows| == |db.windows|
    ensures forall i :: 0 <= i < |db.windows| ==>
      r.windows[i] == (if db.windows[i].id in MarkedIds(db, ws, leadMs)
        then db.windows[i].(reminderSentAt := Some(now)) else db.windows[i])
    ensures db.sent <= r.sent
    decreases |ws|
  {
    if |ws| == 0 then db
    else
      var db1 := RemindOne(db, ws[0], now, leadMs);
      var r := RemindEach(db1, ws[1..], now, leadMs);
      assert r.sent[..|db.sent|] == db1.sent[..|db.sent|];
      RemindEachStep(db, db1, r, ws, now, leadMs);
      r
  }

  /** One step of `RemindEach`: marking the first window's id, if it is not passed over,
      then the ids the rest marks, marks the ids of the whole list. */
  lemma RemindEachStep(db: Db, db1: Db, r: Db, ws: seq<Window>, now: Ms, leadMs: int)
    requires |ws| > 0 && db1.challenges == db.challenges && db1.participants == db.participants
    requires db1.windows == (if Passed(db, ws[0], leadMs) then db.windows else MarkReminded(db, ws[0], now).windows)
    requires |r.windows| == |db1.windows|
    requires forall i :: 0 <= i < |db1.windows| ==>
      r.windows[i] == (if db1.windows[i].id in MarkedIds(db1, ws[1..], leadMs)
        then db1.windows[i].(reminderSentAt := Some(now)) else db1.windows[i])
    ensures |r.windows| == |db.windows|
    ensures forall i :: 0 <= i < |db.windows| ==>
      r.windows[i] == (if db.windows[i].id in MarkedIds(db, ws, leadMs)
        then db.windows[i].(reminderSentAt := Some(now)) else db.windows[i])
  {
    MarkedIdsCons(db, db1, ws, leadMs);
  }

  /** Splits the marked ids of a sweep into those of its first window and those of the rest,
      judged on a store with the same challenges and participants. */
  lemma MarkedIdsCons(db: Db, db1: Db, ws: seq<Window>, leadMs: int)
    requires |ws| > 0 && db1.challenges == db.challenges && db1.participants == db.participants
    ensures MarkedIds(db, ws, leadMs) ==
      (if Passed(db, ws[0], leadMs) then {} else {ws[0].id}) + MarkedIds(db1, ws[1..], leadMs)
  {
    assert forall w :: Passed(db1, w, leadMs) == Passed(db, w, leadMs);
    assert forall w :: w in ws <==> w == ws[0] || w in ws[1..];
  }

  /** The reminder sweep. It never changes a window's status or closing time, and a window
      already reminded keeps its reminder. */
  function Reminders(db: Db, now: Ms, env: Env): (r: Db)
    ensures |r.windows| == |db.windows|
    ensures forall i :: 0 <= i < |db.windows| ==>
      && r.windows[i].status == db.windows[i].status && r.windows[i].closesAt == db.windows[i].closesAt
      && (db.windows[i].reminderSentAt.Some? ==> r.windows[i].reminderSentAt.Some?)
    ensures r.participants == db.participants && r.challenges == db.challenges
    ensures var leadMs := env.reminderHoursBeforeClose * HourMs;
      DistinctIds(db.windows) ==> forall i :: 0 <= i < |db.windows| ==>
        && (db.windows[i] in ReminderDue(db, now, leadMs) && !Passed(db, db.windows[i], leadMs) ==>
              r.windows[i] == db.windows[i].(reminderSentAt := Some(now)))
        && (db.windows[i] !in ReminderDue(db, now, leadMs) || Passed(db, db.windows[i], leadMs) ==>
              r.windows[i] == db.windows[i])
  {
    var leadMs := env.reminderHoursBeforeClose * HourMs;
    MarkedIdsOfRows(db, ReminderDue(db, now, leadMs), leadMs);
    RemindEach(db, ReminderDue(db, now, leadMs), now, leadMs)
  }

  // ---------------------------------------------------------------------------------------
  // Closing due windows

  function DueToClose(db: Db, now: Ms): (due: seq<Window>)
    ensures forall w :: w in due <==> w in db.windows && w.status == Open && w.closesAt <= now
  {
    Filter(db.windows, (w: Window) => w.status == Open && w.closesAt <= now)
  }

  /** The closing sweep: every open window whose closing time has come is closed, with the
      roster sent to its group; nothing is rescheduled. */
  function CloseSweep(db: Db, now: Ms): (r: Db)
    ensures SameSlots(db.windows, r.windows) && NoneRescheduled(db.windows, r.windows)
    ensures forall i :: 0 <= i < |db.windows| && db.windows[i].status == Open && db.windows[i].closesAt <= now ==>
      r.windows[i].status == Closed
    ensures forall i :: 0 <= i < |db.windows| && db.windows[i].id !in IdsOf(DueToClose(db, now)) ==>
      r.windows[i] == db.windows[i]
    ensures r.challenges == db.challenges && r.checkins == db.checkins && r.nextId == db.nextId
    ensures CountersAgree(db.participants) ==> CountersAgree(r.participants)
  {
    var due := DueToClose(db, now);
    var r := CloseEach(db, due, true, None);
    assert forall i :: 0 <= i < |db.windows| && db.windows[i].status == Open && db.windows[i].closesAt <= now ==>
      db.windows[i] in due;
    r
  }

  /** With distinct window ids the closing sweep touches only the due windows. */
  lemma {:induction false} CloseSweepTouchesOnlyDue(db: Db, now: Ms)
    requires DistinctIds(db.windows)
    ensures forall i :: 0 <= i < |db.windows| && !(db.windows[i].status == Open && db.windows[i].closesAt <= now) ==>
      CloseSweep(db, now).windows[i] == db.windows[i]
  {
    var due := DueToClose(db, now);
    forall i | 0 <= i < |db.windows| && !(db.windows[i].status == Open && db.windows[i].closesAt <= now)
      ensures db.windows[i].id !in IdsOf(due)
    {
      forall y | y in due ensures y.id != db.windows[i].id {
        var j :| 0 <= j < |db.windows| && db.windows[j] == y;
        RowOfId(db.windows, i, j);
      }
    }
  }

  // ---------------------------------------------------------------------------------------
  // Onboarding timeouts

  const OnboardingTimeoutMs: int := 48 * HourMs

  /** Whether `p` has been onboarding for at least the timeout. */
  predicate Stale(p: Participant, now: Ms, timeoutMs: int) {
    p.status == Onboarding && p.joinedAt <= now - timeoutMs
  }

  function StaleOnboarding(db: Db, now: Ms, timeoutMs: int): (r: seq<Participant>)
    ensures forall p :: p in r <==> p in db.participants && Stale(p, now, timeoutMs)
  {
    Filter(db.participants, (p: Participant) => Stale(p, now, timeoutMs))
  }

  function DroppedIds(db: Db, now: Ms, timeoutMs: int): set<Id> {
    set p | p in StaleOnboarding(db, now, timeoutMs) :: p.id
  }

  /** For each dropped participant whose challenge still exists: a notice to the group, then
      one to the participant. */
  function DropNotices(db: Db, ps: seq<Participant>): (ms: seq<Msg>)
    ensures |ms| <= 2 * |ps|
    ensures forall m :: m in ms ==> exists p :: p in ps && m.note == OnboardingDropped(p.id)
    ensures forall p :: p in ps && FindChallenge(db, p.challengeId).Some? ==>
      && Msg(FindChallenge(db, p.challengeId).value.chatId, OnboardingDropped(p.id)) in ms
      && Msg(p.userId, OnboardingDropped(p.id)) in ms
  {
    if |ps| == 0 then []
    else
      var p := ps[0];
      var rest := DropNotices(db, ps[1..]);
      match FindChallenge(db, p.challengeId)
      case None => rest
      case Some(c) => [Msg(c.chatId, OnboardingDropped(p.id)), Msg(p.userId, OnboardingDropped(p.id))] + rest
  }

  /** The participants with an id in `ids` set to `dropped`. */
  function DropRows(db: Db, ids: set<Id>): (r: Db)
    ensures r == db.(participants := r.participants)
    ensures |r.participants| == |db.participants|
    ensures forall i :: 0 <= i < |db.participants| ==>
      r.participants[i] == (if db.participants[i].id in ids then db.participants[i].(status := Dropped) else db.participants[i])
    ensures CountersAgree(db.participants) ==> CountersAgree(r.participants)
  {
    MapParticipants(db, (p: Participant) => if p.id in ids then p.(status := Dropped) else p)
  }

  /** The onboarding sweep: participants stale at `now` become `dropped`; with distinct
      participant ids nobody else changes. */
  function OnboardingTimeouts(db: Db, now: Ms, timeoutMs: int): (r: Db)
    ensures r.challenges == db.challenges && r.windows == db.windows && r.checkins == db.checkins
    ensures r.payments == db.payments && r.elections == db.elections && r.nextId == db.nextId
    ensures |r.participants| == |db.participants|
    ensures forall i :: 0 <= i < |db.participants| && Stale(db.participants[i], now, timeoutMs) ==>
      r.participants[i] == db.participants[i].(status := Dropped)
    ensures forall i :: 0 <= i < |db.participants| && db.participants[i].id !in DroppedIds(db, now, timeoutMs) ==>
      r.participants[i] == db.participants[i]
    ensures r.sent == db.sent + DropNotices(db, StaleOnboarding(db, now, timeoutMs))
    ensures CountersAgree(db.participants) ==> CountersAgree(r.participants)
  {
    var stale := StaleOnboarding(db, now, timeoutMs);
    // The notices look only at the challenges, which dropping participants leaves alone.
    StaleAreDropped(db, now, timeoutMs);
    Send(DropRows(db, DroppedIds(db, now, timeoutMs)), DropNotices(db, stale))
  }

  /** Every stale row's id is among the ids the sweep drops. */
  lemma StaleAreDropped(db: Db, now: Ms, timeoutMs: int)
    ensures forall i :: 0 <= i < |db.participants| && Stale(db.participants[i], now, timeoutMs) ==>
      db.participants[i].id in DroppedIds(db, now, timeoutMs)
  {
    forall i | 0 <= i < |db.participants| && Stale(db.participants[i], now, timeoutMs)
      ensures db.participants[i].id in DroppedIds(db, now, timeoutMs)
    {
      assert db.participants[i] in StaleOnboarding(db, now, timeoutMs);
    }
  }

  /** Every participant the sweep drops whose challenge exists is announced to the group and
      told privately. */
  lemma OnboardingTimeoutsNotifyAll(db: Db, now: Ms, timeoutMs: int, i: nat)
    requires i < |db.participants| && Stale(db.participants[i], now, timeoutMs)
    requires FindChallenge(db, db.participants[i].challengeId).Some?
    ensures var p := db.participants[i];
      var sent := OnboardingTimeouts(db, now, timeoutMs).sent;
      && Msg(FindChallenge(db, p.challengeId).value.chatId, OnboardingDropped(p.id)) in sent
      && Msg(p.userId, OnboardingDropped(p.id)) in sent
  {
    var p := db.participants[i];
    assert p in StaleOnboarding(db, now, timeoutMs);
  }

  /** With distinct participant ids the sweep changes nobody who is not stale. */
  lemma {:induction false} OnboardingTimeoutsSpareOthers(db: Db, now: Ms, timeoutMs: int)
    requires UniqueBy(db.participants, (p: Participant) => p.id)
    ensures forall i :: 0 <= i < |db.participants| && !Stale(db.participants[i], now, timeoutMs) ==>
      OnboardingTimeouts(db, now, timeoutMs).participants[i] == db.participants[i]
  {
    var stale := StaleOnboarding(db, now, timeoutMs);
    forall i | 0 <= i < |db.participants| && !Stale(db.participants[i], now, timeoutMs)
      ensures db.participants[i].id !in DroppedIds(db, now, timeoutMs)
    {
      forall q | q in stale ensures q.id != db.participants[i].id {
        var j :| 0 <= j < |db.participants| && db.participants[j] == q;
        assert j != i;
        if j < i {
          assert db.participants[j].id != db.participants[i].id;
        } else {
          assert db.participants[i].id != db.participants[j].id;
        }
      }
    }
  }

  /** The timeout boundary: a participant who joined exactly `timeoutMs` ago is dropped; one
      who joined later is not. */
  lemma OnboardingBoundary(db: Db, now: Ms, timeoutMs: int, i: nat)
    requires UniqueBy(db.participants, (p: Participant) => p.id)
    requires i < |db.participants| && db.participants[i].status == Onboarding
    ensures db.participants[i].joinedAt == now - timeoutMs ==>
      OnboardingTimeouts(db, now, timeoutMs).participants[i].status == Dropped
    ensures db.participants[i].joinedAt > now - timeoutMs ==>
      OnboardingTimeouts(db, now, timeoutMs).participants[i].status == Onboarding
  {
    OnboardingTimeoutsSpareOthers(db, now, timeoutMs);
  }

  // ---------------------------------------------------------------------------------------
  // Overdue elections

  /** Elections still in progress that were opened at least `timeoutMs` ago. */
  function OverdueElections(db: Db, now: Ms, timeoutMs: int): (r: seq<Election>)
    ensures forall e :: e in r <==> e in db.elections && e.status == InProgress && e.createdAt <= now - timeoutMs
  {
    Filter(db.elections, (e: Election) => e.status == InProgress && e.createdAt <= now - timeoutMs)
  }

  /** Finalises each election of `es` in timeout mode. */
  function FinalizeEach(db: Db, es: seq<Election>, now: Ms, timeoutMs: int): (r: Db)
    ensures r.windows == db.windows && r.checkins == db.checkins
    ensures r.nextId == db.nextId && |r.elections| == |db.elections|
    ensures CountersAgree(db.participants) ==> CountersAgree(r.participants)
    decreases |es|
  {
    if |es| == 0 then db
    else
      var (db1, _) := Holder.Finalize(db, es[0].id, now, Holder.Timeout, timeoutMs);
      FinalizeEach(db1, es[1..], now, timeoutMs)
  }

  /** Finalising in turn completes every election of `es` that is still in progress, past the
      timeout and settleable, and reopens none; each row keeps its id. */
  lemma {:induction false} FinalizeEachSettles(db: Db, es: seq<Election>, now: Ms, timeoutMs: int)
    requires UniqueBy(db.elections, (x: Election) => x.id)
    ensures var r := FinalizeEach(db, es, now, timeoutMs);
      && |r.elections| == |db.elections|
      && (forall i :: 0 <= i < |db.elections| ==> r.elections[i].id == db.elections[i].id)
      && (forall i :: 0 <= i < |db.elections| && db.elections[i].status != InProgress ==>
            r.elections[i].status != InProgress)
      && (forall i :: (0 <= i < |db.elections| && db.elections[i] in es && db.elections[i].status == InProgress
                        && now - db.elections[i].createdAt >= timeoutMs && Holder.Settleable(db, db.elections[i].challengeId)) ==>
            r.elections[i].status != InProgress)
    decreases |es|, 1
  {
    if |es| > 0 {
      var (db1, out) := Holder.Finalize(db, es[0].id, now, Holder.Timeout, timeoutMs);
      Holder.FinalizeKeepsOthers(db, es[0].id, now, Holder.Timeout, timeoutMs);
      SameIdsUnique(db.elections, db1.elections);
      FinalizeEachSettles(db1, es[1..], now, timeoutMs);
      forall i | 0 <= i < |db.elections| && db.elections[i] in es && db.elections[i].status == InProgress
          && now - db.elections[i].createdAt >= timeoutMs && Holder.Settleable(db, db.elections[i].challengeId)
        ensures FinalizeEach(db, es, now, timeoutMs).elections[i].status != InProgress
      {
        SettlesOne(db, es, now, timeoutMs, i);
      }
    }
  }

  /** Election rows with the same ids, position by position, are uniquely keyed alike. */
  lemma SameIdsUnique(a: seq<Election>, b: seq<Election>)
    requires UniqueBy(a, (x: Election) => x.id)
    requires |b| == |a| && forall i :: 0 <= i < |a| ==> b[i].id == a[i].id
    ensures UniqueBy(b, (x: Election) => x.id)
  {
    forall i, j | 0 <= i < j < |b| ensures b[i].id != b[j].id {
      assert a[i].id != a[j].id;
    }
  }

  /** The step of `FinalizeEachSettles` for one row: either `es[0]` closes it, or it is left
      for the rest of `es`. */
  lemma {:induction false} SettlesOne(db: Db, es: seq<Election>, now: Ms, timeoutMs: int, i: int)
    requires UniqueBy(db.elections, (x: Election) => x.id)
    requires |es| > 0 && 0 <= i < |db.elections| && db.elections[i] in es
    requires db.elections[i].status == InProgress && now - db.elections[i].createdAt >= timeoutMs
    requires Holder.Settleable(db, db.elections[i].challengeId)
    requires var db1 := Holder.Finalize(db, es[0].id, now, Holder.Timeout, timeoutMs).0;
      UniqueBy(db1.elections, (x: Election) => x.id)
    ensures FinalizeEach(db, es, now, timeoutMs).elections[i].status != InProgress
    decreases |es|, 0
  {
    var x := db.elections[i];
    var (db1, out) := Holder.Finalize(db, es[0].id, now, Holder.Timeout, timeoutMs);
    Holder.FinalizeKeepsOthers(db, es[0].id, now, Holder.Timeout, timeoutMs);
    FinalizeEachSettles(db1, es[1..], now, timeoutMs);
    if es[0].id == x.id {
      var f := FindElection(db, x.id).value;
      var j :| 0 <= j < |db.elections| && db.elections[j] == f;
      UniqueByRow(db.elections, (y: Election) => y.id, i, j);
      assert Holder.Closable(db, es[0].id, now, Holder.Timeout, timeoutMs);
      assert db1.elections[i].status != InProgress;
    } else {
      assert x in es[1..];
      assert db1.elections[i] == x;
      assert Holder.Settleable(db1, x.challengeId);
    }
  }

  /** The election sweep: every overdue election whose challenge can be settled is closed, and
      none is reopened. */
  function ElectionSweep(db: Db, now: Ms, timeoutMs: int): (r: Db)
    ensures r.windows == db.windows && r.checkins == db.checkins && r.nextId == db.nextId
    ensures |OverdueElections(db, now, timeoutMs)| == 0 ==> r == db
    ensures CountersAgree(db.participants) ==> CountersAgree(r.participants)
    ensures UniqueBy(db.elections, (x: Election) => x.id) ==>
      && |r.elections| == |db.elections|
      && forall i :: 0 <= i < |db.elections| ==>
        && (db.elections[i].status != InProgress ==> r.elections[i].status != InProgress)
        && (db.elections[i] in OverdueElections(db, now, timeoutMs) && Holder.Settleable(db, db.elections[i].challengeId) ==>
              r.elections[i].status != InProgress)
  {
    var r := FinalizeEach(db, OverdueElections(db, now, timeoutMs), now, timeoutMs);
    if UniqueBy(db.elections, (x: Election) => x.id) then
      FinalizeEachSettles(db, OverdueElections(db, now, timeoutMs), now, timeoutMs);
      r
    else r
  }

  /** An election the sweep selects is past the timeout that finalisation checks again, so
      it is not turned back for being too young. */
  lemma OverdueIsPastTimeout(db: Db, now: Ms, timeoutMs: int, e: Election)
    requires e in OverdueElections(db, now, timeoutMs)
    requires UniqueBy(db.elections, (x: Election) => x.id)
    ensures FindElection(db, e.id) == Some(e)
    ensures !(now - e.createdAt < timeoutMs)
  {
    var k :| 0 <= k < |db.elections| && db.elections[k] == e;
    var f := FindElection(db, e.id).value;
    var j :| 0 <= j < |db.elections| && db.elections[j] == f;
    UniqueByRow(db.elections, (x: Election) => x.id, j, k);
  }
}

=== FILE: telegram_markdown.dfy ===
/** Escaping user-supplied text for Telegram's legacy Markdown: the six characters that the
    parser treats as markup get a backslash in front; everything else is copied. */
module TelegramMarkdown {

  /** The characters the escaper protects: backslash, underscore, asterisk, both square
      brackets and the backtick. */
  predicate Special(c: char) {
    c == '\\' || c == '_' || c == '*' || c == '[' || c == ']' || c == '`'
  }

  /** `String.prototype.replaceAll` with a one-character pattern: every occurrence of `pat`
      becomes `rep`, left to right, and the replacement is not scanned again. */
  function ReplaceAll(s: string, pat: char, rep: string): (r: string)
    ensures (forall i :: 0 <= i < |s| ==> s[i] != pat) ==> r == s
  {
    if |s| == 0 then ""
    else (if s[0] == pat then rep else [s[0]]) + ReplaceAll(s[1..], pat, rep)
  }

  lemma {:induction false} ReplaceAllAppend(a: string, b: string, pat: char, rep: string)
    ensures ReplaceAll(a + b, pat, rep) == ReplaceAll(a, pat, rep) + ReplaceAll(b, pat, rep)
  {
    if |a| > 0 {
      assert (a + b)[1..] == a[1..] + b;
      ReplaceAllAppend(a[1..], b, pat, rep);
    } else {
      assert a + b == b;
    }
  }

  /** The escaper as written: six `replaceAll` calls, the backslash first. */
  function EscapeChain(text: string): string {
    var t1 := ReplaceAll(text, '\\', "\\\\");
    var t2 := ReplaceAll(t1, '_', "\\_");
    var t3 := ReplaceAll(t2, '*', "\\*");
    var t4 := ReplaceAll(t3, '[', "\\[");
    var t5 := ReplaceAll(t4, ']', "\\]");
    ReplaceAll(t5, '`', "\\`")
  }

  /** One character's escape. */
  function EscapeChar(c: char): (r: string)
    ensures Special(c) ==> r == ['\\', c]
    ensures !Special(c) ==> r == [c]
  {
    if Special(c) then ['\\', c] else [c]
  }

  /** The escaper as a single left-to-right character map. */
  function Escape(text: string): (r: string)
    ensures |r| >= |text|
  {
    if |text| == 0 then "" else EscapeChar(text[0]) + Escape(text[1..])
  }

  /** Removing the escapes: a backslash before a protected character is dropped. */
  function Unescape(t: string): (r: string)
    decreases |t|
  {
    if |t| == 0 then ""
    else if |t| >= 2 && t[0] == '\\' && Special(t[1]) then [t[1]] + Unescape(t[2..])
    else [t[0]] + Unescape(t[1..])
  }

  /** The chain distributes over concatenation, since each step does. */
  lemma EscapeChainAppend(a: string, b: string)
    ensures EscapeChain(a + b) == EscapeChain(a) + EscapeChain(b)
  {
    ReplaceAllAppend(a, b, '\\', "\\\\");
    var a1, b1 := ReplaceAll(a, '\\', "\\\\"), ReplaceAll(b, '\\', "\\\\");
    ReplaceAllAppend(a1, b1, '_', "\\_");
    var a2, b2 := ReplaceAll(a1, '_', "\\_"), ReplaceAll(b1, '_', "\\_");
    ReplaceAllAppend(a2, b2, '*', "\\*");
    var a3, b3 := ReplaceAll(a2, '*', "\\*"), ReplaceAll(b2, '*', "\\*");
    ReplaceAllAppend(a3, b3, '[', "\\[");
    var a4, b4 := ReplaceAll(a3, '[', "\\["), ReplaceAll(b3, '[', "\\[");
    ReplaceAllAppend(a4, b4, ']', "\\]");
    var a5, b5 := ReplaceAll(a4, ']', "\\]"), ReplaceAll(b4, ']', "\\]");
    ReplaceAllAppend(a5, b5, '`', "\\`");
  }

  /** The chain on one character. */
  lemma EscapeChainChar(c: char)
    ensures EscapeChain([c]) == EscapeChar(c)
  {
    if c == '\\' {
      assert ReplaceAll([c], '\\', "\\\\") == "\\\\";
      assert ReplaceAll("\\\\", '_', "\\_") == "\\\\" by { ReplaceAllNone("\\\\", '_', "\\_"); }
      ReplaceAllNone("\\\\", '*', "\\*");
      ReplaceAllNone("\\\\", '[', "\\[");
      ReplaceAllNone("\\\\", ']', "\\]");
      ReplaceAllNone("\\\\", '`', "\\`");
    } else {
      var s: string := [c];
      ReplaceAllNone(s, '\\', "\\\\");
      var r := EscapeChar(c);
      if c == '_' {
        assert ReplaceAll(s, '_', "\\_") == r;
        ReplaceAllNone(r, '*', "\\*");
        ReplaceAllNone(r, '[', "\\[");
        ReplaceAllNone(r, ']', "\\]");
        ReplaceAllNone(r, '`', "\\`");
      } else if c == '*' {
        ReplaceAllNone(s, '_', "\\_");
        assert ReplaceAll(s, '*', "\\*") == r;
        ReplaceAllNone(r, '[', "\\[");
        ReplaceAllNone(r, ']', "\\]");
        ReplaceAllNone(r, '`', "\\`");
      } else if c == '[' {
        ReplaceAllNone(s, '_', "\\_");
        ReplaceAllNone(s, '*', "\\*");
        assert ReplaceAll(s, '[', "\\[") == r;
        ReplaceAllNone(r, ']', "\\]");
        ReplaceAllNone(r, '`', "\\`");
      } else if c == ']' {
        ReplaceAllNone(s, '_', "\\_");
        ReplaceAllNone(s, '*', "\\*");
        ReplaceAllNone(s, '[', "\\[");
        assert ReplaceAll(s, ']', "\\]") == r;
        ReplaceAllNone(r, '`', "\\`");
      } else if c == '`' {
        ReplaceAllNone(s, '_', "\\_");
        ReplaceAllNone(s, '*', "\\*");
        ReplaceAllNone(s, '[', "\\[");
        ReplaceAllNone(s, ']', "\\]");
        assert ReplaceAll(s, '`', "\\`") == r;
      } else {
        ReplaceAllNone(s, '_', "\\_");
        ReplaceAllNone(s, '*', "\\*");
        ReplaceAllNone(s, '[', "\\[");
        ReplaceAllNone(s, ']', "\\]");
        ReplaceAllNone(s, '`', "\\`");
      }
    }
  }

  lemma ReplaceAllNone(s: string, pat: char, rep: string)
    requires forall i :: 0 <= i < |s| ==> s[i] != pat
    ensures ReplaceAll(s, pat, rep) == s
  {
  }

  /** Because the backslash is escaped first, no later step sees a backslash it introduced
      as anything but a backslash: the chain equals the one-pass character map. */
  lemma {:induction false} ChainIsEscape(text: string)
    ensures EscapeChain(text) == Escape(text)
  {
    if |text| > 0 {
      assert text == [text[0]] + text[1..];
      EscapeChainAppend([text[0]], text[1..]);
      EscapeChainChar(text[0]);
      ChainIsEscape(text[1..]);
    }
  }

  /** The escaped text reads back as the original: every character is copied, in order, and
      each protected one is preceded by exactly one added backslash. */
  lemma {:induction false} UnescapeEscape(text: string)
    ensures Unescape(Escape(text)) == text
  {
    if |text| > 0 {
      var c := text[0];
      var rest := Escape(text[1..]);
      UnescapeEscape(text[1..]);
      if Special(c) {
        assert Escape(text) == ['\\', c] + rest;
        assert (['\\', c] + rest)[2..] == rest;
      } else {
        assert Escape(text) == [c] + rest;
        assert ([c] + rest)[1..] == rest;
      }
      assert text == [c] + text[1..];
    }
  }

  /** The output is as long as the input plus one backslash per protected character. */
  lemma {:induction false} EscapeLength(text: string)
    ensures |Escape(text)| == |text| + CountSpecial(text)
  {
    if |text| > 0 {
      EscapeLength(text[1..]);
    }
  }

  function CountSpecial(text: string): (n: nat)
    ensures n <= |text|
  {
    if |text| == 0 then 0 else (if Special(text[0]) then 1 else 0) + CountSpecial(text[1..])
  }

  /** Text without protected characters is left as it is. */
  lemma {:induction false} PlainTextUnchanged(text: string)
    requires forall i :: 0 <= i < |text| ==> !Special(text[i])
    ensures Escape(text) == text
  {
    if |text| > 0 {
      PlainTextUnchanged(text[1..]);
      assert text == [text[0]] + text[1..];
    }
  }

  /** The escape of the whole text is the escape of its parts, so an escaped name embedded in
      a message line stays escaped. */
  lemma {:induction false} EscapeAppend(a: string, b: string)
    ensures Escape(a + b) == Escape(a) + Escape(b)
  {
    if |a| > 0 {
      assert (a + b)[1..] == a[1..] + b;
      EscapeAppend(a[1..], b);
    } else {
      assert a + b == b;
    }
  }

  /** The public entry point: `escapeTelegramMarkdown`. */
  function EscapeTelegramMarkdown(text: string): (r: string)
    ensures r == Escape(text)
    ensures Unescape(r) == text
    ensures |r| == |text| + CountSpecial(text)
  {
    ChainIsEscape(text);
    UnescapeEscape(text);
    EscapeLength(text);
    EscapeChain(text)
  }
}

=== FILE: window_label.dfy ===
/** The human-readable length of a check-in window in the "window opened" notice: minutes
    below an hour, hours up to two days, days beyond, each rounded half up. */
module WindowLabels {
  import opened Common

  datatype Span = Minutes(n: int) | Hours(n: int) | Days(n: int)

  /** `x / d` rounded to the nearest integer, halves upwards (JavaScript's `Math.round`). */
  function RoundDiv(x: int, d: int): (q: int)
    requires d > 0
    ensures d * (2 * q - 1) <= 2 * x < d * (2 * q + 1)
  {
    var q := (2 * x + d) / (2 * d);
    assert 2 * d * q <= 2 * x + d < 2 * d * q + 2 * d;
    q
  }

  /** The unit and count shown for a window of `ms` milliseconds. */
  function WindowSpan(ms: int): (s: Span)
    ensures s.Minutes? ==> 1 <= s.n < 60
    ensures s.Hours? ==> 1 <= s.n <= 48
    ensures s.Days? ==> s.n >= 2
  {
    var totalMinutes := Max(1, RoundDiv(ms, 60000));
    if totalMinutes < 60 then Minutes(totalMinutes)
    else
      var totalHours := RoundDiv(totalMinutes, 60);
      if totalHours <= 48 then Hours(totalHours)
      else Days(RoundDiv(totalHours, 24))
  }

  /** The unit chosen depends on the rounded minute count only: under an hour gives minutes,
      and the text is never less than one minute. */
  lemma {:induction false} WindowSpanAccuracy(ms: int)
    ensures ms < 30000 ==> WindowSpan(ms) == Minutes(1)
    ensures 30000 <= ms && WindowSpan(ms).Minutes? ==>
      WindowSpan(ms).n * 60000 - 30000 <= ms < WindowSpan(ms).n * 60000 + 30000
    ensures ms < 3570000 ==> WindowSpan(ms).Minutes?
    ensures ms >= 3570000 ==> !WindowSpan(ms).Minutes?
  {
    var m := RoundDiv(ms, 60000);
    if ms < 30000 {
      assert m <= 0;
    }
    if ms < 3570000 {
      assert m < 60;
    }
    if ms >= 3570000 {
      assert m >= 60;
    }
  }

  /** An hour count is within half an hour (and the half minute lost to rounding minutes) of
      the window's length, and a day count within half a day (and those same roundings). */
  lemma {:induction false} WindowSpanCoarseAccuracy(ms: int)
    ensures WindowSpan(ms).Hours? ==>
      WindowSpan(ms).n * 3600000 - 1830000 <= ms < WindowSpan(ms).n * 3600000 + 1830000
    ensures WindowSpan(ms).Days? ==>
      WindowSpan(ms).n * 86400000 - 45030000 <= ms < WindowSpan(ms).n * 86400000 + 45030000
  {
    var m := RoundDiv(ms, 60000);
    if !WindowSpan(ms).Minutes? {
      assert m >= 60 && Max(1, m) == m;
      var h := RoundDiv(m, 60);
      assert 60 * h - 30 <= m < 60 * h + 30;
      assert 3600000 * h - 1830000 <= ms < 3600000 * h + 1830000;
      if WindowSpan(ms).Days? {
        var n := RoundDiv(h, 24);
        assert 24 * n - 12 <= h < 24 * n + 12;
      }
    }
  }

  function FormatWindowDuration(ms: int): (text: string)
    ensures var s := WindowSpan(ms);
      var k := |IntToString(s.n)|;
      && k < |text|
      && text[..k] == IntToString(s.n)
      && text[k..] == (match s case Minutes(_) => " мин." case Hours(_) => " ч." case Days(_) => " дн.")
  {
    var s := WindowSpan(ms);
    var unit := match s case Minutes(_) => " мин." case Hours(_) => " ч." case Days(_) => " дн.";
    var text := IntToString(s.n) + unit;
    assert text[..|IntToString(s.n)|] == IntToString(s.n);
    assert text[|IntToString(s.n)|..] == unit;
    text
  }

  /** The number at the front of the text reads back as the count of the unit. */
  lemma FormatWindowDurationReadsBack(ms: int)
    ensures var s := WindowSpan(ms);
      ParseInt(FormatWindowDuration(ms)[..|IntToString(s.n)|]) == s.n
  {
    IntToStringRoundTrip(WindowSpan(ms).n);
  }

  /** A ten-minute test window is labelled in minutes, a day-long one in hours, a week in
      days. */
  lemma WindowSpanExamples()
    ensures WindowSpan(10 * 60000) == Minutes(10)
    ensures WindowSpan(24 * 3600000) == Hours(24)
    ensures WindowSpan(7 * 24 * 3600000) == Days(7)
  {
  }
}

=== FILE: windows.dfy ===
/** Generation of a challenge's check-in windows: window k (k >= 1) opens k periods after the
    start and stays open for the window length, capped by the period and by the end of the
    challenge. Generation replaces every earlier window of the challenge. */
module CheckinWindows {
  import opened Common
  import opened Schema

  /** A window as generated, before the store assigns its id. */
  datatype Slot = Slot(windowNumber: int, opensAt: Ms, closesAt: Ms)

  /** How long each window stays open: the window length, capped by the period (the window
      length stands in for a non-positive period). */
  function WindowDurationMs(periodMs: int, windowMs: int): (d: int)
    ensures d <= windowMs
    ensures periodMs > 0 ==> d <= periodMs
    ensures periodMs > 0 && windowMs >= 0 ==> d >= 0
  {
    Min(windowMs, if periodMs > 0 then periodMs else windowMs)
  }

  /** The opening time of window `k`. */
  function OpensAt(startedAt: Ms, periodMs: int, k: int): Ms {
    startedAt + k * periodMs
  }

  /** Window `k` of the closed form. */
  function SlotAt(startedAt: Ms, endsAt: Ms, periodMs: int, windowMs: int, k: int): Slot {
    var o := OpensAt(startedAt, periodMs, k);
    Slot(k, o, Min(o + WindowDurationMs(periodMs, windowMs), endsAt))
  }

  lemma MulMono(a: int, b: int, p: int)
    requires a <= b && p >= 0
    ensures a * p <= b * p
  {
    assert b * p - a * p == (b - a) * p;
  }

  /** The number of windows that open strictly before `endsAt`. */
  function WindowCount(startedAt: Ms, endsAt: Ms, periodMs: int): (n: nat)
    requires periodMs > 0
    ensures forall k :: 1 <= k ==> (k <= n <==> OpensAt(startedAt, periodMs, k) < endsAt)
  {
    var n := if startedAt + periodMs >= endsAt then 0 else (endsAt - startedAt - 1) / periodMs;
    CountCharacterization(startedAt, endsAt, periodMs, n);
    n
  }

  lemma CountCharacterization(startedAt: Ms, endsAt: Ms, periodMs: int, n: int)
    requires periodMs > 0
    requires n == if startedAt + periodMs >= endsAt then 0 else (endsAt - startedAt - 1) / periodMs
    ensures forall k :: 1 <= k ==> (k <= n <==> OpensAt(startedAt, periodMs, k) < endsAt)
  {
    forall k | 1 <= k
      ensures k <= n <==> OpensAt(startedAt, periodMs, k) < endsAt
    {
      if startedAt + periodMs >= endsAt {
        MulMono(1, k, periodMs);
      } else {
        var q := (endsAt - startedAt - 1) / periodMs;
        var r := (endsAt - startedAt - 1) % periodMs;
        assert endsAt - startedAt - 1 == q * periodMs + r && 0 <= r < periodMs;
        if k <= q {
          MulMono(k, q, periodMs);
        } else {
          MulMono(q + 1, k, periodMs);
        }
      }
    }
  }

  /** The windows generation produces, or `None` where the generating loop never ends: a
      non-positive period whose first opening is still before the end. */
  function Plan(startedAt: Ms, endsAt: Ms, periodMs: int, windowMs: int): (r: Option<seq<Slot>>)
    ensures r.None? <==> periodMs <= 0 && startedAt + periodMs < endsAt
  {
    if periodMs <= 0 then
      (if startedAt + periodMs < endsAt then None else Some([]))
    else
      Some(seq(WindowCount(startedAt, endsAt, periodMs),
               i => SlotAt(startedAt, endsAt, periodMs, windowMs, i + 1)))
  }

  /** The generating loop, step by step: number 1 opens one period after the start, each next
      window one period later, while the opening is before the end. It computes the plan. */
  method GenerateSlots(startedAt: Ms, endsAt: Ms, periodMs: int, windowMs: int) returns (r: Option<seq<Slot>>)
    ensures r == Plan(startedAt, endsAt, periodMs, windowMs)
  {
    if periodMs <= 0 {
      if startedAt + periodMs < endsAt {
        return None;
      }
      return Some([]);
    }
    var duration := WindowDurationMs(periodMs, windowMs);
    var windowNumber := 1;
    var opensAt := startedAt + periodMs;
    var rows: seq<Slot> := [];
    ghost var n := WindowCount(startedAt, endsAt, periodMs);
    while opensAt < endsAt
      invariant windowNumber == |rows| + 1
      invariant opensAt == OpensAt(startedAt, periodMs, windowNumber)
      invariant |rows| <= n
      invariant forall i :: 0 <= i < |rows| ==> rows[i] == SlotAt(startedAt, endsAt, periodMs, windowMs, i + 1)
      decreases endsAt - opensAt
    {
      var closesAt := Min(opensAt + duration, endsAt);
      rows := rows + [Slot(windowNumber, opensAt, closesAt)];
      windowNumber := windowNumber + 1;
      opensAt := opensAt + periodMs;
    }
    assert |rows| == n;
    assert rows == Plan(startedAt, endsAt, periodMs, windowMs).value;
    return Some(rows);
  }

  /** The shape of the generated windows. */
  lemma PlanShape(startedAt: Ms, endsAt: Ms, periodMs: int, windowMs: int)
    requires periodMs > 0
    ensures var slots := Plan(startedAt, endsAt, periodMs, windowMs).value;
      && (|slots| == 0 <==> startedAt + periodMs >= endsAt)
      && OpensAt(startedAt, periodMs, |slots| + 1) >= endsAt
      && (forall i :: 0 <= i < |slots| ==>
            && slots[i].windowNumber == i + 1
            && slots[i].opensAt == startedAt + (i + 1) * periodMs
            && slots[i].opensAt < endsAt
            && slots[i].closesAt <= endsAt
            && slots[i].closesAt - slots[i].opensAt <= windowMs
            && (windowMs >= 0 ==> slots[i].opensAt <= slots[i].closesAt))
      && (forall i :: 0 <= i < |slots| - 1 ==> slots[i].closesAt <= slots[i + 1].opensAt)
  {
    var slots := Plan(startedAt, endsAt, periodMs, windowMs).value;
    var n := WindowCount(startedAt, endsAt, periodMs);
    assert OpensAt(startedAt, periodMs, 1) == startedAt + periodMs;
    assert !(n + 1 <= n);
    forall i | 0 <= i < |slots| - 1
      ensures slots[i].closesAt <= slots[i + 1].opensAt
    {
      assert OpensAt(startedAt, periodMs, i + 2) == OpensAt(startedAt, periodMs, i + 1) + periodMs;
    }
  }

  /** Window rows for `slots`, with consecutive new ids from `firstId`. */
  function ToRows(challengeId: Id, slots: seq<Slot>, firstId: Id): (ws: seq<Window>)
    ensures |ws| == |slots|
    ensures forall i :: 0 <= i < |ws| ==>
      && ws[i].id == firstId + i
      && ws[i].challengeId == challengeId
      && Slot(ws[i].windowNumber, ws[i].opensAt, ws[i].closesAt) == slots[i]
      && ws[i].status == Scheduled && ws[i].reminderSentAt.None?
  {
    seq(|slots|, i requires 0 <= i < |slots| =>
      Window(firstId + i, challengeId, slots[i].windowNumber, slots[i].opensAt, slots[i].closesAt, None, Scheduled))
  }

  /** The windows of one challenge, in storage order. */
  function WindowsOf(ws: seq<Window>, challengeId: Id): (r: seq<Window>)
    ensures forall w :: w in r <==> w in ws && w.challengeId == challengeId
  {
    Filter(ws, (w: Window) => w.challengeId == challengeId)
  }

  function OtherWindows(ws: seq<Window>, challengeId: Id): (r: seq<Window>)
    ensures forall w :: w in r <==> w in ws && w.challengeId != challengeId
  {
    Filter(ws, (w: Window) => w.challengeId != challengeId)
  }

  /** What a stored window says about its schedule, without its id. */
  function SlotOf(w: Window): Slot {
    Slot(w.windowNumber, w.opensAt, w.closesAt)
  }

  function Slots(ws: seq<Window>): (r: seq<Slot>)
    ensures |r| == |ws|
    ensures forall i :: 0 <= i < |ws| ==> r[i] == SlotOf(ws[i])
  {
    seq(|ws|, i requires 0 <= i < |ws| => SlotOf(ws[i]))
  }

  /** Deletes the challenge's windows and inserts the generated ones; the second component is
      the number of windows inserted. `None` where generation would never end. */
  function Regenerate(db: Db, challengeId: Id, startedAt: Ms, endsAt: Ms, periodMs: int, windowMs: int): (r: Option<(Db, nat)>)
    ensures r.None? <==> periodMs <= 0 && startedAt + periodMs < endsAt
    ensures r.Some? ==> r.value.0 == db.(windows := r.value.0.windows, nextId := r.value.0.nextId)
  {
    match Plan(startedAt, endsAt, periodMs, windowMs)
    case None => None
    case Some(slots) =>
      Some((db.(windows := OtherWindows(db.windows, challengeId) + ToRows(challengeId, slots, db.nextId),
                nextId := db.nextId + |slots|),
            |slots|))
  }

  /** After generation the challenge's windows are exactly the plan, all scheduled and
      unreminded, whatever windows it had before; the count returned is their number; every
      other challenge's windows are untouched. */
  lemma RegenerateResult(db: Db, challengeId: Id, startedAt: Ms, endsAt: Ms, periodMs: int, windowMs: int)
    requires Regenerate(db, challengeId, startedAt, endsAt, periodMs, windowMs).Some?
    ensures var (db', n) := Regenerate(db, challengeId, startedAt, endsAt, periodMs, windowMs).value;
      && Slots(WindowsOf(db'.windows, challengeId)) == Plan(startedAt, endsAt, periodMs, windowMs).value
      && n == |WindowsOf(db'.windows, challengeId)|
      && (forall w :: w in WindowsOf(db'.windows, challengeId) ==> w.status == Scheduled && w.reminderSentAt.None?)
      && OtherWindows(db'.windows, challengeId) == OtherWindows(db.windows, challengeId)
  {
    var slots := Plan(startedAt, endsAt, periodMs, windowMs).value;
    var others := OtherWindows(db.windows, challengeId);
    var added := ToRows(challengeId, slots, db.nextId);
    forall i | 0 <= i < |others| ensures others[i].challengeId != challengeId {
      assert others[i] in others;
    }
    SplitByChallenge(others, added, challengeId);
    assert Slots(added) == slots;
  }

  /** Windows of other challenges followed by windows of this one split back into the two. */
  lemma SplitByChallenge(others: seq<Window>, added: seq<Window>, challengeId: Id)
    requires forall i :: 0 <= i < |others| ==> others[i].challengeId != challengeId
    requires forall i :: 0 <= i < |added| ==> added[i].challengeId == challengeId
    ensures WindowsOf(others + added, challengeId) == added
    ensures OtherWindows(others + added, challengeId) == others
  {
    var isThis := (w: Window) => w.challengeId == challengeId;
    var isOther := (w: Window) => w.challengeId != challengeId;
    FilterAppend(others, added, isThis);
    FilterAppend(others, added, isOther);
    FilterAllOrNone(others, isThis);
    FilterAllOrNone(added, isThis);
    FilterAllOrNone(others, isOther);
    FilterAllOrNone(added, isOther);
    assert [] + added == added;
    assert others + [] == others;
  }

  /** Generating twice with the same inputs leaves the same window schedule as generating once. */
  lemma RegenerateIdempotent(db: Db, challengeId: Id, startedAt: Ms, endsAt: Ms, periodMs: int, windowMs: int)
    requires Regenerate(db, challengeId, startedAt, endsAt, periodMs, windowMs).Some?
    ensures var once := Regenerate(db, challengeId, startedAt, endsAt, periodMs, windowMs).value.0;
      var twice := Regenerate(once, challengeId, startedAt, endsAt, periodMs, windowMs).value.0;
      && Slots(WindowsOf(twice.windows, challengeId)) == Slots(WindowsOf(once.windows, challengeId))
      && OtherWindows(twice.windows, challengeId) == OtherWindows(once.windows, challengeId)
  {
    var once := Regenerate(db, challengeId, startedAt, endsAt, periodMs, windowMs).value.0;
    RegenerateResult(db, challengeId, startedAt, endsAt, periodMs, windowMs);
    RegenerateResult(once, challengeId, startedAt, endsAt, periodMs, windowMs);
  }

  /** Generation keeps the store's constraints: added ids above every existing one, and window
      numbers 1..n unique within the challenge. */
  lemma RegenerateKeepsValid(db: Db, challengeId: Id, startedAt: Ms, endsAt: Ms, periodMs: int, windowMs: int)
    requires Valid(db)
    requires Regenerate(db, challengeId, startedAt, endsAt, periodMs, windowMs).Some?
    ensures Valid(Regenerate(db, challengeId, startedAt, endsAt, periodMs, windowMs).value.0)
  {
    var slots := Plan(startedAt, endsAt, periodMs, windowMs).value;
    var others := OtherWindows(db.windows, challengeId);
    var added := ToRows(challengeId, slots, db.nextId);
    var db' := Regenerate(db, challengeId, startedAt, endsAt, periodMs, windowMs).value.0;
    assert db'.windows == others + added;
    var isOther := (w: Window) => w.challengeId != challengeId;
    var byId := (w: Window) => w.id;
    var byNumber := (w: Window) => (w.challengeId, w.windowNumber);
    FilterUniqueBy(db.windows, isOther, byId);
    FilterUniqueBy(db.windows, isOther, byNumber);
    forall i | 0 <= i < |others| ensures others[i].id < db.nextId {
      assert others[i] in db.windows;
    }
    if periodMs > 0 {
      PlanShape(startedAt, endsAt, periodMs, windowMs);
    }
    UniqueByAppend(others, added, byId);
    UniqueByAppend(others, added, byNumber);
  }
}
